=== FILE: README.md ===
# black-watch in Dafny

A model of the core of black-watch. black-watch watches crypto-currency quotes and evaluates
user-written JavaScript "tally sources" against them. The model covers:

- **The daemon's request engine**:
  - the serialisable work item `RequestInfo` and its factory functions;
  - the per-API-tag request queues kept as Redis lists;
  - the request factory;
  - the request runner, which dequeues a batch per iteration, runs it, requeues on `Retry` and
    `WaitAndRetry`, and pauses one interval after each `WaitAndRetry` and once per iteration;
  - the throttling queue.
- **The three download requests (Polygon and Messari)**: how each classifies the result of its
  API call and what it writes: daily quotes, hourly quotes, or more queued requests.
- **The cron side**:
  - the loop that waits for each occurrence of a schedule and runs its action;
  - the four actions: initialisation, quote-history download, quote snapshot, and evaluation.
- **The Redis stores**:
  - the key names;
  - the quote store's daily hashes and hourly lists, and the extraction of trackers from keys;
  - the user data store's tally-source hash and its bounded tally histories, newest first.
- **Tally evaluation**: selecting the sources of an interval, and classifying a script's
  returned value into a tally state and result.
- **The web client**:
  - the in-memory model container;
  - the navigation history;
  - the interval labels.

## How it is modelled

**Modules.** Each source file becomes one Dafny module. Two helper modules are added: `Redis`,
for the list and hash commands with Redis's index rules, and `Text`, for ASCII `\w` and white
space.

**Classes.** Services that keep or change state become classes: `RedisRequestQueue`,
`RedisQuoteStore`, `RedisUserDataStore`, `ThrottlingQueue`, `RequestRunner`, `ModelContainer` and
`Navigation`. A Redis database is a class field that maps the real key strings to lists or hashes.
An emptied list or hash disappears, as in Redis. Loops in the source are `while` loops proved
against specification functions, for example:

- `ExecuteBatch` against `BatchTrace`;
- `EvaluateAll` against `Evaluations`;
- `PutTallies` against `PutAllTallies`;
- `DequeueAll` against `Trace`;
- `RunCronAction` against `CronLoop`;
- `RequestRunner.Run` against `Loop`.

The specification functions `CronRunner.CronLoop`, `CronRunner.CronWait`, `RequestRunners.Round`,
`RequestRunners.Loop`, `RequestRunners.Iterations`, `QuoteHistoryRequests.PutAllDaily` and
`CronActions.PutAllTallies` have no rows of their own: each is the reference definition in which
the contracts of the members listed against it above are stated, and the lemmas named after it in
"## Model" state its properties.

**Inputs.** Everything the code only observes becomes a parameter:

- **Time**: `DateTimeOffset.UtcNow` and `DateTimeOffset.Now` are an `Instant` (milliseconds since
  the Unix epoch) or a clock function `nat -> Instant` that gives successive readings.
  A `DateTimeOffset` whose offset matters, the date a daily quote is asked for, is an `Instant` and
  its offset in milliseconds. Quote dates are UTC instants: the history request makes them with
  `FromUnixTimeMilliseconds`, whose offset is 0.
- **HTTP responses** are a `Call<T>`: either a decoded response or a fault with its status code.
- **Script evaluation**: the result of running a script is an `Evaluation`.
- **Cron schedules** are a next-occurrence function.
- **Cancellation** is a step budget.
- **Redis transactions**: whether a transaction committed is a parameter.

**Faithful to the code.** The classes follow the code as written, including its three defects
(see "## Findings"):

- the throttle does not reset its counter;
- the hourly trim keeps the whole list;
- `GetTallies` with a count of 0 returns everything, and with a negative count nearly everything.

The corrected definitions sit beside them, with the property that was evidently intended
proved about each.

## Model

| member | source | states |
|---|---|---|
| RequestInfos.DownloadTrackers | src/BlackWatch.Core/Contracts/RequestInfo.cs:25-28 | sets only the tracker payload and the given tag |
| RequestInfos.DownloadQuoteHistory | src/BlackWatch.Core/Contracts/RequestInfo.cs:30-33 | sets only the quote-history payload and the given tag |
| RequestInfos.DownloadQuoteSnapshots | src/BlackWatch.Core/Contracts/RequestInfo.cs:35-38 | sets only the (empty) snapshot payload and the given tag |
| RequestInfos.NopIsEmpty | src/BlackWatch.Core/Contracts/RequestInfo.cs:23 | Nop has no payload and no tag, and it is the only value with neither |
| RequestInfos.FactoriesDistinct | src/BlackWatch.Core/Contracts/RequestInfo.cs:23-38 | the three factories never produce each other's values and never produce Nop |
| RequestEngine.GetLogLevel | src/BlackWatch.Daemon/RequestEngine/RequestRunner.cs:81-90 | Information exactly for Ok; Warning exactly for the outcomes that requeue; Error exactly for Fatal |
| RequestEngine.Moniker | src/BlackWatch.Daemon/Features/Requests/Polygon/QuoteHistoryRequest.cs:21 | the moniker tells the four kinds of request apart: "nop", "download crypto trackers" and "download quote snapshots" exactly for their kinds, and "download aggregates for " followed by the symbol exactly for a history request (the others at src/BlackWatch.Daemon/RequestEngine/Request.cs:31, src/BlackWatch.Daemon/Features/Requests/Polygon/TrackerRequest.cs:21 and src/BlackWatch.Daemon/Features/Requests/Messari/QuoteSnapshotRequest.cs:23) |
| RequestEngine.ToString | src/BlackWatch.Daemon/RequestEngine/Request.cs:20-23 | the text is `Job[` + moniker + `]` |
| RequestEngine.ToStringInjective | src/BlackWatch.Daemon/RequestEngine/Request.cs:20-23 | two requests print the same exactly when their monikers are equal |
| RequestEngine.NopToString | src/BlackWatch.Daemon/RequestEngine/Request.cs:29-40 | the nop request prints as `Job[nop]` |
| RequestEngine.ExecuteNop | src/BlackWatch.Daemon/RequestEngine/Request.cs:35-39 | the nop outcome neither requeues nor pauses, and is logged at Information |
| RequestFactory.BuildRequest | src/BlackWatch.Daemon/Features/Requests/RequestFactory.cs:14-28 | fails with ArgumentException exactly for a value with a tag and no payload; builds the nop request exactly for Nop; otherwise the first payload in the order history, trackers, snapshots decides the kind |
| RequestFactory.BuildFromFactories | src/BlackWatch.Daemon/Features/Requests/RequestFactory.cs:20-25 | each factory's value builds the matching request with the same payload |
| RequestFactory.BuildIgnoresTag | src/BlackWatch.Daemon/Features/Requests/RequestFactory.cs:20-27 | once a value has a payload, its tag does not affect the request built |
| RedisNames.RequestsInjective | src/BlackWatch.Core/Services/RedisNames.cs:12 | distinct tags have distinct queue keys |
| RedisNames.RequestKeysApart | src/BlackWatch.Core/Services/RedisNames.cs:12-61 | a queue key never equals a tally, tally-source, quote or next-id key |
| RedisNames.QuoteKeysApart | src/BlackWatch.Core/Services/RedisNames.cs:32-51 | daily and hourly keys never collide; each kind is injective in the symbol |
| RedisNames.TallyKeys | src/BlackWatch.Core/Services/RedisNames.cs:17-56 | tally keys are injective, and collide with the tally-sources hash exactly for the id "sources" |
| RedisNames.TallySourceKeyInjective | src/BlackWatch.Core/Services/RedisNames.cs:22 | for user ids without a colon, the field determines both the user and the source id |
| RedisNames.Requests | src/BlackWatch.Core/Services/RedisNames.cs:12 | the queue key is the requests prefix followed by the tag, which reads back from it |
| RedisNames.TallySourceKey | src/BlackWatch.Core/Services/RedisNames.cs:22 | the field is `user-`, the user id, a colon and the source id, each readable back at its place |
| RedisNames.DateKey | src/BlackWatch.Core/Services/RedisNames.cs:27 | the field is the day on which the instant falls at the date-time's own UTC offset: that day's local midnight is at or before the local time and the next one after it |
| RedisNames.OffsetDecidesDay | src/BlackWatch.Core/Services/RedisNames.cs:27 | 00:30 at +02:00 on 2 January 2024 files under 2 January, while the same instant at offset 0 files under 1 January |
| RedisNames.DailyQuotes | src/BlackWatch.Core/Services/RedisNames.cs:32 | the daily hash key is the daily prefix followed by the symbol, which reads back from it |
| RedisNames.HourlyQuotes | src/BlackWatch.Core/Services/RedisNames.cs:44 | the hourly list key is the hourly prefix followed by the symbol, which reads back from it |
| RedisNames.Tally | src/BlackWatch.Core/Services/RedisNames.cs:56 | the tally list key is the tally prefix followed by the source id, which reads back from it |
| Redis.SetList | src/BlackWatch.Core/Services/RedisRequestQueue.cs:39 | writing a list changes that key only; an empty list removes the key |
| Redis.SetHash | src/BlackWatch.Core/Services/RedisQuoteStore.cs:104 | writing a hash changes that key only; an empty hash removes the key |
| Redis.LRange | src/BlackWatch.Core/Services/RedisUserDataStore.cs:136 | a range is never longer than the list |
| Redis.LTrim | src/BlackWatch.Core/Services/RedisQuoteStore.cs:119 | trimming never lengthens a list |
| Redis.LIndex | src/BlackWatch.Core/Services/RedisQuoteStore.cs:86 | there is an element exactly when -length <= index < length |
| Redis.LPopCount | src/BlackWatch.Core/Services/RedisRequestQueue.cs:54 | the popped prefix and the rest make up the list; the prefix holds count elements, or the whole list when it is shorter |
| Redis.LRangeWhole | src/BlackWatch.Core/Services/RedisQuoteStore.cs:119 | a range from the head to the tail or beyond is the whole list |
| Redis.LRangeHead | src/BlackWatch.Core/Services/RedisUserDataStore.cs:136 | for count >= 1, LRANGE 0 (count-1) gives the first count elements |
| RequestQueues.DistinctTags | src/BlackWatch.Core/Services/RedisRequestQueue.cs:26 | the tags of the batch, each exactly once |
| RequestQueues.WithTag | src/BlackWatch.Core/Services/RedisRequestQueue.cs:26 | a group holds only requests of the batch that carry its tag |
| RequestQueues.TakeUntilNull | src/BlackWatch.Core/Services/RedisRequestQueue.cs:28-33 | the groups before the first untagged group: a prefix with no missing tag, stopped exactly at the first missing one |
| RequestQueues.TakeUntilNullAt | src/BlackWatch.Core/Services/RedisRequestQueue.cs:28-33 | the stop is the first untagged position |
| RequestQueues.AppendGroupsAt | src/BlackWatch.Core/Services/RedisRequestQueue.cs:26-41 | a tag's queue receives exactly the requests with that tag, in input order |
| RequestQueues.AppendGroupsElsewhere | src/BlackWatch.Core/Services/RedisRequestQueue.cs:26-41 | keys of tags that are not enqueued do not change |
| RequestQueues.AppendGroupsWellTagged | src/BlackWatch.Core/Services/RedisRequestQueue.cs:26-41 | every queue holds only requests whose tag names that queue |
| RequestQueues.WithTagEmpty | src/BlackWatch.Core/Services/RedisRequestQueue.cs:26 | a group is empty exactly when its tag does not occur |
| RequestQueues.EnqueueAllTagged | src/BlackWatch.Core/Services/RedisRequestQueue.cs:23-44 | when every request is tagged, each tag's queue gains exactly its requests, in order |
| RequestQueues.EnqueueOneTag | src/BlackWatch.Core/Services/RedisRequestQueue.cs:23-44 | a single-tag batch is appended whole to that tag's queue; other keys stay |
| RequestQueues.WithTagAll | src/BlackWatch.Core/Services/RedisRequestQueue.cs:26 | when all requests share a tag, its group is the whole batch |
| RequestQueues.PartialEnqueueExample | src/BlackWatch.Core/Services/RedisRequestQueue.cs:28-39 | a tagged group written before an untagged one stays written: the enqueue is not atomic |
| RequestQueues.RedisRequestQueue.constructor | src/BlackWatch.Core/Services/RedisRequestQueue.cs:17-21 | starts with no queues |
| RequestQueues.RedisRequestQueue.EnqueueRequests | src/BlackWatch.Core/Services/RedisRequestQueue.cs:23-44 | ArgumentException exactly when some request has no tag; the groups before the first untagged one are right-pushed |
| RequestQueues.RedisRequestQueue.EnqueueRequest | src/BlackWatch.Core/Services/RedisRequestQueue.cs:46-49 | a tagged request is appended to its tag's queue; an untagged one is rejected and nothing changes |
| RequestQueues.RedisRequestQueue.DequeueRequests | src/BlackWatch.Core/Services/RedisRequestQueue.cs:51-61 | removes and returns the first count items of that tag's queue (all of them, when fewer); every item carries the tag |
| RequestQueues.RedisRequestQueue.GetRequestQueueLength | src/BlackWatch.Core/Services/RedisRequestQueue.cs:63-67 | the length of the tag's queue |
| Throttling.ThrottleStep | src/BlackWatch.Core/Util/ThrottlingQueue.cs:84-108 | never hands out before now; keeps the window invariant; the first item opens a window and passes at once; an item within the budget passes at once and is counted; a spent window delays the item to its frame's end and reopens there; a spent window whose frame has elapsed passes the item and stays as it is |
| Throttling.ThrottleStepFixed | src/BlackWatch.Core/Util/ThrottlingQueue.cs:84-108 | the corrected step never hands out early, keeps the window invariant, and opens a new window when a spent frame has elapsed |
| Throttling.Trace | src/BlackWatch.Core/Util/ThrottlingQueue.cs:64-108 | one yield time per item, none earlier than the start; a window that starts valid stays valid |
| Throttling.TraceNondecreasing | src/BlackWatch.Core/Util/ThrottlingQueue.cs:64-108 | items are handed out in order: the yield times never decrease |
| Throttling.TraceFixed | src/BlackWatch.Core/Util/ThrottlingQueue.cs:64-108 | one yield time per item, none before the start |
| Throttling.Arrivals | src/BlackWatch.Core/Util/ThrottlingQueue.cs:64-82 | one request time per step |
| Throttling.NeverThrottledAgain | src/BlackWatch.Core/Util/ThrottlingQueue.cs:101-107 | once a spent window's frame has elapsed, every later item is handed out the moment it is asked for |
| Throttling.OnePerFrameWhenConsumerKeepsUp | src/BlackWatch.Core/Util/ThrottlingQueue.cs:95-106 | with one item per frame and a consumer quicker than a frame, consecutive items are at least a frame apart |
| Throttling.Frames | src/BlackWatch.Core/Util/ThrottlingQueue.cs:95-99 | the whole frames filled by n items |
| Throttling.FixedRateFrom | src/BlackWatch.Core/Util/ThrottlingQueue.cs:84-108 | corrected: the i-th item waits for all the frames that c + i items fill |
| Throttling.FixedRateBound | src/BlackWatch.Core/Util/ThrottlingQueue.cs:84-108 | corrected: at most max items per frame, whatever the consumer does |
| Throttling.WindowNotResetExample | src/BlackWatch.Core/Util/ThrottlingQueue.cs:101-107 | as written, a frame of 10 with max 1 hands out items at 0, 15 and 15; corrected, at 0, 15 and 25 |
| Throttling.Create | src/BlackWatch.Core/Util/ThrottlingQueue.cs:16-34 | ArgumentException exactly when timeFrame <= 0 or max < 1; otherwise a fresh, open, empty queue |
| Throttling.ThrottlingQueue.constructor | src/BlackWatch.Core/Util/ThrottlingQueue.cs:16-34 | an empty, open queue with an unused window |
| Throttling.ThrottlingQueue.Enqueue | src/BlackWatch.Core/Util/ThrottlingQueue.cs:39-57 | writes the item and returns true unless completed; otherwise returns false and changes nothing |
| Throttling.ThrottlingQueue.Complete | src/BlackWatch.Core/Util/ThrottlingQueue.cs:59-62 | closes the writer side; the buffer is kept; completing twice is harmless |
| Throttling.ThrottlingQueue.Throttle | src/BlackWatch.Core/Util/ThrottlingQueue.cs:84-108 | the window and the hand-out time move exactly as ThrottleStep decides; the queue contents and completion are untouched |
| Throttling.ThrottlingQueue.DequeueAll | src/BlackWatch.Core/Util/ThrottlingQueue.cs:64-82 | items come out in FIFO order, each once, at the times Trace gives; the run ends drained exactly when completed and empty |
| RequestRunners.BatchTrace | src/BlackWatch.Daemon/RequestEngine/RequestRunner.cs:57-73 | executes at most n items, and exactly n unless one threw |
| RequestRunners.AbortSticks | src/BlackWatch.Daemon/RequestEngine/RequestRunner.cs:57-73 | after an item throws, the rest of the batch has no effect |
| RequestRunners.BatchStopsAtFirstThrow | src/BlackWatch.Daemon/RequestEngine/RequestRunner.cs:51-73 | items run in order; an aborted batch stopped at the first item that threw |
| RequestRunners.BatchRequeues | src/BlackWatch.Daemon/RequestEngine/RequestRunner.cs:63-73 | the requeued items are, in order, exactly the executed ones whose outcome requeues; nothing is requeued that was not taken |
| RequestRunners.BatchPauses | src/BlackWatch.Daemon/RequestEngine/RequestRunner.cs:64-68 | one pause of one interval per WaitAndRetry |
| RequestRunners.AllOkDrains | src/BlackWatch.Daemon/RequestEngine/RequestRunner.cs:57-73 | an all-Ok batch requeues nothing and does not pause |
| RequestRunners.AllRetryRequeues | src/BlackWatch.Daemon/RequestEngine/RequestRunner.cs:69-72 | an all-Retry batch is put back whole, in order, with no pause |
| RequestRunners.SumConstant | src/BlackWatch.Daemon/RequestEngine/RequestRunner.cs:67-75 | n pauses of one interval each add up to n intervals |
| RequestRunners.TotalPause | src/BlackWatch.Daemon/RequestEngine/RequestRunner.cs:64-75 | a completed iteration pauses interval × (1 + number of WaitAndRetry) |
| RequestRunners.WaitAndRetryOne | src/BlackWatch.Daemon/RequestEngine/RequestRunner.cs:64-75 | one WaitAndRetry item is requeued, and the iteration pauses twice |
| RequestRunners.OutcomeEffect | src/BlackWatch.Daemon/RequestEngine/RequestResult.cs:8-26 | a single built item with outcome Ok or Fatal is dropped without pause, Retry is put back without pause, WaitAndRetry is put back with one pause; none stops the batch |
| RequestRunners.RoundCompletes | src/BlackWatch.Daemon/RequestEngine/RequestRunner.cs:50-73 | an iteration runs to its end exactly when none of the items it dequeued throws (building a request included) |
| RequestRunners.RoundKeepsItems | src/BlackWatch.Daemon/RequestEngine/RequestRunner.cs:50-72 | the queue after an iteration is a sub-multiset of the queue before: items are only taken and put back |
| RequestRunners.RoundWithoutThrow | src/BlackWatch.Daemon/RequestEngine/RequestRunner.cs:50-73 | over buildable items with no throwing execution, an iteration completes and leaves only buildable items |
| RequestRunners.LoopBounds | src/BlackWatch.Daemon/RequestEngine/RequestRunner.cs:48-76 | the loop begins at most the given number of iterations, all of them unless an iteration is stopped by an exception, and at least one when stopped |
| RequestRunners.LoopKeepsItems | src/BlackWatch.Daemon/RequestEngine/RequestRunner.cs:48-76 | when no iteration adds items, the final queue is a sub-multiset of the first |
| RequestRunners.LoopNeverStops | src/BlackWatch.Daemon/RequestEngine/RequestRunner.cs:48-76 | when every iteration from buildable items completes and keeps them buildable, the loop runs every round and is not stopped |
| RequestRunners.RunKeepsItems | src/BlackWatch.Daemon/RequestEngine/RequestRunner.cs:48-76 | the runner's loop never puts in its queue an item the queue did not hold |
| RequestRunners.NoThrowNeverStops | src/BlackWatch.Daemon/RequestEngine/RequestRunner.cs:48-76 | when every queued item builds a request and no execution throws, the loop runs every round: it stops early only on an exception |
| RequestRunners.RequestRunner.constructor | src/BlackWatch.Daemon/RequestEngine/RequestRunner.cs:27-44 | keeps the interval, the tag, the budget and the queue |
| RequestRunners.RequestRunner.Requeue | src/BlackWatch.Daemon/RequestEngine/RequestRunner.cs:66-71 | appends the item to the runner's own queue only |
| RequestRunners.RequestRunner.ExecuteBatch | src/BlackWatch.Daemon/RequestEngine/RequestRunner.cs:57-73 | the queue gains BatchTrace's requeued items and the pauses are BatchTrace's; no other queue changes |
| RequestRunners.RequestRunner.RunIteration | src/BlackWatch.Daemon/RequestEngine/RequestRunner.cs:48-76 | takes the first MaxRequestsPerMinute items of its own queue; afterwards the queue is the rest plus the requeued items, as Round gives it; pauses once more at the end unless an item threw |
| RequestRunners.RequestRunner.Run | src/BlackWatch.Daemon/RequestEngine/RequestRunner.cs:46-79 | the final queue, the number of iterations and whether an exception stopped the loop are exactly Loop's over the runner's iterations; no other list changes |
| DateRange.DaysUntilYesterday | src/BlackWatch.Core/Util/DateRange.cs:7-11 | to is one day before now; from is days days before to |
| DateRange.DaysUntilYesterdayDays | src/BlackWatch.Core/Util/DateRange.cs:7-11 | in day numbers the range ends yesterday and starts days earlier at the same time of day, and is not reversed for days >= 0 |
| DateRange.DayShift | src/BlackWatch.Core/Util/DateRange.cs:9-10 | adding whole days moves the day number by as many and keeps the time of day |
| PolygonNaming.ExtractCurrency | src/BlackWatch.Daemon/Features/Requests/Polygon/PolygonNaming.cs:21-24 | the last three characters, or empty for a symbol of at most three characters |
| PolygonNaming.AdjustSymbol | src/BlackWatch.Daemon/Features/Requests/Polygon/PolygonNaming.cs:8-19 | fails with ArgumentException when the pattern does not match; otherwise yields a non-empty word |
| PolygonNaming.AdjustSymbolOfTicker | src/BlackWatch.Daemon/Features/Requests/Polygon/PolygonNaming.cs:8-24 | `market:base+cur` yields base, and its currency is cur |
| PolygonNaming.TickerExample | src/BlackWatch.Daemon/Features/Requests/Polygon/PolygonNaming.cs:8-24 | X:BTCUSD gives BTC and USD |
| PolygonNaming.AdjustSymbolAccepts | src/BlackWatch.Daemon/Features/Requests/Polygon/PolygonNaming.cs:8-19 | every accepted symbol is market:base+currency (plus at most a final line feed), with exactly one colon |
| PolygonNaming.TrailingLineFeed | src/BlackWatch.Daemon/Features/Requests/Polygon/PolygonNaming.cs:8-24 | a final line feed is accepted by the pattern but ends up in the currency slice |
| PolygonNaming.Rejected | src/BlackWatch.Daemon/Features/Requests/Polygon/PolygonNaming.cs:8-19 | a missing market, a missing colon, a short pair or a second colon are rejected |
| ApiCalls.FaultOutcome | src/BlackWatch.Daemon/Features/Requests/Polygon/QuoteHistoryRequest.cs:35-44 | HTTP 429 gives WaitAndRetry; every other fault gives Fatal |
| QuoteStores.FindSymbol | src/BlackWatch.Core/Services/RedisQuoteStore.cs:124-141 | a found symbol is a non-empty word |
| QuoteStores.FindSymbolOfKey | src/BlackWatch.Core/Services/RedisQuoteStore.cs:130-139 | the key of a word symbol gives that symbol back |
| QuoteStores.FindSymbolSkipsAhead | src/BlackWatch.Core/Services/RedisQuoteStore.cs:130-139 | the unanchored match finds a later occurrence of the prefix |
| QuoteStores.GetTrackers | src/BlackWatch.Core/Services/RedisQuoteStore.cs:124-144 | one tracker per matching key, non-matching keys skipped; a symbol is collected exactly when a matching key yields it |
| QuoteStores.StaleFields | src/BlackWatch.Core/Services/RedisQuoteStore.cs:64-71 | exactly the fields whose day begins before the threshold |
| QuoteStores.PutDailyMap | src/BlackWatch.Core/Services/RedisQuoteStore.cs:98-106 | the quote is under its symbol's key and its day; every other field and key is unchanged |
| QuoteStores.PushHourly | src/BlackWatch.Core/Services/RedisQuoteStore.cs:112-113 | the quote is prepended to its symbol's list; other keys are unchanged |
| QuoteStores.HourlyTrimKeepsAll | src/BlackWatch.Core/Services/RedisQuoteStore.cs:116-121 | as written, the trim after a push keeps the whole list |
| QuoteStores.PutHourlyCapped | src/BlackWatch.Core/Services/RedisQuoteStore.cs:108-122 | corrected put: the newest quotes first, at most maxHourlyQuotes of them |
| QuoteStores.CappedStaysBounded | src/BlackWatch.Core/Services/RedisQuoteStore.cs:116-121 | corrected: a list within the bound stays within it, however many quotes are put |
| QuoteStores.HourlyOverflowExample | src/BlackWatch.Core/Services/RedisQuoteStore.cs:116-121 | with a maximum of one, two puts leave two quotes as written and one when corrected |
| QuoteStores.RedisQuoteStore.constructor | src/BlackWatch.Core/Services/RedisQuoteStore.cs:22-30 | an empty store with the configured maximum |
| QuoteStores.RedisQuoteStore.GetDailyQuote | src/BlackWatch.Core/Services/RedisQuoteStore.cs:42-57 | a quote is returned exactly when the field of the asked date, taken at its own offset, exists; it belongs to that symbol key, and its UTC day is that field |
| QuoteStores.RedisQuoteStore.PutDailyQuote | src/BlackWatch.Core/Services/RedisQuoteStore.cs:98-106 | afterwards the quote reads back at its UTC day; every other (symbol key, field) reads as before, whatever offset it is asked at |
| QuoteStores.RedisQuoteStore.RemoveDailyQuotes | src/BlackWatch.Core/Services/RedisQuoteStore.cs:59-74 | fields whose day begins before the threshold read as absent; every other field reads as before, at any offset |
| QuoteStores.RedisQuoteStore.GetHourlyQuote | src/BlackWatch.Core/Services/RedisQuoteStore.cs:76-96 | ArgumentOutOfRangeException exactly for a positive offset; otherwise the quote -offset places from the head, when there is one |
| QuoteStores.RedisQuoteStore.PutHourlyQuote | src/BlackWatch.Core/Services/RedisQuoteStore.cs:108-122 | the quote becomes offset 0 and every older quote moves back one hour; nothing is dropped (as written) |
| QuoteStores.RedisQuoteStore.GetDailyTrackers | src/BlackWatch.Core/Services/RedisQuoteStore.cs:32-35 | the trackers of the daily keys, one per matching key |
| QuoteStores.RedisQuoteStore.GetHourlyTrackers | src/BlackWatch.Core/Services/RedisQuoteStore.cs:37-40 | the trackers of the hourly keys, one per matching key |
| QuoteHistoryRequests.HistoryOutcome | src/BlackWatch.Daemon/Features/Requests/Polygon/QuoteHistoryRequest.cs:28-71 | 429 gives WaitAndRetry; other faults give Fatal; missing results give Retry; a malformed symbol throws; otherwise Ok |
| QuoteHistoryRequests.ToQuote | src/BlackWatch.Daemon/Features/Requests/Polygon/QuoteHistoryRequest.cs:60-62 | the aggregate's open, close, high and time read back from the quote; the symbol and currency are the given ones and the low price is 0 |
| QuoteHistoryRequests.StatusOnlyLogs | src/BlackWatch.Daemon/Features/Requests/Polygon/QuoteHistoryRequest.cs:46-49 | a non-OK status does not change the outcome |
| QuoteHistoryRequests.PutAllDailyAt | src/BlackWatch.Daemon/Features/Requests/Polygon/QuoteHistoryRequest.cs:65-68 | a quote that no later quote overwrites can be read back |
| QuoteHistoryRequests.PutAllDailyElsewhere | src/BlackWatch.Daemon/Features/Requests/Polygon/QuoteHistoryRequest.cs:65-68 | keys that no quote goes to keep their value |
| QuoteHistoryRequests.HistoryStoresEach | src/BlackWatch.Daemon/Features/Requests/Polygon/QuoteHistoryRequest.cs:57-68 | each aggregate whose day does not recur later is stored under the adjusted symbol and its day, with the symbol's currency and a low of 0 |
| QuoteHistoryRequests.HistoryLeavesOtherKeys | src/BlackWatch.Daemon/Features/Requests/Polygon/QuoteHistoryRequest.cs:57-68 | only the adjusted symbol's daily hash changes |
| QuoteHistoryRequests.PutDailyQuotes | src/BlackWatch.Daemon/Features/Requests/Polygon/QuoteHistoryRequest.cs:65-68 | the daily hashes end up as the quotes written one after another in order; the hourly lists are untouched and the store stays well-formed |
| QuoteHistoryRequests.ExecuteQuoteHistory | src/BlackWatch.Daemon/Features/Requests/Polygon/QuoteHistoryRequest.cs:28-71 | the outcome is HistoryOutcome's; on Ok every aggregate is written in order; otherwise the store is unchanged |
| QuoteHistoryRequests.GetTrackerDateRange | src/BlackWatch.Daemon/Features/Requests/Polygon/QuoteHistoryRequest.cs:73-92 | the earliest and latest dates, both attained; neither exactly when there are no quotes |
| TrackerRequests.HistoryRequests | src/BlackWatch.Daemon/Features/Requests/Polygon/TrackerRequest.cs:63-66 | exactly one Polygon history request per US-dollar pair |
| TrackerRequests.HistoryRequest | src/BlackWatch.Daemon/Features/Requests/Polygon/TrackerRequest.cs:65 | a Polygon-tagged request whose only payload is the history of that symbol over the range |
| TrackerRequests.HistoryRequestsAppend | src/BlackWatch.Daemon/Features/Requests/Polygon/TrackerRequest.cs:63-66 | the selection keeps response order |
| TrackerRequests.TrackerOutcome | src/BlackWatch.Daemon/Features/Requests/Polygon/TrackerRequest.cs:28-70 | faults classify as FaultOutcome; missing results give Retry; any result list gives Ok |
| TrackerRequests.ExecuteTracker | src/BlackWatch.Daemon/Features/Requests/Polygon/TrackerRequest.cs:28-70 | on Ok the Polygon queue gains the history requests for the range up to yesterday; otherwise no queue changes |
| QuoteSnapshotRequests.SnapshotQuotes | src/BlackWatch.Daemon/Features/Requests/Messari/QuoteSnapshotRequest.cs:48-58 | exactly one quote per usable asset, in USD, dated by the response |
| QuoteSnapshotRequests.Usable | src/BlackWatch.Daemon/Features/Requests/Messari/QuoteSnapshotRequest.cs:49-50 | an asset is used exactly when it has a symbol with a character other than white space and a last-hour bar |
| QuoteSnapshotRequests.SnapshotQuote | src/BlackWatch.Daemon/Features/Requests/Messari/QuoteSnapshotRequest.cs:51-58 | the asset's symbol and last-hour prices read back from the quote, which is in USD and dated by the response |
| QuoteSnapshotRequests.SnapshotQuotesAppend | src/BlackWatch.Daemon/Features/Requests/Messari/QuoteSnapshotRequest.cs:48-58 | the selection keeps response order |
| QuoteSnapshotRequests.PushHourlyAt | src/BlackWatch.Daemon/Features/Requests/Messari/QuoteSnapshotRequest.cs:60-63 | one push, as seen from any key |
| QuoteSnapshotRequests.NewestFirst | src/BlackWatch.Daemon/Features/Requests/Messari/QuoteSnapshotRequest.cs:60-63 | exactly the quotes filed under the key |
| QuoteSnapshotRequests.PushAllHourlyAt | src/BlackWatch.Daemon/Features/Requests/Messari/QuoteSnapshotRequest.cs:60-63 | each list gains its own quotes, last pushed first; nothing is dropped |
| QuoteSnapshotRequests.NewestIsLastPushed | src/BlackWatch.Daemon/Features/Requests/Messari/QuoteSnapshotRequest.cs:60-63 | the last quote pushed for a symbol heads its list |
| QuoteSnapshotRequests.SnapshotOutcome | src/BlackWatch.Daemon/Features/Requests/Messari/QuoteSnapshotRequest.cs:30-66 | faults classify as FaultOutcome; every answer gives Ok; never Retry |
| QuoteSnapshotRequests.ExecuteSnapshot | src/BlackWatch.Daemon/Features/Requests/Messari/QuoteSnapshotRequest.cs:30-66 | on Ok the usable assets' quotes are pushed in order; otherwise the store is unchanged |
| UserDataStores.SourceKeyMatches | src/BlackWatch.Core/Services/RedisUserDataStore.cs:32-34 | a user's source field matches the scan for that user and the scan for all users |
| UserDataStores.TalliesRange | src/BlackWatch.Core/Services/RedisUserDataStore.cs:136 | as written: the first count tallies for count >= 1, all of them for count 0, and all but the last -count for a negative count |
| UserDataStores.ZeroCountReturnsAll | src/BlackWatch.Core/Services/RedisUserDataStore.cs:136 | a count of 0 returns the whole history and a count of -1 all but the oldest tally as written; both return nothing when corrected |
| UserDataStores.TalliesLatest | src/BlackWatch.Core/Contracts/IUserDataStore.cs:43-47 | corrected: the min(count, length) newest tallies, none for count <= 0, and consistent for smaller counts |
| UserDataStores.PushTally | src/BlackWatch.Core/Services/RedisUserDataStore.cs:107-119 | prepends; drops the oldest only when the old length had reached the bound |
| UserDataStores.PushTallyBounded | src/BlackWatch.Core/Services/RedisUserDataStore.cs:107-119 | a history within the bound stays within it |
| UserDataStores.NewestFirst | src/BlackWatch.Core/Services/RedisUserDataStore.cs:111 | the newest tally is first and the previous one second, while the bound allows two |
| UserDataStores.RedisUserDataStore.constructor | src/BlackWatch.Core/Services/RedisUserDataStore.cs:19-27 | an empty store with the configured bound |
| UserDataStores.RedisUserDataStore.GetTallySource | src/BlackWatch.Core/Services/RedisUserDataStore.cs:46-60 | the source exactly when the user's field exists |
| UserDataStores.RedisUserDataStore.PutTallySource | src/BlackWatch.Core/Services/RedisUserDataStore.cs:62-69 | afterwards the source reads back; every other field reads as before |
| UserDataStores.RedisUserDataStore.DeleteTallySource | src/BlackWatch.Core/Services/RedisUserDataStore.cs:71-100 | true exactly when committed and the source existed; when committed, the source and its tallies are gone |
| UserDataStores.RedisUserDataStore.PutTally | src/BlackWatch.Core/Services/RedisUserDataStore.cs:102-130 | when committed, the history is PushTally's and grows by one until the bound; otherwise nothing changes |
| UserDataStores.RedisUserDataStore.GetTallies | src/BlackWatch.Core/Services/RedisUserDataStore.cs:132-142 | only that source's tallies, at most the bound, as TalliesRange gives them |
| UserDataStores.RedisUserDataStore.PurgeTallies | src/BlackWatch.Core/Services/RedisUserDataStore.cs:144-149 | the source's history is deleted; nothing else changes |
| UserDataStores.RedisUserDataStore.GetTallySources | src/BlackWatch.Core/Services/RedisUserDataStore.cs:29-44 | one source per matching field, and exactly the sources of those fields |
| TallySources.Update | src/BlackWatch.Core/Contracts/TallySource.cs:28-39 | same id; the version goes up by one; the new contents; stamped now |
| TallySources.UpdateTwice | src/BlackWatch.Core/Contracts/TallySource.cs:28-39 | two updates equal the second one with the version raised by two |
| TallySources.UpdateChangesVersion | src/BlackWatch.Core/Contracts/TallySource.cs:28-39 | an update never gives back the source it started from |
| TallyService.DecodeReturnedObject | src/BlackWatch.Core/Services/TallyService.cs:119-145 | a boolean signal decides Signalled or NonSignalled, with the result property's text when there is one; otherwise Indeterminate with the object's text; never Error |
| TallyService.Classify | src/BlackWatch.Core/Services/TallyService.cs:96-114 | Error with the message exactly for an exception; true and false signal without a result; objects are decoded; anything else is Indeterminate with its text |
| TallyService.EvaluateSource | src/BlackWatch.Core/Services/TallyService.cs:88-117 | the tally carries the source's id and version, the clock reading, and the classification |
| TallyService.SignalObjectExample | src/BlackWatch.Core/Services/TallyService.cs:107-145 | typical return values and their tallies |
| TallyService.Selected | src/BlackWatch.Core/Services/TallyService.cs:35-44 | exactly the sources with the interval |
| TallyService.Evaluations | src/BlackWatch.Core/Services/TallyService.cs:35-44 | one tally per selected source |
| TallyService.EvaluationsAt | src/BlackWatch.Core/Services/TallyService.cs:35-44 | the j-th tally is the j-th selected source's, made at the j-th clock reading |
| TallyService.EvaluatesOnlyInterval | src/BlackWatch.Core/Services/TallyService.cs:37-43 | every tally comes from a source of the interval and carries its id and version |
| TallyService.EvaluationsStep | src/BlackWatch.Core/Services/TallyService.cs:37-43 | one more source adds its tally at the end, or nothing |
| TallyService.EvaluateAll | src/BlackWatch.Core/Services/TallyService.cs:30-45 | fails with ArgumentException, before any tally, exactly when the context cannot be built from the trackers; otherwise the tallies are Evaluations of the selected sources |
| TallyService.FirstMarker | src/BlackWatch.Core/Services/TallyService.cs:22 | the leftmost index from i on where a word character, a colon and a word character begin, with no such index before it; the length of the symbol when there is none |
| TallyService.GetFunctionName | src/BlackWatch.Core/Services/TallyService.cs:61-69 | ArgumentException exactly when the pattern matches nowhere; otherwise the whole run of word characters after the colon of the leftmost match, which is non-empty |
| TallyService.FunctionNameOfTicker | src/BlackWatch.Core/Services/TallyService.cs:61-69 | a one-letter market ticker gives its pair |
| TallyService.DictionaryKeys | src/BlackWatch.Core/Services/TallyService.cs:56-58 | on success one key per item, each the selector's key for that item, and no key twice |
| TallyService.DictionaryKeysSucceed | src/BlackWatch.Core/Services/TallyService.cs:56-58 | keying succeeds exactly when the selector gives every item a key and no two items the same key |
| TallyService.DictionaryKeysFailure | src/BlackWatch.Core/Services/TallyService.cs:56-58 | with a selector that throws only ArgumentException, keying throws only ArgumentException |
| TallyService.ContextNames | src/BlackWatch.Core/Services/TallyService.cs:53-58 | a failure is an ArgumentException; on success the names are the symbols' function names, in tracker order |
| TallyService.ContextNamesSucceed | src/BlackWatch.Core/Services/TallyService.cs:53-66 | the context is built exactly when every symbol has a name and no two names are equal |
| TallyService.ContextOfTicker | src/BlackWatch.Core/Services/TallyService.cs:53-69 | a single one-letter-market ticker binds its pair |
| TallyService.ContextOfTwoTickers | src/BlackWatch.Core/Services/TallyService.cs:53-69 | two tickers with the same pair clash with ArgumentException; different pairs give both names in order |
| CronRunner.RunCronAction | src/BlackWatch.Daemon/Cron/CronActionRunner.cs:31-60 | the executions and the stop are exactly the run CronLoop defines: read the clock, take the next occurrence, wait while it lies ahead, execute, and go round again while the action returns true and the budget lasts; an exception from the action ends the loop and is passed on |
| CronRunner.CronLoopProperties | src/BlackWatch.Daemon/Cron/CronActionRunner.cs:35-58 | each execution happens at or after an occurrence computed from an earlier clock reading; the action runs again only after it returned true; a false ends the loop, and an exception ends it with that exception, both exactly after the last execution; a missing occurrence ends it without an execution; cancellation bounds the executions |
| CronRunner.AlwaysDueRunsEveryRound | src/BlackWatch.Daemon/Cron/CronActionRunner.cs:35-58 | while occurrences are due and the action returns true, the loop executes once per cancellation check and only cancellation ends it |
| CronRunner.WaitFor | src/BlackWatch.Daemon/Cron/CronActionRunner.cs:46-51 | either the budget ran out and the run is cancelled, or the clock reading it returns has reached the occurrence, one budget unit used per wait, and the run goes on as CronWait gives it from there |
| CronActions.TrackerHistoryRequests | src/BlackWatch.Daemon/Features/CronActions/QuoteHistoryRequestAction.cs:34-35 | one Polygon history request per tracker, in order, over the same range |
| CronActions.QuoteHistoryAction | src/BlackWatch.Daemon/Features/CronActions/QuoteHistoryRequestAction.cs:25-39 | the Polygon queue gains the tracker requests up to yesterday; no other queue changes; runs again |
| CronActions.QuoteSnapshotAction | src/BlackWatch.Daemon/Features/CronActions/QuoteSnapshotRequestAction.cs:21-27 | the Messari queue gains one snapshot request; no other queue changes; runs again |
| CronActions.InitializeAction | src/BlackWatch.Daemon/Features/CronActions/InitializeCronAction.cs:28-55 | with no daily trackers it has the history action's effect, otherwise nothing changes; never runs again |
| CronActions.PutAllTalliesElsewhere | src/BlackWatch.Daemon/Features/CronActions/EvaluationAction.cs:38-42 | a source with no new tallies keeps its history |
| CronActions.NewestTallyFirst | src/BlackWatch.Daemon/Features/CronActions/EvaluationAction.cs:38-42 | the last tally put heads its source's history |
| CronActions.PutTallies | src/BlackWatch.Daemon/Features/CronActions/EvaluationAction.cs:35-42 | every tally is put in order, and the count is their number |
| CronActions.EvaluationAction | src/BlackWatch.Daemon/Features/CronActions/EvaluationAction.cs:32-46 | scans exactly the tally sources of all users; the sources hash is untouched; when the trackers' context cannot be built, the ArgumentException escapes and no tally is put; otherwise every tally of the interval's sources is put, in order, the count is their number, and it runs again |
| ModelContainers.OfSource | src/BlackWatch.WebApp/Services/ModelContainer.cs:30 | exactly the source's tallies, a sub-multiset |
| ModelContainers.InsertByDate | src/BlackWatch.WebApp/Services/ModelContainer.cs:31 | one element more, the same multiset plus the new tally |
| ModelContainers.InsertByDateSorted | src/BlackWatch.WebApp/Services/ModelContainer.cs:31 | insertion keeps the order newest first |
| ModelContainers.SortByDateDesc | src/BlackWatch.WebApp/Services/ModelContainer.cs:31 | a permutation, sorted newest first |
| ModelContainers.InsertByDateStable | src/BlackWatch.WebApp/Services/ModelContainer.cs:31 | insertion keeps the order among equal dates |
| ModelContainers.SortByDateDescStable | src/BlackWatch.WebApp/Services/ModelContainer.cs:31 | the sort is stable, as OrderByDescending is |
| ModelContainers.ModelContainer.constructor | src/BlackWatch.WebApp/Services/ModelContainer.cs:11-12 | empty sources and tallies |
| ModelContainers.ModelContainer.PutTallySource | src/BlackWatch.WebApp/Services/ModelContainer.cs:20-21 | ArgumentNullException exactly for a missing id; otherwise stored under its id, replacing any earlier one |
| ModelContainers.ModelContainer.GetTallySource | src/BlackWatch.WebApp/Services/ModelContainer.cs:23-24 | the source exactly when loaded, and its id is the one asked for |
| ModelContainers.ModelContainer.PutTally | src/BlackWatch.WebApp/Services/ModelContainer.cs:26-27 | appends; afterwards GetTallies includes the tally |
| ModelContainers.ModelContainer.GetTallies | src/BlackWatch.WebApp/Services/ModelContainer.cs:29-32 | exactly the source's tallies, as a permutation, newest first, with equal dates in arrival order |
| Navigations.Record | src/BlackWatch.WebApp/Services/Navigation.cs:58-62 | the last at most 100 entries of history + [location], ending with the location |
| Navigations.BackUndoesRecord | src/BlackWatch.WebApp/Services/Navigation.cs:34 | below the bound, popping the last entry undoes a record |
| Navigations.RecordAtBoundDropsOldest | src/BlackWatch.WebApp/Services/Navigation.cs:59-62 | at the bound, a record drops exactly the oldest entry |
| Navigations.Navigation.constructor | src/BlackWatch.WebApp/Services/Navigation.cs:17-23 | the history is the start location |
| Navigations.Navigation.CanGoBack | src/BlackWatch.WebApp/Services/Navigation.cs:49 | in a valid state, true exactly when the history holds more than the current location |
| Navigations.Navigation.OnLocationChanged | src/BlackWatch.WebApp/Services/Navigation.cs:51-65 | Record while handling is on; otherwise nothing changes; the 1..100 bound holds |
| Navigations.Navigation.NavigateTo | src/BlackWatch.WebApp/Services/Navigation.cs:25 | the move is recorded |
| Navigations.Navigation.GoBack | src/BlackWatch.WebApp/Services/Navigation.cs:27-41 | InvalidOperationException exactly when there is no earlier entry; otherwise pops the current entry, goes to the previous one, and does not record the move |
| RenderExtensions.Render | src/BlackWatch.WebApp/Util/RenderExtensions.cs:21-31 | "--" exactly for Disabled |
| RenderExtensions.RenderInjective | src/BlackWatch.WebApp/Util/RenderExtensions.cs:25-28 | distinct intervals get distinct labels |
| RenderExtensions.RenderLabels | src/BlackWatch.WebApp/Util/RenderExtensions.cs:25-28 | the four labels |

## Left out

- **Concurrency**:
  - `Task.WhenAll` over the cron actions is left out: each loop is modelled on its own.
  - Producers that write to a queue concurrently with a runner are left out.
  - The race between PutTally's length read and its transaction is left out.
  - The bounded channel's blocking write (`limit`) in the throttling queue is left out: it needs
    a concurrent reader.
- **Outside systems**: Cronos expression parsing, JSON (de)serialisation, the Jint JavaScript
  engine and HTTP clients are left out. Their results are inputs.
- **Regular expressions**: `\w` and `char.IsWhiteSpace` are ASCII only. Non-ASCII letters are not
  modelled.
- **Key patterns**: glob metacharacters inside user ids or symbols are not modelled in the scan
  patterns.
- **Integer width**: versions and counts are unbounded integers. The 32-bit overflow of
  `Version + 1` is not modelled.
- **Enum range**: out-of-range enum values are not modelled. That covers the
  ArgumentOutOfRangeException of `Render(EvaluationInterval)` and the default branch of
  `GetLogLevel`.
- **Null values**: null response bodies, and null entries in `Results` and `Data`, are not
  modelled.
- **Date fields**: `RedisNames.DateKey` holds the `yyyy-MM-dd` text as its day number. Two
  date-times share a field exactly when they share a day, which is all the stores rely on; the
  formatting of years outside 1 to 9999 is not modelled.
- **Redis key types**: the key of the tally id "sources" is the tally-sources hash
  (`RedisNames.TallyKeys` proves this). Redis's WRONGTYPE error for that clash is not modelled.
  The model keeps the tally lists and the sources hash in separate fields, so
  `PurgeTallies("sources")` and `DeleteTallySource(_, "sources", _)` leave the sources hash
  intact, whereas in Redis their DEL of that key deletes the whole hash.
- **Executions' own queue writes**: `RequestRunners.RequestRunner.ExecuteBatch` and
  `RequestRunners.RequestRunner.RunIteration` take each execution's outcome as an input and model
  only the runner's own requeueing. A request that enqueues work itself is not modelled inside a
  batch: a `TrackerRequest` run by the Polygon runner enqueues into that same Polygon queue
  (src/BlackWatch.Daemon/Features/Requests/Polygon/TrackerRequest.cs:63-68), so the real queue
  after such a batch also holds those items.
- **Transactions**: a transaction's commit is an input. `CronActions.EvaluationAction` takes every
  unconditioned transaction as committed.
- **Trackers for the history action**: `CronActions.QuoteHistoryAction` takes its trackers as an
  input. The `GetTrackersAsync` it calls is not part of this model.
- **Tally evaluation**: of `BuildContextAsync`, only the keying by function name is modelled
  (`TallyService.ContextNames`); the tracker symbols are an input, because the `GetTrackersAsync`
  it calls is not part of this model. `FetchQuote` and `ParseDateStr` are not modelled: the quote
  functions a script calls are behind the `engine` input.
- **Cancelled delays**: cancellation is observed only where a loop tests it, so the models keep
  every item they have taken. In the source a cancelled `Task.Delay` throws
  OperationCanceledException and loses work:
  - `RequestRunners.RequestRunner.ExecuteBatch`, `RequestRunners.RequestRunner.RunIteration` and
    `RequestRunners.RequestRunner.Run`: a delay cancelled after a `WaitAndRetry`
    (src/BlackWatch.Daemon/RequestEngine/RequestRunner.cs:67) loses the rest of the batch already
    popped from Redis at line 50, whereas the queue `Loop` gives still holds it. A delay cancelled
    at line 75 loses nothing more.
  - `Throttling.ThrottlingQueue.Throttle` and `Throttling.ThrottlingQueue.DequeueAll`: a delay
    cancelled inside the throttle (src/BlackWatch.Core/Util/ThrottlingQueue.cs:104) loses the item
    already read at line 71, so `items + buffer == old(buffer)` holds only when no delay is
    cancelled.
- **Other overloads and glue**: the `Render(DateTimeOffset)` overload, logging, `Dispose` and event
  subscription are left out. Blazor's `NavigationManager` is taken to raise `LocationChanged`
  synchronously inside `NavigateTo`.
- **Fault classification**: `ApiCalls.FaultOutcome` is cited from the history request. The
  tracker and snapshot requests apply the same classification at
  src/BlackWatch.Daemon/Features/Requests/Polygon/TrackerRequest.cs:35-44 and
  src/BlackWatch.Daemon/Features/Requests/Messari/QuoteSnapshotRequest.cs:37-46.
- **Cron loop timing**:
  - `CronRunner.RunCronAction`: `Task.Delay` is a step that takes a new clock reading. The
    delay's length is not modelled; only the loop condition on the clock is.
  - The same member: a cancelled `Task.Delay` ends the loop, as the escaping
    OperationCanceledException does.
  - The same member: an exception from the action ends the loop and is returned as `Threw`; that
    it then faults the `Task.WhenAll` over all actions' loops
    (src/BlackWatch.Daemon/Cron/CronActionRunner.cs:28) is not modelled.
- **Throttling windows**: `Throttling.ThrottleStep` bounds the delayed hand-out time between the
  end of the frame and that plus the step's `lateness` input, which stands for a late wake-up of
  `Task.Delay`; `DateTime.Now`'s resolution is not modelled.
- **Unordered scans**: `QuoteStores.GetTrackers` and
  `UserDataStores.RedisUserDataStore.GetTallySources` state the collected set and its size, not an
  order, because a Redis SCAN's order is unspecified. A SCAN or HSCAN may also return an element
  more than once. `QuoteStores.GetTrackers` collects a set, so a repeat changes nothing.
  `UserDataStores.RedisUserDataStore.GetTallySources` takes one visit per field, whereas the
  source's list would then hold that source twice.

## Findings

| source | as written | input that shows it | evidently intended | confidence | as-written member | corrected member |
|---|---|---|---|---|---|---|
| src/BlackWatch.Core/Util/ThrottlingQueue.cs:101-107 | a spent window whose frame has elapsed is never reset, so the throttle never delays again | frame 10 ms, max 1; the consumer idles 15 ms after the first item, then asks twice: the items come out at 0, 15 and 15 | a new frame starts at that moment, so at most max items per frame: 0, 15, 25 | not executed; high | Throttling.NeverThrottledAgain | Throttling.FixedRateBound |
| src/BlackWatch.Core/Services/RedisQuoteStore.cs:116-121 | `LTRIM key 0 count-1` after the push keeps the whole list, so the hourly list grows without bound | MaxHourlyQuotes 1 and two puts: two quotes are kept | trim to the newest `MaxHourlyQuotes` quotes | not executed; high | QuoteStores.HourlyOverflowExample | QuoteStores.CappedStaysBounded |
| src/BlackWatch.Core/Services/RedisUserDataStore.cs:136 | `LRANGE key 0 count-1` with count 0 is `LRANGE 0 -1`, the whole history; a negative count drops only the oldest -count tallies | count 0 on a history of one tally returns that tally; count -1 on a history of two returns the newer one | the most recent `count` tallies, none for a count below one (src/BlackWatch.Core/Contracts/IUserDataStore.cs:43-47) | not executed; high | UserDataStores.ZeroCountReturnsAll | UserDataStores.TalliesLatest |

The classes keep the behaviour as written, which is what the system does. The corrected
definitions stand beside them, with the intended property proved.

=== FILE: api_calls.dfy ===
/**
 * The outcome of a call to a market-data HTTP API, as the requests see it: a decoded response,
 * or an exception. An HTTP error carries its status code when the client knows one.
 */
module ApiCalls {
  import opened Wrappers
  import opened RequestEngine

  datatype Fault = HttpFault(statusCode: Option<int>) | OtherFault

  datatype Call<T> = Answered(response: T) | Faulted(fault: Fault)

  /** HTTP 429 Too Many Requests (section 4 of RFC 6585). */
  const TooManyRequests: int := 429

  /**
   * The outcome of a failed call: the API's rate limit asks for a pause and a retry, anything
   * else gives the job up. No fault asks for a plain retry or counts as success.
   */
  function FaultOutcome(fault: Fault): (r: RequestResult)
    ensures r == WaitAndRetry <==> fault == HttpFault(Some(TooManyRequests))
    ensures r == Fatal <==> fault != HttpFault(Some(TooManyRequests))
    ensures Requeues(r) <==> Pauses(r)
  {
    if fault.HttpFault? && fault.statusCode == Some(TooManyRequests) then WaitAndRetry else Fatal
  }
}

=== FILE: contracts.dfy ===
/**
 * Records shared by the stores, the requests and the tally evaluation: quotes, trackers and
 * tallies, plus the API tags that partition the request queues.
 */
module Contracts {
  import opened Wrappers

  /** A point in time, in milliseconds since the Unix epoch (UTC). */
  type Instant = int

  const MsPerDay: int := 86_400_000

  /** Day number of an instant: the date part used as the daily-quote hash field. */
  function DayOf(t: Instant): int {
    t / MsPerDay
  }

  /** Midnight (UTC) at the start of day `d`. */
  function MidnightOf(d: int): Instant {
    d * MsPerDay
  }

  /** Decimal prices are only ever copied, so they are kept opaque. */
  type Price = int

  datatype Quote = Quote(
    symbol: string,
    open: Price,
    close: Price,
    high: Price,
    low: Price,
    currency: string,
    date: Instant)

  datatype Tracker = Tracker(symbol: string)

  datatype TallyState = Indeterminate | NonSignalled | Signalled | Error

  datatype Tally = Tally(
    tallySourceId: string,
    tallySourceVersion: int,
    dateCreated: Instant,
    state: TallyState,
    result: Option<string>)

  /** Identifier of the Polygon rate domain. */
  const Polygon: string := "polygon"

  /** Identifier of the Messari rate domain. */
  const Messari: string := "messari"
}

=== FILE: cron_action_runner.dfy ===
/**
 * The cron loop that drives one action: compute the next occurrence from the clock, wait until
 * the clock has reached it, execute the action, and go round again until the action says it is
 * done, the schedule has no further occurrence, or the loop is cancelled.
 */
module CronRunner {
  import opened Wrappers
  import opened Contracts

  /** One execution: the clock reading the occurrence was computed from, the occurrence, and the reading it ran at. */
  datatype Firing = Firing(from: nat, occurrence: Instant, at: nat)

  /**
   * Why the loop ended. `NoOccurrence` carries the clock reading that had no next occurrence;
   * `Threw` the exception that escaped the last execution.
   */
  datatype Stop = NoOccurrence(read: nat) | ActionEnded | Threw(error: Exception) | Cancelled

  /** How an execution that does not ask to go round again ends the loop: by its exception or by its false. */
  function Ended(result: Result<bool>): Stop {
    if result.Failure? then Threw(result.error) else ActionEnded
  }

  /** The executions `fs` followed by those of the run `r`, which ends as `r` does. */
  function Then(fs: seq<Firing>, r: (seq<Firing>, Stop)): (seq<Firing>, Stop) {
    (fs + r.0, r.1)
  }

  /**
   * What the loop does from the cancellation check at the top, with `left` checks and waits still
   * allowed, clock reading `readings` next, and `n` executions behind it.
   */
  ghost function CronLoop(nextAfter: Instant -> Option<Instant>, clock: nat -> Instant, execute: nat -> Result<bool>,
                          left: nat, readings: nat, n: nat): (seq<Firing>, Stop)
    decreases left, 0
  {
    if left == 0 then ([], Cancelled)
    else
      var occurrence := nextAfter(clock(readings));
      if occurrence.None? then ([], NoOccurrence(readings))
      else CronWait(nextAfter, clock, execute, occurrence.value, left - 1, readings, readings + 1, n)
  }

  /**
   * What the loop does while waiting for `occurrence`, computed from reading `from`, the clock
   * read at `at`: it waits on while the occurrence lies ahead, then executes.
   */
  ghost function CronWait(nextAfter: Instant -> Option<Instant>, clock: nat -> Instant, execute: nat -> Result<bool>,
                          occurrence: Instant, left: nat, from: nat, at: nat, n: nat): (seq<Firing>, Stop)
    decreases left, 1
  {
    if occurrence - clock(at) > 0 then
      if left == 0 then ([], Cancelled)
      else CronWait(nextAfter, clock, execute, occurrence, left - 1, from, at + 1, n)
    else
      var firing := Firing(from, occurrence, at);
      if execute(n) == Success(true) then Then([firing], CronLoop(nextAfter, clock, execute, left, at + 1, n + 1))
      else ([firing], Ended(execute(n)))
  }

  /** With a check left, the loop reads the clock and either stops for want of an occurrence or starts waiting. */
  lemma LoopUnfold(nextAfter: Instant -> Option<Instant>, clock: nat -> Instant, execute: nat -> Result<bool>,
                   left: nat, readings: nat, n: nat)
    requires left > 0
    ensures nextAfter(clock(readings)).None? ==> CronLoop(nextAfter, clock, execute, left, readings, n) == ([], NoOccurrence(readings))
    ensures nextAfter(clock(readings)).Some? ==>
      CronLoop(nextAfter, clock, execute, left, readings, n)
        == CronWait(nextAfter, clock, execute, nextAfter(clock(readings)).value, left - 1, readings, readings + 1, n)
  {
  }

  /**
   * A round whose wait reached the occurrence executes the action once, then stops or goes round
   * again: after the executions `fs`, the run goes on with this one.
   */
  lemma LoopRuns(nextAfter: Instant -> Option<Instant>, clock: nat -> Instant, execute: nat -> Result<bool>, fs: seq<Firing>,
                 occurrence: Instant, left: nat, rest: nat, from: nat, at: nat, n: nat)
    requires left > 0 && nextAfter(clock(from)) == Some(occurrence) && clock(at) >= occurrence
    requires CronWait(nextAfter, clock, execute, occurrence, left - 1, from, from + 1, n)
      == CronWait(nextAfter, clock, execute, occurrence, rest, from, at, n)
    ensures Then(fs, CronLoop(nextAfter, clock, execute, left, from, n))
      == Then(fs + [Firing(from, occurrence, at)],
              if execute(n) == Success(true) then CronLoop(nextAfter, clock, execute, rest, at + 1, n + 1) else ([], Ended(execute(n))))
  {
    var f := Firing(from, occurrence, at);
    var after := if execute(n) == Success(true) then CronLoop(nextAfter, clock, execute, rest, at + 1, n + 1) else ([], Ended(execute(n)));
    LoopUnfold(nextAfter, clock, execute, left, from, n);
    assert [f] + [] == [f];
    assert CronLoop(nextAfter, clock, execute, left, from, n) == Then([f], after);
    assert fs + ([f] + after.0) == (fs + [f]) + after.0;
  }

  /**
   * A run that starts at clock reading `readings` keeps time: each occurrence comes from the
   * schedule applied to a reading, each execution waited for its occurrence, each next occurrence
   * is computed from a reading after the previous execution, and a missing occurrence ends the run.
   */
  ghost predicate Timed(r: (seq<Firing>, Stop), nextAfter: Instant -> Option<Instant>, clock: nat -> Instant, readings: nat) {
    && (forall j :: 0 <= j < |r.0| ==>
          && nextAfter(clock(r.0[j].from)) == Some(r.0[j].occurrence)
          && readings <= r.0[j].from < r.0[j].at && clock(r.0[j].at) >= r.0[j].occurrence)
    && (forall j :: 0 <= j < |r.0| - 1 ==> r.0[j].at < r.0[j + 1].from)
    && (r.1.NoOccurrence? ==>
          nextAfter(clock(r.1.read)) == None && readings <= r.1.read && (|r.0| > 0 ==> r.0[|r.0| - 1].at < r.1.read))
  }

  /**
   * A run with `n` executions behind it follows the action's answers: it runs the action again
   * only after it returned true, and stops because of the action exactly when the last one
   * returned false or threw, with that exception.
   */
  ghost predicate Answered(r: (seq<Firing>, Stop), execute: nat -> Result<bool>, n: nat) {
    && (forall j :: n <= j < n + |r.0| - 1 ==> execute(j) == Success(true))
    && (r.1 == ActionEnded <==> |r.0| > 0 && execute(n + |r.0| - 1) == Success(false))
    && (r.1.Threw? <==> |r.0| > 0 && execute(n + |r.0| - 1).Failure?)
    && (r.1.Threw? ==> r.1.error == execute(n + |r.0| - 1).error)
  }

  /** An execution in front of a timed run that follows it keeps time. */
  lemma TimedCons(f: Firing, r: (seq<Firing>, Stop), nextAfter: Instant -> Option<Instant>, clock: nat -> Instant)
    requires nextAfter(clock(f.from)) == Some(f.occurrence) && f.from < f.at && clock(f.at) >= f.occurrence
    requires Timed(r, nextAfter, clock, f.at + 1)
    ensures Timed(Then([f], r), nextAfter, clock, f.from)
  {
    var fs := [f] + r.0;
    assert forall j :: 1 <= j < |fs| ==> fs[j] == r.0[j - 1];
    forall j | 0 <= j < |fs| - 1 ensures fs[j].at < fs[j + 1].from {
      if j > 0 {
        assert fs[j] == r.0[j - 1] && fs[j + 1] == r.0[j - 1 + 1];
      }
    }
  }

  /** An execution that returned true in front of a run that follows the answers still follows them. */
  lemma AnsweredCons(f: Firing, r: (seq<Firing>, Stop), execute: nat -> Result<bool>, n: nat)
    requires execute(n) == Success(true) && Answered(r, execute, n + 1)
    ensures Answered(Then([f], r), execute, n)
  {
  }

  /** Every run of the loop keeps time, */
  lemma {:induction false} LoopTimed(nextAfter: Instant -> Option<Instant>, clock: nat -> Instant, execute: nat -> Result<bool>,
                                     left: nat, readings: nat, n: nat)
    ensures Timed(CronLoop(nextAfter, clock, execute, left, readings, n), nextAfter, clock, readings)
    decreases left, 0
  {
    if left > 0 && nextAfter(clock(readings)).Some? {
      WaitTimed(nextAfter, clock, execute, nextAfter(clock(readings)).value, left - 1, readings, readings + 1, n);
    }
  }

  /** and so does every run from a wait for an occurrence the schedule gave. */
  lemma {:induction false} WaitTimed(nextAfter: Instant -> Option<Instant>, clock: nat -> Instant, execute: nat -> Result<bool>,
                                     occurrence: Instant, left: nat, from: nat, at: nat, n: nat)
    requires nextAfter(clock(from)) == Some(occurrence) && from < at
    ensures Timed(CronWait(nextAfter, clock, execute, occurrence, left, from, at, n), nextAfter, clock, from)
    decreases left, 1
  {
    if occurrence - clock(at) > 0 {
      if left > 0 {
        WaitTimed(nextAfter, clock, execute, occurrence, left - 1, from, at + 1, n);
        assert CronWait(nextAfter, clock, execute, occurrence, left, from, at, n)
          == CronWait(nextAfter, clock, execute, occurrence, left - 1, from, at + 1, n);
      }
    } else if execute(n) == Success(true) {
      LoopTimed(nextAfter, clock, execute, left, at + 1, n + 1);
      FireTimed(nextAfter, clock, execute, occurrence, left, from, at, n);
    }
  }

  /** The execution that ends a wait, in front of a timed run, keeps time. */
  lemma FireTimed(nextAfter: Instant -> Option<Instant>, clock: nat -> Instant, execute: nat -> Result<bool>,
                  occurrence: Instant, left: nat, from: nat, at: nat, n: nat)
    requires nextAfter(clock(from)) == Some(occurrence) && from < at && clock(at) >= occurrence && execute(n) == Success(true)
    requires Timed(CronLoop(nextAfter, clock, execute, left, at + 1, n + 1), nextAfter, clock, at + 1)
    ensures Timed(CronWait(nextAfter, clock, execute, occurrence, left, from, at, n), nextAfter, clock, from)
  {
    var f := Firing(from, occurrence, at);
    var r := CronLoop(nextAfter, clock, execute, left, at + 1, n + 1);
    TimedCons(f, r, nextAfter, clock);
    assert CronWait(nextAfter, clock, execute, occurrence, left, from, at, n) == Then([f], r);
  }

  /** Every run of the loop follows the action's answers, */
  lemma {:induction false} LoopAnswered(nextAfter: Instant -> Option<Instant>, clock: nat -> Instant, execute: nat -> Result<bool>,
                                        left: nat, readings: nat, n: nat)
    ensures Answered(CronLoop(nextAfter, clock, execute, left, readings, n), execute, n)
    decreases left, 0
  {
    if left > 0 && nextAfter(clock(readings)).Some? {
      WaitAnswered(nextAfter, clock, execute, nextAfter(clock(readings)).value, left - 1, readings, readings + 1, n);
    }
  }

  /** and so does every run from a wait. */
  lemma {:induction false} WaitAnswered(nextAfter: Instant -> Option<Instant>, clock: nat -> Instant, execute: nat -> Result<bool>,
                                        occurrence: Instant, left: nat, from: nat, at: nat, n: nat)
    ensures Answered(CronWait(nextAfter, clock, execute, occurrence, left, from, at, n), execute, n)
    decreases left, 1
  {
    if occurrence - clock(at) > 0 {
      if left > 0 {
        WaitAnswered(nextAfter, clock, execute, occurrence, left - 1, from, at + 1, n);
        assert CronWait(nextAfter, clock, execute, occurrence, left, from, at, n)
          == CronWait(nextAfter, clock, execute, occurrence, left - 1, from, at + 1, n);
      }
    } else if execute(n) == Success(true) {
      var f := Firing(from, occurrence, at);
      LoopAnswered(nextAfter, clock, execute, left, at + 1, n + 1);
      AnsweredCons(f, CronLoop(nextAfter, clock, execute, left, at + 1, n + 1), execute, n);
      assert CronWait(nextAfter, clock, execute, occurrence, left, from, at, n)
        == Then([f], CronLoop(nextAfter, clock, execute, left, at + 1, n + 1));
    } else {
      var e := execute(n);
      if e.Success? {
        assert !e.value && e == Success(false);
      }
      assert CronWait(nextAfter, clock, execute, occurrence, left, from, at, n)
        == ([Firing(from, occurrence, at)], Ended(execute(n)));
    }
  }

  /** Each execution costs at least one cancellation check, */
  lemma {:induction false} LoopBounded(nextAfter: Instant -> Option<Instant>, clock: nat -> Instant, execute: nat -> Result<bool>,
                                       left: nat, readings: nat, n: nat)
    ensures |CronLoop(nextAfter, clock, execute, left, readings, n).0| <= left
    decreases left, 0
  {
    if left > 0 && nextAfter(clock(readings)).Some? {
      WaitBounded(nextAfter, clock, execute, nextAfter(clock(readings)).value, left - 1, readings, readings + 1, n);
    }
  }

  /** counting the one that started the wait. */
  lemma {:induction false} WaitBounded(nextAfter: Instant -> Option<Instant>, clock: nat -> Instant, execute: nat -> Result<bool>,
                                       occurrence: Instant, left: nat, from: nat, at: nat, n: nat)
    ensures |CronWait(nextAfter, clock, execute, occurrence, left, from, at, n).0| <= left + 1
    decreases left, 1
  {
    if occurrence - clock(at) > 0 {
      if left > 0 {
        WaitBounded(nextAfter, clock, execute, occurrence, left - 1, from, at + 1, n);
      }
    } else if execute(n) == Success(true) {
      LoopBounded(nextAfter, clock, execute, left, at + 1, n + 1);
    }
  }

  /**
   * The inner loop: waits until the clock reaches `occurrence`, one clock reading and one unit of
   * the cancellation budget per wait. Returns the reading it got there at, or `cancelled` when the
   * budget ran out first.
   */
  method WaitFor(ghost nextAfter: Instant -> Option<Instant>, clock: nat -> Instant, ghost execute: nat -> Result<bool>,
                 occurrence: Instant, left: nat, ghost from: nat, start: nat, ghost n: nat)
    returns (at: nat, left': nat, cancelled: bool)
    ensures cancelled ==> CronWait(nextAfter, clock, execute, occurrence, left, from, start, n) == ([], Cancelled)
    ensures !cancelled ==> clock(at) >= occurrence && start <= at && left' + (at - start) == left
    ensures !cancelled ==>
      CronWait(nextAfter, clock, execute, occurrence, left, from, start, n)
        == CronWait(nextAfter, clock, execute, occurrence, left', from, at, n)
  {
    at, left', cancelled := start, left, false;
    while occurrence - clock(at) > 0
      invariant start <= at && left' + (at - start) == left
      invariant CronWait(nextAfter, clock, execute, occurrence, left, from, start, n)
        == CronWait(nextAfter, clock, execute, occurrence, left', from, at, n)
      decreases left'
    {
      if left' == 0 {
        return at, left', true;
      }
      left' := left' - 1;
      at := at + 1;
    }
  }

  /**
   * Runs one action's loop. The inputs stand for what the loop observes:
   * - `nextAfter` is the schedule's next occurrence after a time, if any;
   * - `clock(k)` is the k-th clock reading of this loop;
   * - `execute(n)` is what the n-th execution of the action returns, or the exception it throws,
   *   which is not caught: it escapes and ends the loop (and faults the `Task.WhenAll` over all
   *   actions' loops);
   * - `budget` is how many cancellation checks and waits pass before the token fires; a wait on a
   *   fired token ends the loop like the check at the top does.
   * Returns the executions, in order, and why the loop stopped.
   */
  method RunCronAction(nextAfter: Instant -> Option<Instant>, clock: nat -> Instant, execute: nat -> Result<bool>, budget: nat)
    returns (firings: seq<Firing>, stop: Stop)
    ensures (firings, stop) == CronLoop(nextAfter, clock, execute, budget, 0, 0)
  {
    firings := [];
    var readings: nat := 0;
    var left: nat := budget;
    ghost var whole := CronLoop(nextAfter, clock, execute, budget, 0, 0);
    assert [] + whole.0 == whole.0;
    while true
      invariant whole == Then(firings, CronLoop(nextAfter, clock, execute, left, readings, |firings|))
      decreases left
    {
      if left == 0 {
        stop := Cancelled;
        break;
      }
      var n := |firings|;
      var from := readings;
      var occurrence := nextAfter(clock(from));
      LoopUnfold(nextAfter, clock, execute, left, from, n);
      if occurrence.None? {
        stop := NoOccurrence(from);
        break;
      }
      var at, rest, cancelled := WaitFor(nextAfter, clock, execute, occurrence.value, left - 1, from, from + 1, n);
      if cancelled {
        stop := Cancelled;
        break;
      }
      var firing := Firing(from, occurrence.value, at);
      LoopRuns(nextAfter, clock, execute, firings, occurrence.value, left, rest, from, at, n);
      var result := execute(n);
      firings, readings, left := firings + [firing], at + 1, rest;
      if result != Success(true) {
        stop := Ended(result);
        break;
      }
    }
    assert firings + [] == firings;
  }

  /**
   * What a run of the loop guarantees: every occurrence comes from the schedule applied to a clock
   * reading; no execution starts before the clock has reached its occurrence; the next occurrence
   * is computed from a reading taken after the previous execution; the action runs again only after
   * it returned true; a false ends the loop, and so does an exception, which the loop passes on;
   * a missing occurrence ends it without executing; and it cannot run more often than the
   * cancellation budget allows.
   */
  lemma CronLoopProperties(nextAfter: Instant -> Option<Instant>, clock: nat -> Instant, execute: nat -> Result<bool>, budget: nat)
    ensures var (firings, stop) := CronLoop(nextAfter, clock, execute, budget, 0, 0);
      && (forall j :: 0 <= j < |firings| ==> nextAfter(clock(firings[j].from)) == Some(firings[j].occurrence))
      && (forall j :: 0 <= j < |firings| ==> firings[j].from < firings[j].at && clock(firings[j].at) >= firings[j].occurrence)
      && (forall j :: 0 <= j < |firings| - 1 ==> firings[j].at < firings[j + 1].from)
      && (forall j :: 0 <= j < |firings| - 1 ==> execute(j) == Success(true))
      && (stop == ActionEnded <==> |firings| > 0 && execute(|firings| - 1) == Success(false))
      && (stop.Threw? <==> |firings| > 0 && execute(|firings| - 1).Failure?)
      && (stop.Threw? ==> stop.error == execute(|firings| - 1).error)
      && (stop.NoOccurrence? ==> nextAfter(clock(stop.read)) == None && (|firings| > 0 ==> firings[|firings| - 1].at < stop.read))
      && |firings| <= budget
  {
    LoopTimed(nextAfter, clock, execute, budget, 0, 0);
    LoopAnswered(nextAfter, clock, execute, budget, 0, 0);
    LoopBounded(nextAfter, clock, execute, budget, 0, 0);
  }

  /**
   * The loop keeps going while the action returns true: when every occurrence is already due at
   * the next clock reading and the action always returns true, every cancellation check leads to
   * one execution and only the cancellation ends the loop.
   */
  lemma {:induction false} AlwaysDueRunsEveryRound(nextAfter: Instant -> Option<Instant>, clock: nat -> Instant,
                                                   execute: nat -> Result<bool>, left: nat, readings: nat, n: nat)
    requires forall k: nat :: nextAfter(clock(k)).Some? && clock(k + 1) >= nextAfter(clock(k)).value
    requires forall j: nat :: execute(j) == Success(true)
    ensures |CronLoop(nextAfter, clock, execute, left, readings, n).0| == left
    ensures CronLoop(nextAfter, clock, execute, left, readings, n).1 == Cancelled
    decreases left
  {
    if left > 0 {
      var occurrence := nextAfter(clock(readings)).value;
      LoopUnfold(nextAfter, clock, execute, left, readings, n);
      AlwaysDueRunsEveryRound(nextAfter, clock, execute, left - 1, readings + 2, n + 1);
      assert CronWait(nextAfter, clock, execute, occurrence, left - 1, readings, readings + 1, n)
        == Then([Firing(readings, occurrence, readings + 1)], CronLoop(nextAfter, clock, execute, left - 1, readings + 2, n + 1));
    }
  }
}

=== FILE: cron_actions.dfy ===
/**
 * The scheduled actions: each one produces work (queued requests or stored tallies) and says
 * whether the cron loop should run it again.
 */
module CronActions {
  import opened Wrappers
  import opened Contracts
  import opened RequestInfos
  import opened DateRange
  import opened Redis
  import opened RequestQueues
  import opened QuoteStores
  import opened TallySources
  import opened TallyService
  import opened UserDataStores
  import RedisNames

  /** One Polygon quote-history request per tracker, in tracker order, all over the same range. */
  function TrackerHistoryRequests(trackers: seq<Tracker>, from: Instant, to: Instant): (r: seq<RequestInfo>)
    ensures |r| == |trackers|
    ensures forall i :: 0 <= i < |r| ==>
      && r[i].quoteHistoryDownload == Some(QuoteHistoryRequestInfo(trackers[i].symbol, from, to))
      && r[i].apiTag == Some(Polygon)
      && PayloadCount(r[i]) == 1
  {
    seq(|trackers|, i requires 0 <= i < |trackers| => DownloadQuoteHistory(QuoteHistoryRequestInfo(trackers[i].symbol, from, to), Polygon))
  }

  /**
   * The quote-history action: queues one history request per tracker for the last
   * `quoteHistoryDays` days up to yesterday (from the clock reading `now`) on the Polygon queue,
   * touches no other queue, and always asks to run again.
   */
  method QuoteHistoryAction(trackers: seq<Tracker>, quoteHistoryDays: int, now: Instant, queue: RedisRequestQueue) returns (again: bool)
    requires queue.Valid()
    modifies queue
    ensures queue.Valid() && again
    ensures var range := DaysUntilYesterday(now, quoteHistoryDays);
      queue.Queue(Polygon) == old(queue.Queue(Polygon)) + TrackerHistoryRequests(trackers, range.0, range.1)
    ensures forall k :: k != RedisNames.Requests(Polygon) ==> GetList(queue.lists, k) == GetList(old(queue.lists), k)
  {
    var range := DaysUntilYesterday(now, quoteHistoryDays);
    var requests := TrackerHistoryRequests(trackers, range.0, range.1);
    EnqueueOneTag(queue.lists, requests, Polygon);
    var _ := queue.EnqueueRequests(requests);
    return true;
  }

  /** The snapshot action: queues exactly one Messari snapshot request and always asks to run again. */
  method QuoteSnapshotAction(queue: RedisRequestQueue) returns (again: bool)
    requires queue.Valid()
    modifies queue
    ensures queue.Valid() && again
    ensures queue.Queue(Messari) == old(queue.Queue(Messari)) + [DownloadQuoteSnapshots(Messari)]
    ensures forall k :: k != RedisNames.Requests(Messari) ==> GetList(queue.lists, k) == GetList(old(queue.lists), k)
  {
    var _ := queue.EnqueueRequest(DownloadQuoteSnapshots(Messari));
    return true;
  }

  /**
   * The start-up action: reads both queue lengths (only to log them) and, when the quote store
   * has no daily trackers yet, runs the quote-history action once. It never asks to run again.
   */
  method InitializeAction(quotes: RedisQuoteStore, trackers: seq<Tracker>, quoteHistoryDays: int, now: Instant, queue: RedisRequestQueue)
    returns (again: bool)
    requires queue.Valid()
    modifies queue
    ensures queue.Valid() && !again
    ensures |Matching(quotes.daily.Keys, RedisNames.DailyQuotesPrefix)| == 0 ==>
      var range := DaysUntilYesterday(now, quoteHistoryDays);
      && queue.Queue(Polygon) == old(queue.Queue(Polygon)) + TrackerHistoryRequests(trackers, range.0, range.1)
      && forall k :: k != RedisNames.Requests(Polygon) ==> GetList(queue.lists, k) == GetList(old(queue.lists), k)
    ensures |Matching(quotes.daily.Keys, RedisNames.DailyQuotesPrefix)| > 0 ==> queue.lists == old(queue.lists)
  {
    var polygonLength := queue.GetRequestQueueLength(Polygon);
    var messariLength := queue.GetRequestQueueLength(Messari);
    var dailyTrackers := quotes.GetDailyTrackers();
    if |dailyTrackers| == 0 {
      var _ := QuoteHistoryAction(trackers, quoteHistoryDays, now, queue);
    }
    return false;
  }

  /** The tally lists after putting `tallies` one after the other, each under its own source's key. */
  function PutAllTallies(lists: map<string, seq<Tally>>, tallies: seq<Tally>, maxLength: int): map<string, seq<Tally>>
    decreases |tallies|
  {
    if tallies == [] then lists
    else
      var prev := PutAllTallies(lists, tallies[..|tallies| - 1], maxLength);
      var last := tallies[|tallies| - 1];
      var key := RedisNames.Tally(last.tallySourceId);
      SetList(prev, key, PushTally(GetList(prev, key), last, maxLength))
  }

  /** A source none of whose tallies is put keeps its history. */
  lemma {:induction false} PutAllTalliesElsewhere(lists: map<string, seq<Tally>>, tallies: seq<Tally>, maxLength: int, id: string)
    requires forall t :: t in tallies ==> t.tallySourceId != id
    ensures GetList(PutAllTallies(lists, tallies, maxLength), RedisNames.Tally(id)) == GetList(lists, RedisNames.Tally(id))
    decreases |tallies|
  {
    if tallies != [] {
      var init := tallies[..|tallies| - 1];
      var last := tallies[|tallies| - 1];
      assert forall t :: t in init ==> t in tallies;
      PutAllTalliesElsewhere(lists, init, maxLength, id);
      RedisNames.TallyKeys(last.tallySourceId, id);
    }
  }

  /** The last tally put for a source heads that source's history. */
  lemma NewestTallyFirst(lists: map<string, seq<Tally>>, tallies: seq<Tally>, maxLength: int)
    requires maxLength >= 1 && tallies != []
    ensures var last := tallies[|tallies| - 1];
      var l := GetList(PutAllTallies(lists, tallies, maxLength), RedisNames.Tally(last.tallySourceId));
      |l| > 0 && l[0] == last
  {
  }

  /** Puts `tallies` into the store one after the other; returns how many were put. */
  method PutTallies(tallies: seq<Tally>, store: RedisUserDataStore) returns (count: nat)
    requires store.Valid()
    modifies store
    ensures store.Valid() && store.tallySources == old(store.tallySources)
    ensures count == |tallies|
    ensures store.tallyLists == PutAllTallies(old(store.tallyLists), tallies, store.maxTallyHistoryLength)
  {
    count := 0;
    while count < |tallies|
      invariant count <= |tallies|
      invariant store.Valid() && store.tallySources == old(store.tallySources)
      invariant store.tallyLists == PutAllTallies(old(store.tallyLists), tallies[..count], store.maxTallyHistoryLength)
    {
      store.PutTally(tallies[count], true);
      assert tallies[..count + 1][..count] == tallies[..count];
      count := count + 1;
    }
    assert tallies[..count] == tallies;
  }

  /**
   * The evaluation action: scans the tally sources of all users, evaluates those of its interval
   * and puts every tally, in the order they are made; `count` (which is only logged) is the
   * number of tallies put. It asks to run again, unless the script context cannot be built from
   * the trackers' `symbols`: then its ArgumentException escapes before any tally is put. `sources`
   * is the scan, whose order is not specified; the scan only reads, so making it before the
   * context is built changes nothing. An unconditioned transaction always commits, so every put
   * takes effect.
   */
  method EvaluationAction(interval: EvaluationInterval, symbols: seq<string>, engine: TallySource -> Evaluation,
                          clock: nat -> Instant, store: RedisUserDataStore)
    returns (again: Result<bool>, count: nat, ghost sources: seq<TallySource>)
    requires store.Valid()
    modifies store
    ensures |sources| == |SourceFields(old(store.tallySources), None)|
    ensures forall s :: s in sources <==>
      exists f :: f in SourceFields(old(store.tallySources), None) && old(store.tallySources)[f] == s
    ensures store.Valid() && store.tallySources == old(store.tallySources)
    ensures again.Failure? <==> ContextNames(symbols).Failure?
    ensures again.Failure? ==> again.error == ArgumentException && count == 0 && store.tallyLists == old(store.tallyLists)
    ensures again.Success? ==> again.value && count == |Selected(interval, sources)|
    ensures again.Success? ==>
      store.tallyLists == PutAllTallies(old(store.tallyLists), Evaluations(Selected(interval, sources), engine, clock), store.maxTallyHistoryLength)
  {
    var scanned := store.GetTallySources(None);
    sources := scanned;
    var tallies := EvaluateAll(interval, symbols, scanned, engine, clock);
    if tallies.Failure? {
      return Failure(tallies.error), 0, sources;
    }
    count := PutTallies(tallies.value, store);
    return Success(true), count, sources;
  }
}

=== FILE: date_range.dfy ===
/** The date range "the last `days` days, up to yesterday", against one clock reading. */
module DateRange {
  import opened Contracts

  /** (from, to): `to` is one day before `now`, `from` a further `days` days earlier. */
  function DaysUntilYesterday(now: Instant, days: int): (r: (Instant, Instant))
    ensures r.1 + MsPerDay == now
    ensures r.1 - r.0 == days * MsPerDay
  {
    var to := now - MsPerDay;
    (to - days * MsPerDay, to)
  }

  /**
   * In day numbers, the range ends on the day before `now`'s day and starts `days` days before
   * that, at the same time of day; it is never reversed for a non-negative `days`.
   */
  lemma DaysUntilYesterdayDays(now: Instant, days: int)
    ensures var r := DaysUntilYesterday(now, days);
      && DayOf(r.1) == DayOf(now) - 1
      && DayOf(r.0) == DayOf(now) - 1 - days
      && r.0 - MidnightOf(DayOf(r.0)) == now - MidnightOf(DayOf(now))
      && (days >= 0 ==> r.0 <= r.1)
  {
    var r := DaysUntilYesterday(now, days);
    DayShift(now, -1);
    DayShift(now, -1 - days);
    assert r.0 == now + (-1 - days) * MsPerDay;
  }

  /** Moving an instant by whole days moves its day number by the same amount and keeps the time of day. */
  lemma DayShift(t: Instant, k: int)
    ensures DayOf(t + k * MsPerDay) == DayOf(t) + k
    ensures (t + k * MsPerDay) - MidnightOf(DayOf(t + k * MsPerDay)) == t - MidnightOf(DayOf(t))
  {
    var d := DayOf(t);
    var rem := t - d * MsPerDay;
    assert 0 <= rem < MsPerDay;
    assert t + k * MsPerDay == (d + k) * MsPerDay + rem;
    DivUnique(t + k * MsPerDay, d + k, rem);
  }

  lemma DivUnique(n: int, q: int, rem: int)
    requires n == q * MsPerDay + rem && 0 <= rem < MsPerDay
    ensures n / MsPerDay == q
  {
  }
}

=== FILE: model_container.dfy ===
/**
 * The web client's in-memory model: the tally sources it has loaded, by id, and every tally it
 * has received, in arrival order.
 */
module ModelContainers {
  import opened Wrappers
  import opened Contracts
  import opened TallySources

  /** A tally source as the web client receives it; the id may be missing from the payload. */
  datatype SourceView = SourceView(id: Option<string>, code: string, version: int, dateModified: Instant, interval: EvaluationInterval)

  /** The tallies of source `id`, in their original order. */
  function OfSource(tallies: seq<Tally>, id: string): (r: seq<Tally>)
    ensures |r| <= |tallies|
    ensures forall t :: t in r <==> t in tallies && t.tallySourceId == id
    ensures multiset(r) <= multiset(tallies)
  {
    if tallies == [] then []
    else
      assert tallies == [tallies[0]] + tallies[1..];
      (if tallies[0].tallySourceId == id then [tallies[0]] else []) + OfSource(tallies[1..], id)
  }

  /** Newest first: no tally is older than the one after it. */
  predicate SortedByDateDesc(s: seq<Tally>) {
    forall i :: 0 <= i < |s| - 1 ==> s[i].dateCreated >= s[i + 1].dateCreated
  }

  /** The tallies of `s` created at `d`, in their order in `s`. */
  function AtDate(s: seq<Tally>, d: Instant): seq<Tally> {
    if s == [] then []
    else (if s[0].dateCreated == d then [s[0]] else []) + AtDate(s[1..], d)
  }

  /** `x` placed in front of the first element of `s` that is not newer than it. */
  function InsertByDate(s: seq<Tally>, x: Tally): (r: seq<Tally>)
    ensures |r| == |s| + 1
    ensures multiset(r) == multiset(s) + multiset{x}
    ensures r[0] == x || (s != [] && r[0] == s[0])
  {
    if s == [] || x.dateCreated >= s[0].dateCreated then [x] + s
    else
      var rest := InsertByDate(s[1..], x);
      assert s == [s[0]] + s[1..];
      [s[0]] + rest
  }

  /** Inserting into a sorted sequence keeps it sorted. */
  lemma {:induction false} InsertByDateSorted(s: seq<Tally>, x: Tally)
    requires SortedByDateDesc(s)
    ensures SortedByDateDesc(InsertByDate(s, x))
  {
    if s != [] && x.dateCreated < s[0].dateCreated {
      var rest := InsertByDate(s[1..], x);
      assert SortedByDateDesc(s[1..]) by {
        forall i | 0 <= i < |s[1..]| - 1 ensures s[1..][i].dateCreated >= s[1..][i + 1].dateCreated {
          assert s[1..][i] == s[i + 1] && s[1..][i + 1] == s[i + 2];
        }
      }
      InsertByDateSorted(s[1..], x);
      var r := [s[0]] + rest;
      assert InsertByDate(s, x) == r;
      forall i | 0 <= i < |r| - 1 ensures r[i].dateCreated >= r[i + 1].dateCreated {
        if i > 0 {
          assert r[i] == rest[i - 1] && r[i + 1] == rest[i];
        } else {
          assert r[1] == rest[0];
        }
      }
    }
  }

  /** The stable sort by creation date, newest first, that a descending LINQ ordering performs. */
  function SortByDateDesc(s: seq<Tally>): (r: seq<Tally>)
    ensures multiset(r) == multiset(s)
    ensures SortedByDateDesc(r)
  {
    if s == [] then []
    else
      assert s == [s[0]] + s[1..];
      InsertByDateSorted(SortByDateDesc(s[1..]), s[0]);
      InsertByDate(SortByDateDesc(s[1..]), s[0])
  }

  /** Inserting keeps the relative order of the tallies of every date: `x` goes first among its equals. */
  lemma {:induction false} InsertByDateStable(s: seq<Tally>, x: Tally, d: Instant)
    requires SortedByDateDesc(s)
    ensures AtDate(InsertByDate(s, x), d) == (if x.dateCreated == d then [x] else []) + AtDate(s, d)
  {
    if s == [] || x.dateCreated >= s[0].dateCreated {
      assert ([x] + s)[1..] == s;
    } else {
      var rest := InsertByDate(s[1..], x);
      assert InsertByDate(s, x) == [s[0]] + rest;
      var head: seq<Tally> := if s[0].dateCreated == d then [s[0]] else [];
      var mid: seq<Tally> := if x.dateCreated == d then [x] else [];
      assert SortedByDateDesc(s[1..]) by {
        forall i | 0 <= i < |s[1..]| - 1 ensures s[1..][i].dateCreated >= s[1..][i + 1].dateCreated {
          assert s[1..][i] == s[i + 1] && s[1..][i + 1] == s[i + 2];
        }
      }
      InsertByDateStable(s[1..], x, d);
      assert AtDate(rest, d) == mid + AtDate(s[1..], d);
      assert ([s[0]] + rest)[1..] == rest;
      assert AtDate([s[0]] + rest, d) == head + AtDate(rest, d);
      assert AtDate(s, d) == head + AtDate(s[1..], d);
      if x.dateCreated == d {
        assert head == [];
      } else {
        assert mid == [];
      }
    }
  }

  /** The sort is stable: tallies with the same creation date keep their original order. */
  lemma {:induction false} SortByDateDescStable(s: seq<Tally>, d: Instant)
    ensures AtDate(SortByDateDesc(s), d) == AtDate(s, d)
  {
    if s != [] {
      SortByDateDescStable(s[1..], d);
      InsertByDateStable(SortByDateDesc(s[1..]), s[0], d);
    }
  }

  class ModelContainer {
    /** The loaded tally sources by id. */
    var tallySources: map<string, SourceView>
    /** Every received tally, oldest first. */
    var tallies: seq<Tally>

    /** Every source is filed under its own id. */
    ghost predicate Valid()
      reads this
    {
      forall id :: id in tallySources ==> tallySources[id].id == Some(id)
    }

    constructor ()
      ensures Valid() && tallySources == map[] && tallies == []
    {
      tallySources := map[];
      tallies := [];
    }

    /** Stores `source` under its id, replacing any source with that id; a missing id is rejected. */
    method PutTallySource(source: SourceView) returns (error: Option<Exception>)
      requires Valid()
      modifies this
      ensures Valid() && tallies == old(tallies)
      ensures error.Some? <==> source.id.None?
      ensures error.Some? ==> error.value == ArgumentNullException && tallySources == old(tallySources)
      ensures error.None? ==> tallySources == old(tallySources)[source.id.value := source]
      ensures error.None? ==> GetTallySource(source.id.value) == Some(source)
    {
      if source.id.None? {
        return Some(ArgumentNullException);
      }
      tallySources := tallySources[source.id.value := source];
      return None;
    }

    /** The source with `id`, or nothing when none is loaded. */
    function GetTallySource(id: string): (r: Option<SourceView>)
      reads this
      requires Valid()
      ensures r.Some? <==> id in tallySources
      ensures r.Some? ==> r.value.id == Some(id) && r.value == tallySources[id]
    {
      if id in tallySources then Some(tallySources[id]) else None
    }

    /** Appends a tally; tallies are never replaced. */
    method PutTally(tally: Tally)
      modifies this
      ensures tallySources == old(tallySources)
      ensures tallies == old(tallies) + [tally]
      ensures forall id :: GetTallies(id) == SortByDateDesc(OfSource(old(tallies) + [tally], id))
    {
      tallies := tallies + [tally];
    }

    /**
     * Exactly the tallies of source `id`, newest first; tallies created at the same time stay in
     * arrival order.
     */
    function GetTallies(id: string): (r: seq<Tally>)
      reads this
      ensures forall t :: t in r <==> t in tallies && t.tallySourceId == id
      ensures multiset(r) == multiset(OfSource(tallies, id))
      ensures SortedByDateDesc(r)
      ensures forall d :: AtDate(r, d) == AtDate(OfSource(tallies, id), d)
    {
      var mine := OfSource(tallies, id);
      var r := SortByDateDesc(mine);
      assert forall t :: t in r <==> t in multiset(mine);
      assert forall d :: AtDate(r, d) == AtDate(mine, d) by {
        forall d ensures AtDate(r, d) == AtDate(mine, d) {
          SortByDateDescStable(mine, d);
        }
      }
      r
    }
  }
}

=== FILE: navigation.dfy ===
/**
 * The web client's navigation history: every location the browser moves to is recorded, at most
 * the last hundred are kept, and going back pops the current location and returns to the one
 * before it without recording that move.
 */
module Navigations {
  import opened Wrappers

  const MaxHistoryLength: nat := 100

  /** The history after recording `location`: the last `MaxHistoryLength` entries of `history + [location]`. */
  function Record(history: seq<string>, location: string): (r: seq<string>)
    ensures |r| == if |history| + 1 <= MaxHistoryLength then |history| + 1 else MaxHistoryLength
    ensures |r| >= 1 && r[|r| - 1] == location
    ensures r == (history + [location])[|history| + 1 - |r|..]
  {
    var appended := history + [location];
    if |appended| <= MaxHistoryLength then appended else appended[|appended| - MaxHistoryLength..]
  }

  /** Going back from a history that was below the bound undoes the recording of a location. */
  lemma BackUndoesRecord(history: seq<string>, location: string)
    requires |history| < MaxHistoryLength
    ensures var r := Record(history, location); r[..|r| - 1] == history
  {
    var r := Record(history, location);
    assert r == history + [location];
  }

  /** At the bound, recording drops the oldest entry and keeps the rest in order. */
  lemma RecordAtBoundDropsOldest(history: seq<string>, location: string)
    requires |history| == MaxHistoryLength
    ensures Record(history, location) == history[1..] + [location]
  {
    var r := Record(history, location);
    assert r == (history + [location])[1..];
  }

  class Navigation {
    /** Visited locations, oldest first; the last one is the current location. */
    var history: seq<string>
    /** Cleared while going back, so the move back is not recorded. */
    var handleLocationChanged: bool

    /** The history is never empty and never longer than the bound. */
    ghost predicate Valid()
      reads this
    {
      1 <= |history| <= MaxHistoryLength
    }

    /** Starts with the location the browser is at. */
    constructor (uri: string)
      ensures Valid() && history == [uri] && handleLocationChanged
    {
      history := [uri];
      handleLocationChanged := true;
    }

    /** Whether there is a location to go back to: the history holds more than the current location. */
    function CanGoBack(): (can: bool)
      reads this
      ensures Valid() ==> (can <==> history != [history[|history| - 1]])
    {
      |history| > 1
    }

    /**
     * The browser moved to `location`: while handling is on, the location is appended and the
     * oldest entries are dropped until the bound holds again; otherwise nothing changes.
     */
    method OnLocationChanged(location: string)
      requires Valid()
      modifies this
      ensures Valid() && handleLocationChanged == old(handleLocationChanged)
      ensures history == if handleLocationChanged then Record(old(history), location) else old(history)
    {
      if !handleLocationChanged {
        return;
      }
      var appended := history + [location];
      history := appended;
      while |history| > MaxHistoryLength
        invariant 1 <= |history| <= |appended|
        invariant history == appended[|appended| - |history|..]
        invariant |history| >= MaxHistoryLength || history == appended
        invariant handleLocationChanged
        decreases |history|
      {
        history := history[1..];
      }
    }

    /** Navigates to `uri`; the browser reports the move, which is recorded. */
    method NavigateTo(uri: string)
      requires Valid() && handleLocationChanged
      modifies this
      ensures Valid() && handleLocationChanged
      ensures history == Record(old(history), uri)
    {
      OnLocationChanged(uri);
    }

    /**
     * Pops the current location and navigates to the one before it, with recording switched off
     * for that move (the browser reports the move at once, while the flag is cleared). Returns the
     * location navigated to; with no location to go back to, throws InvalidOperationException and
     * changes nothing.
     */
    method GoBack() returns (error: Option<Exception>, target: Option<string>)
      requires Valid() && handleLocationChanged
      modifies this
      ensures Valid() && handleLocationChanged
      ensures error.Some? <==> !old(CanGoBack())
      ensures error.Some? ==> error.value == InvalidOperationException && history == old(history) && target.None?
      ensures error.None? ==> history == old(history)[..|old(history)| - 1]
      ensures error.None? ==> target == Some(old(history)[|old(history)| - 2])
    {
      if !CanGoBack() {
        return Some(InvalidOperationException), None;
      }
      history := history[..|history| - 1];
      handleLocationChanged := false;
      var location := history[|history| - 1];
      OnLocationChanged(location);
      handleLocationChanged := true;
      return None, Some(location);
    }
  }
}

=== FILE: polygon_naming.dfy ===
/**
 * Polygon's crypto ticker format `<market>:<base><quote>`, e.g. `X:BTCUSD`: the base symbol is
 * what the quote store files quotes under, the three-letter quote currency is their currency.
 */
module PolygonNaming {
  import opened Wrappers
  import opened Text

  /** The last three characters, or the empty string for a symbol of at most three characters. */
  function ExtractCurrency(polygonSymbol: string): (c: string)
    ensures |polygonSymbol| > 3 ==> |c| == 3 && polygonSymbol == polygonSymbol[..|polygonSymbol| - 3] + c
    ensures |polygonSymbol| <= 3 ==> c == ""
  {
    if |polygonSymbol| > 3 then polygonSymbol[|polygonSymbol| - 3..] else ""
  }

  /**
   * The pattern `^\w+?:(\w+)\w{3}$`, written out: a non-empty word run, a colon, a word run of at
   * least four characters that ends the string (or is followed only by a final line feed, which
   * `$` also accepts); the captured group is that run without its last three characters.
   */
  function AdjustSymbol(polygonSymbol: string): (r: Result<string>)
    ensures r.Failure? ==> r.error == ArgumentException
    ensures r.Success? ==> |r.value| >= 1 && IsWordString(r.value)
  {
    var s := polygonSymbol;
    var n := WordRun(s, 0);
    if n == 0 || n == |s| || s[n] != ':' then Failure(ArgumentException)
    else
      var m := WordRun(s, n + 1);
      var end := n + 1 + m;
      if m >= 4 && (end == |s| || (end == |s| - 1 && s[end] == '\n')) then Success(s[n + 1..end - 3])
      else Failure(ArgumentException)
  }

  /** A well-formed ticker yields its base symbol. */
  lemma {:induction false} AdjustSymbolOfTicker(market: string, base: string, currency: string)
    requires |market| >= 1 && IsWordString(market)
    requires |base| >= 1 && IsWordString(base)
    requires |currency| == 3 && IsWordString(currency)
    ensures AdjustSymbol(market + ":" + base + currency) == Success(base)
    ensures ExtractCurrency(market + ":" + base + currency) == currency
  {
    var s := market + ":" + base + currency;
    WordRunOfWordThenStop(market, ":" + base + currency);
    assert s == market + (":" + base + currency);
    var n := |market|;
    WordRunFrom(s, n + 1, |s|);
    assert s[n + 1..|s| - 3] == base;
  }

  lemma TickerExample()
    ensures AdjustSymbol("X:BTCUSD") == Success("BTC")
    ensures ExtractCurrency("X:BTCUSD") == "USD"
  {
    AdjustSymbolOfTicker("X", "BTC", "USD");
    assert "X" + ":" + "BTC" + "USD" == "X:BTCUSD";
  }

  /**
   * Every accepted symbol has that shape: exactly one colon, after a non-empty word run, and the
   * base symbol followed by the three-letter currency make up everything after the colon (apart
   * from a final line feed, with which the currency slice would also end).
   */
  lemma {:induction false} AdjustSymbolAccepts(s: string)
    requires AdjustSymbol(s).Success?
    ensures var base := AdjustSymbol(s).value;
      exists market: string, currency: string, tail: string ::
        && |market| >= 1 && IsWordString(market) && |currency| == 3 && IsWordString(currency)
        && (tail == "" || tail == "\n")
        && s == market + ":" + base + currency + tail
        && (tail == "" ==> base + ExtractCurrency(s) == s[|market| + 1..])
    ensures forall i, j :: 0 <= i < j < |s| && s[i] == ':' ==> s[j] != ':'
  {
    var n := WordRun(s, 0);
    var m := WordRun(s, n + 1);
    var end := n + 1 + m;
    var base := s[n + 1..end - 3];
    assert AdjustSymbol(s).value == base;
    var market, currency, tail := s[..n], s[end - 3..end], s[end..];
    assert IsWordString(market) by {
      forall k | 0 <= k < |market| ensures IsWordChar(market[k]) {
        assert market[k] == s[k];
      }
    }
    assert IsWordString(currency) by {
      forall k | 0 <= k < |currency| ensures IsWordChar(currency[k]) {
        assert currency[k] == s[end - 3 + k];
      }
    }
    assert tail == "" || tail == "\n" by {
      if end < |s| {
        assert end == |s| - 1 && s[end] == '\n';
        assert tail == [s[end]];
      }
    }
    Reassemble(s, n, end);
    assert tail == "" ==> base + ExtractCurrency(s) == s[|market| + 1..] by {
      if tail == "" {
        assert end == |s|;
        assert ExtractCurrency(s) == s[end - 3..];
      }
    }
    assert |market| >= 1 && |currency| == 3;
    forall i, j | 0 <= i < j < |s| && s[i] == ':' ensures s[j] != ':' {
      assert i == n;
    }
  }

  /** A string cut at a colon and at the three characters before `end` is those pieces joined again. */
  lemma Reassemble(s: string, n: nat, end: nat)
    requires n + 1 <= end - 3 && end <= |s| && s[n] == ':'
    ensures s == s[..n] + ":" + s[n + 1..end - 3] + s[end - 3..end] + s[end..]
  {
    assert s == s[..n] + s[n..];
    assert s[n..] == ":" + s[n + 1..end - 3] + s[end - 3..end] + s[end..];
  }

  /** A final line feed is accepted by the pattern but ends up in the currency slice. */
  lemma TrailingLineFeed()
    ensures AdjustSymbol("X:BTCUSD\n") == Success("BTC")
    ensures ExtractCurrency("X:BTCUSD\n") == "SD\n"
  {
    var s := "X:BTCUSD\n";
    WordRunFrom(s, 0, 1);
    WordRunFrom(s, 2, 8);
    assert s[2..5] == "BTC";
  }

  /** Symbols the pattern rejects. */
  lemma Rejected()
    ensures AdjustSymbol("BTCUSD").Failure?
    ensures AdjustSymbol(":BTCUSD").Failure?
    ensures AdjustSymbol("X:USD").Failure?
    ensures AdjustSymbol("X:BTC:USD").Failure?
  {
    WordRunFrom("BTCUSD", 0, 6);
    WordRunFrom("X:USD", 2, 5);
    WordRunFrom("X:BTC:USD", 0, 1);
    WordRunFrom("X:BTC:USD", 2, 5);
  }
}

=== FILE: quote_history_request.dfy ===
/**
 * The Polygon quote-history request: download the daily aggregates of one symbol for a date
 * range and file each one as a daily quote.
 */
module QuoteHistoryRequests {
  import opened Wrappers
  import opened Contracts
  import opened RequestInfos
  import opened RequestEngine
  import opened ApiCalls
  import opened PolygonNaming
  import opened Redis
  import opened QuoteStores
  import RedisNames

  /** One daily aggregate bar of the response; `timestamp` is in Unix milliseconds. */
  datatype Aggregate = Aggregate(open: Price, close: Price, high: Price, timestamp: Instant)

  /** The decoded response: the status flag and the result list, which may be absent. */
  datatype AggregatesResponse = AggregatesResponse(statusOk: bool, results: Option<seq<Aggregate>>)

  /** The daily quote made of an aggregate: the low price is not delivered and is written as 0. */
  function ToQuote(symbol: string, currency: string, a: Aggregate): (q: Quote)
    ensures Aggregate(q.open, q.close, q.high, q.date) == a
    ensures q.symbol == symbol && q.currency == currency && q.low == 0
  {
    Quote(symbol, a.open, a.close, a.high, 0, currency, a.timestamp)
  }

  /** The quotes the request writes for `results`, one per aggregate and in the same order. */
  function HistoryQuotes(info: QuoteHistoryRequestInfo, results: seq<Aggregate>): seq<Quote>
    requires AdjustSymbol(info.symbol).Success?
  {
    var symbol := AdjustSymbol(info.symbol).value;
    var currency := ExtractCurrency(info.symbol);
    seq(|results|, i requires 0 <= i < |results| => ToQuote(symbol, currency, results[i]))
  }

  /**
   * How the request ends for a given API call. The symbol is converted outside the exception
   * handler, so a symbol of the wrong form escapes as an exception.
   */
  function HistoryOutcome(info: QuoteHistoryRequestInfo, call: Call<AggregatesResponse>): (e: Execution)
    ensures e == Returned(WaitAndRetry) <==> call == Faulted(HttpFault(Some(TooManyRequests)))
    ensures e == Returned(Fatal) <==> call.Faulted? && call.fault != HttpFault(Some(TooManyRequests))
    ensures e == Returned(Retry) <==> call.Answered? && call.response.results.None?
    ensures e == Threw <==> call.Answered? && call.response.results.Some? && AdjustSymbol(info.symbol).Failure?
    ensures e == Returned(Ok) <==> call.Answered? && call.response.results.Some? && AdjustSymbol(info.symbol).Success?
  {
    match call
    case Faulted(fault) => Returned(FaultOutcome(fault))
    case Answered(response) =>
      if response.results.None? then Returned(Retry)
      else if AdjustSymbol(info.symbol).Failure? then Threw
      else Returned(Ok)
  }

  /** A response whose status is not OK is only logged: the outcome depends on the results alone. */
  lemma StatusOnlyLogs(info: QuoteHistoryRequestInfo, results: Option<seq<Aggregate>>)
    ensures HistoryOutcome(info, Answered(AggregatesResponse(false, results)))
         == HistoryOutcome(info, Answered(AggregatesResponse(true, results)))
  {
  }

  /** The daily hashes after putting `quotes` one after the other. */
  function PutAllDaily(daily: map<string, map<RedisNames.DateField, Quote>>, quotes: seq<Quote>): map<string, map<RedisNames.DateField, Quote>>
    decreases |quotes|
  {
    if quotes == [] then daily
    else PutDailyMap(PutAllDaily(daily, quotes[..|quotes| - 1]), quotes[|quotes| - 1])
  }

  /** A quote that no later quote overwrites (same symbol key and same day) can be read back. */
  lemma {:induction false} PutAllDailyAt(daily: map<string, map<RedisNames.DateField, Quote>>, quotes: seq<Quote>, i: nat)
    requires i < |quotes|
    requires forall j :: i < j < |quotes| ==>
      RedisNames.DailyQuotes(quotes[j].symbol) != RedisNames.DailyQuotes(quotes[i].symbol) ||
      RedisNames.DateKey(quotes[j].date, 0) != RedisNames.DateKey(quotes[i].date, 0)
    ensures var h := GetHash(PutAllDaily(daily, quotes), RedisNames.DailyQuotes(quotes[i].symbol));
      RedisNames.DateKey(quotes[i].date, 0) in h && h[RedisNames.DateKey(quotes[i].date, 0)] == quotes[i]
    decreases |quotes|
  {
    var n := |quotes|;
    var init := quotes[..n - 1];
    var prev := PutAllDaily(daily, init);
    var last := quotes[n - 1];
    assert PutAllDaily(daily, quotes) == PutDailyMap(prev, last);
    if i < n - 1 {
      assert forall j :: i < j < |init| ==> init[j] == quotes[j];
      PutAllDailyAt(daily, init, i);
      assert init[i] == quotes[i];
      PutDailyKeeps(prev, last, RedisNames.DailyQuotes(quotes[i].symbol), RedisNames.DateKey(quotes[i].date, 0), quotes[i]);
    }
  }

  /** Putting a quote filed under another key or another day keeps what is stored at `key`, `d`. */
  lemma PutDailyKeeps(daily: map<string, map<RedisNames.DateField, Quote>>, quote: Quote, key: string, d: RedisNames.DateField, q: Quote)
    requires d in GetHash(daily, key) && GetHash(daily, key)[d] == q
    requires RedisNames.DailyQuotes(quote.symbol) != key || RedisNames.DateKey(quote.date, 0) != d
    ensures d in GetHash(PutDailyMap(daily, quote), key) && GetHash(PutDailyMap(daily, quote), key)[d] == q
  {
  }

  /** Keys that no quote is filed under keep their value. */
  lemma {:induction false} PutAllDailyElsewhere(daily: map<string, map<RedisNames.DateField, Quote>>, quotes: seq<Quote>, k: string)
    requires forall q :: q in quotes ==> RedisNames.DailyQuotes(q.symbol) != k
    ensures GetHash(PutAllDaily(daily, quotes), k) == GetHash(daily, k)
    decreases |quotes|
  {
    if quotes != [] {
      var init := quotes[..|quotes| - 1];
      assert forall q :: q in init ==> q in quotes;
      PutAllDailyElsewhere(daily, init, k);
      assert quotes[|quotes| - 1] in quotes;
    }
  }

  /**
   * After a successful download, each aggregate whose day does not come again later in the
   * response is stored as the daily quote of the adjusted symbol for that day, with the currency
   * taken from the symbol and a low price of 0.
   */
  lemma HistoryStoresEach(daily: map<string, map<RedisNames.DateField, Quote>>, info: QuoteHistoryRequestInfo, results: seq<Aggregate>, i: nat)
    requires AdjustSymbol(info.symbol).Success? && i < |results|
    requires forall j :: i < j < |results| ==> DayOf(results[j].timestamp) != DayOf(results[i].timestamp)
    ensures var symbol := AdjustSymbol(info.symbol).value;
      var h := GetHash(PutAllDaily(daily, HistoryQuotes(info, results)), RedisNames.DailyQuotes(symbol));
      var a := results[i];
      && RedisNames.DateKey(a.timestamp, 0) in h
      && h[RedisNames.DateKey(a.timestamp, 0)] == Quote(symbol, a.open, a.close, a.high, 0, ExtractCurrency(info.symbol), a.timestamp)
  {
    PutAllDailyAt(daily, HistoryQuotes(info, results), i);
  }

  /** A successful download touches only the daily hash of the adjusted symbol. */
  lemma HistoryLeavesOtherKeys(daily: map<string, map<RedisNames.DateField, Quote>>, info: QuoteHistoryRequestInfo, results: seq<Aggregate>, k: string)
    requires AdjustSymbol(info.symbol).Success?
    requires k != RedisNames.DailyQuotes(AdjustSymbol(info.symbol).value)
    ensures GetHash(PutAllDaily(daily, HistoryQuotes(info, results)), k) == GetHash(daily, k)
  {
    PutAllDailyElsewhere(daily, HistoryQuotes(info, results), k);
  }

  /**
   * Executes the request against the quote store, given how the API call went: on success every
   * aggregate is written as a daily quote, in response order; on any other outcome nothing is.
   */
  method ExecuteQuoteHistory(info: QuoteHistoryRequestInfo, call: Call<AggregatesResponse>, store: RedisQuoteStore) returns (e: Execution)
    requires store.Valid()
    modifies store
    ensures store.Valid() && store.hourly == old(store.hourly)
    ensures e == HistoryOutcome(info, call)
    ensures e == Returned(Ok) ==>
      store.daily == PutAllDaily(old(store.daily), HistoryQuotes(info, call.response.results.value))
    ensures e != Returned(Ok) ==> store.daily == old(store.daily)
  {
    if call.Faulted? {
      return Returned(FaultOutcome(call.fault));
    }
    var response := call.response;
    if response.results.None? {
      return Returned(Retry);
    }
    var symbol := AdjustSymbol(info.symbol);
    if symbol.Failure? {
      return Threw;
    }
    var quotes := HistoryQuotes(info, response.results.value);
    PutDailyQuotes(quotes, store);
    return Returned(Ok);
  }

  /** Writes the quotes as daily quotes, one after the other, in order. */
  method PutDailyQuotes(quotes: seq<Quote>, store: RedisQuoteStore)
    requires store.Valid()
    modifies store
    ensures store.Valid() && store.hourly == old(store.hourly)
    ensures store.daily == PutAllDaily(old(store.daily), quotes)
  {
    var i := 0;
    while i < |quotes|
      invariant 0 <= i <= |quotes|
      invariant store.Valid() && store.hourly == old(store.hourly)
      invariant store.daily == PutAllDaily(old(store.daily), quotes[..i])
    {
      PutAllDailySnoc(old(store.daily), quotes, i);
      store.PutDailyQuote(quotes[i]);
      i := i + 1;
    }
    assert quotes[..i] == quotes;
  }

  /** Putting one more quote extends the run by one put. */
  lemma PutAllDailySnoc(daily: map<string, map<RedisNames.DateField, Quote>>, quotes: seq<Quote>, i: nat)
    requires i < |quotes|
    ensures PutAllDaily(daily, quotes[..i + 1]) == PutDailyMap(PutAllDaily(daily, quotes[..i]), quotes[i])
  {
    assert quotes[..i + 1][..i] == quotes[..i];
  }

  /** The earliest and the latest quote date, or neither for no quotes. */
  method GetTrackerDateRange(quotes: seq<Quote>) returns (from: Option<Instant>, to: Option<Instant>)
    ensures from.None? <==> quotes == []
    ensures to.None? <==> quotes == []
    ensures from.Some? ==> (forall q :: q in quotes ==> from.value <= q.date) && exists q :: q in quotes && q.date == from.value
    ensures to.Some? ==> (forall q :: q in quotes ==> q.date <= to.value) && exists q :: q in quotes && q.date == to.value
  {
    from, to := None, None;
    var i := 0;
    while i < |quotes|
      invariant 0 <= i <= |quotes|
      invariant from.None? <==> i == 0
      invariant to.None? <==> i == 0
      invariant from.Some? ==> (forall j :: 0 <= j < i ==> from.value <= quotes[j].date) && exists j :: 0 <= j < i && quotes[j].date == from.value
      invariant to.Some? ==> (forall j :: 0 <= j < i ==> quotes[j].date <= to.value) && exists j :: 0 <= j < i && quotes[j].date == to.value
    {
      var date := quotes[i].date;
      if from.None? || date < from.value {
        from := Some(date);
      }
      if to.None? || date > to.value {
        to := Some(date);
      }
      i := i + 1;
    }
  }
}

=== FILE: quote_snapshot_request.dfy ===
/**
 * The Messari snapshot request: download the asset list and file the last hour's prices of
 * every usable asset as an hourly quote.
 */
module QuoteSnapshotRequests {
  import opened Wrappers
  import opened Text
  import opened Contracts
  import opened RequestEngine
  import opened ApiCalls
  import opened Redis
  import opened QuoteStores
  import RedisNames

  /** Open, high, low and close of the last hour. */
  datatype Ohlc = Ohlc(open: Price, high: Price, low: Price, close: Price)

  /**
   * One asset of the response. A missing symbol is `None`; a missing metrics object, market data
   * or last-hour bar all read as a missing `lastHour`.
   */
  datatype Asset = Asset(symbol: Option<string>, lastHour: Option<Ohlc>)

  /** The decoded response: the server's timestamp and the assets. */
  datatype AssetListResponse = AssetListResponse(timestamp: Instant, data: seq<Asset>)

  /** A missing symbol, or one made of white space only (the empty symbol included). */
  predicate IsBlank(symbol: Option<string>) {
    symbol.None? || forall i :: 0 <= i < |symbol.value| ==> IsWhiteSpace(symbol.value[i])
  }

  /**
   * Whether an asset yields a quote: it has a symbol with a character other than white space,
   * and a last-hour bar.
   */
  function Usable(asset: Asset): (usable: bool)
    ensures usable <==>
      && asset.symbol.Some?
      && (exists i :: 0 <= i < |asset.symbol.value| && !IsWhiteSpace(asset.symbol.value[i]))
      && asset.lastHour.Some?
  {
    !IsBlank(asset.symbol) && asset.lastHour.Some?
  }

  /** The hourly quote of a usable asset: its last hour's prices in US dollars, dated by the response. */
  function SnapshotQuote(asset: Asset, timestamp: Instant): (q: Quote)
    requires Usable(asset)
    ensures Some(q.symbol) == asset.symbol && Some(Ohlc(q.open, q.high, q.low, q.close)) == asset.lastHour
    ensures q.currency == "USD" && q.date == timestamp
  {
    var bar := asset.lastHour.value;
    Quote(asset.symbol.value, bar.open, bar.close, bar.high, bar.low, "USD", timestamp)
  }

  /** The quotes of the usable assets, in response order; all share currency and date. */
  function SnapshotQuotes(assets: seq<Asset>, timestamp: Instant): (quotes: seq<Quote>)
    ensures |quotes| <= |assets|
    ensures forall q :: q in quotes <==> exists a :: a in assets && Usable(a) && q == SnapshotQuote(a, timestamp)
    ensures forall q :: q in quotes ==> q.currency == "USD" && q.date == timestamp && !IsBlank(Some(q.symbol))
  {
    if assets == [] then []
    else
      var rest := SnapshotQuotes(assets[1..], timestamp);
      assert forall a :: a in assets <==> a == assets[0] || a in assets[1..];
      if Usable(assets[0]) then [SnapshotQuote(assets[0], timestamp)] + rest else rest
  }

  /** The selection keeps response order: it distributes over concatenation. */
  lemma {:induction false} SnapshotQuotesAppend(a: seq<Asset>, b: seq<Asset>, timestamp: Instant)
    ensures SnapshotQuotes(a + b, timestamp) == SnapshotQuotes(a, timestamp) + SnapshotQuotes(b, timestamp)
  {
    if a != [] {
      assert (a + b)[1..] == a[1..] + b;
      SnapshotQuotesAppend(a[1..], b, timestamp);
    } else {
      assert a + b == b;
    }
  }

  /** The hourly lists after pushing `quotes` one after the other. */
  function PushAllHourly(hourly: map<string, seq<Quote>>, quotes: seq<Quote>): map<string, seq<Quote>>
    decreases |quotes|
  {
    if quotes == [] then hourly
    else PushHourly(PushAllHourly(hourly, quotes[..|quotes| - 1]), quotes[|quotes| - 1])
  }

  /** One push, seen from one key. */
  lemma PushHourlyAt(hourly: map<string, seq<Quote>>, quote: Quote, k: string)
    ensures GetList(PushHourly(hourly, quote), k)
         == (if RedisNames.HourlyQuotes(quote.symbol) == k then [quote] else []) + GetList(hourly, k)
  {
  }

  /** The quotes of `quotes` filed under hourly key `k`, the last one first. */
  function NewestFirst(quotes: seq<Quote>, k: string): (r: seq<Quote>)
    ensures |r| <= |quotes|
    ensures forall q :: q in r <==> q in quotes && RedisNames.HourlyQuotes(q.symbol) == k
    decreases |quotes|
  {
    if quotes == [] then []
    else
      var init := quotes[..|quotes| - 1];
      var last := quotes[|quotes| - 1];
      assert forall q :: q in quotes <==> q == last || q in init by {
        assert quotes == init + [last];
      }
      (if RedisNames.HourlyQuotes(last.symbol) == k then [last] else []) + NewestFirst(init, k)
  }

  /** Pushing one more quote extends the run by one push. */
  lemma PushAllHourlySnoc(hourly: map<string, seq<Quote>>, quotes: seq<Quote>, i: nat)
    requires i < |quotes|
    ensures PushAllHourly(hourly, quotes[..i + 1]) == PushHourly(PushAllHourly(hourly, quotes[..i]), quotes[i])
  {
    assert quotes[..i + 1][..i] == quotes[..i];
  }

  /** The quote pushed last, seen from key `k`, in front of the pushes before it. */
  lemma PushAllHourlyLast(hourly: map<string, seq<Quote>>, quotes: seq<Quote>, k: string)
    requires quotes != []
    ensures var init, last := quotes[..|quotes| - 1], quotes[|quotes| - 1];
      var head: seq<Quote> := if RedisNames.HourlyQuotes(last.symbol) == k then [last] else [];
      && GetList(PushAllHourly(hourly, quotes), k) == head + GetList(PushAllHourly(hourly, init), k)
      && NewestFirst(quotes, k) == head + NewestFirst(init, k)
  {
    PushHourlyAt(PushAllHourly(hourly, quotes[..|quotes| - 1]), quotes[|quotes| - 1], k);
  }

  /** A list made of `head` in front of `a + b` is `head + a` in front of `b`. */
  lemma ConsOnto<T>(l: seq<T>, head: seq<T>, m: seq<T>, a: seq<T>, b: seq<T>)
    requires l == head + m && m == a + b
    ensures l == (head + a) + b
  {
  }

  /**
   * Pushing a run of quotes puts, in front of each key's old list, exactly the quotes filed under
   * that key, the last pushed first; nothing is dropped.
   */
  lemma {:induction false} PushAllHourlyAt(hourly: map<string, seq<Quote>>, quotes: seq<Quote>, k: string)
    ensures GetList(PushAllHourly(hourly, quotes), k) == NewestFirst(quotes, k) + GetList(hourly, k)
    decreases |quotes|
  {
    if quotes != [] {
      var init, last := quotes[..|quotes| - 1], quotes[|quotes| - 1];
      var head: seq<Quote> := if RedisNames.HourlyQuotes(last.symbol) == k then [last] else [];
      PushAllHourlyAt(hourly, init, k);
      PushAllHourlyLast(hourly, quotes, k);
      ConsOnto(GetList(PushAllHourly(hourly, quotes), k), head, GetList(PushAllHourly(hourly, init), k), NewestFirst(init, k), GetList(hourly, k));
    }
  }

  /** The last quote pushed for a symbol is that symbol's newest hourly quote. */
  lemma NewestIsLastPushed(hourly: map<string, seq<Quote>>, quotes: seq<Quote>, quote: Quote)
    requires quotes != [] && quotes[|quotes| - 1] == quote
    ensures var l := GetList(PushAllHourly(hourly, quotes), RedisNames.HourlyQuotes(quote.symbol));
      |l| > 0 && l[0] == quote
  {
    PushAllHourlyAt(hourly, quotes, RedisNames.HourlyQuotes(quote.symbol));
  }

  /**
   * How the request ends for a given API call: a rate-limit fault pauses and retries, other
   * faults give up, and every answered call succeeds; a plain retry never happens.
   */
  function SnapshotOutcome(call: Call<AssetListResponse>): (r: RequestResult)
    ensures call.Faulted? ==> r == FaultOutcome(call.fault)
    ensures r == Ok <==> call.Answered?
    ensures r != Retry
  {
    match call
    case Faulted(fault) => FaultOutcome(fault)
    case Answered(_) => Ok
  }

  /**
   * Executes the request against the quote store, given how the API call went: on success the
   * quote of every usable asset is pushed onto its symbol's hourly list, in response order.
   */
  method ExecuteSnapshot(call: Call<AssetListResponse>, store: RedisQuoteStore) returns (result: RequestResult)
    requires store.Valid()
    modifies store
    ensures store.Valid() && store.daily == old(store.daily)
    ensures result == SnapshotOutcome(call)
    ensures result == Ok ==>
      store.hourly == PushAllHourly(old(store.hourly), SnapshotQuotes(call.response.data, call.response.timestamp))
    ensures result != Ok ==> store.hourly == old(store.hourly)
  {
    if call.Faulted? {
      return FaultOutcome(call.fault);
    }
    var quotes := SnapshotQuotes(call.response.data, call.response.timestamp);
    var i := 0;
    while i < |quotes|
      invariant 0 <= i <= |quotes|
      invariant store.Valid() && store.daily == old(store.daily)
      invariant store.hourly == PushAllHourly(old(store.hourly), quotes[..i])
    {
      PushAllHourlySnoc(old(store.hourly), quotes, i);
      store.PutHourlyQuote(quotes[i]);
      i := i + 1;
    }
    assert quotes[..i] == quotes;
    return Ok;
  }
}

=== FILE: redis.dfy ===
/**
 * The Redis list commands the stores rely on, with Redis's own index rules (negative indices
 * count from the tail, ranges are clamped), and the keyspace rule that an emptied list or hash
 * no longer exists.
 */
module Redis {
  import opened Wrappers

  /** The value at a list key; a missing key reads as the empty list. */
  function GetList<V>(m: map<string, seq<V>>, key: string): seq<V> {
    if key in m then m[key] else []
  }

  /** Stores a list value; an empty list removes the key. */
  function SetList<V>(m: map<string, seq<V>>, key: string, l: seq<V>): (m': map<string, seq<V>>)
    ensures GetList(m', key) == l
    ensures forall k :: k != key ==> GetList(m', k) == GetList(m, k) && (k in m' <==> k in m)
    ensures key in m' <==> l != []
  {
    if l == [] then m - {key} else m[key := l]
  }

  /** Pushing onto a list built by pushes: the pushes can be grouped either way. */
  lemma AppendAssoc<V>(a: seq<V>, b: seq<V>, c: seq<V>)
    ensures (a + b) + c == a + (b + c)
  {
  }

  /** Storing the non-empty list a key already holds changes nothing. */
  lemma SetListAgain<V>(m: map<string, seq<V>>, key: string, l: seq<V>)
    requires l != [] && GetList(m, key) == l
    ensures SetList(m, key, l) == m
  {
    assert key in m && m[key] == l;
  }

  /** The fields of a hash key; a missing key reads as the empty hash. */
  function GetHash<F, V>(m: map<string, map<F, V>>, key: string): map<F, V> {
    if key in m then m[key] else map[]
  }

  /** Stores a hash value; an empty hash removes the key. */
  function SetHash<F, V>(m: map<string, map<F, V>>, key: string, h: map<F, V>): (m': map<string, map<F, V>>)
    ensures GetHash(m', key) == h
    ensures forall k :: k != key ==> GetHash(m', k) == GetHash(m, k) && (k in m' <==> k in m)
    ensures key in m' <==> h != map[]
  {
    if h == map[] then m - {key} else m[key := h]
  }

  /** Index normalisation shared by LRANGE and LTRIM: negative indices count from the end. */
  function Normalise(index: int, len: nat): int {
    if index < 0 then index + len else index
  }

  /** LRANGE start stop: the inclusive, clamped range of `l`. */
  function LRange<V>(l: seq<V>, start: int, stop: int): (r: seq<V>)
    ensures |r| <= |l|
  {
    var s := Normalise(start, |l|);
    var e := Normalise(stop, |l|);
    var s' := if s < 0 then 0 else s;
    var e' := if e >= |l| then |l| - 1 else e;
    if s' > e' || s' >= |l| then [] else l[s'..e' + 1]
  }

  /** LTRIM start stop: the list keeps exactly the elements LRANGE start stop returns. */
  function LTrim<V>(l: seq<V>, start: int, stop: int): (r: seq<V>)
    ensures |r| <= |l|
  {
    LRange(l, start, stop)
  }

  /** LINDEX: the element at `index` (negative counts from the end), or nothing. */
  function LIndex<V>(l: seq<V>, index: int): (r: Option<V>)
    ensures r.Some? <==> -|l| <= index < |l|
  {
    var i := Normalise(index, |l|);
    if 0 <= i < |l| then Some(l[i]) else None
  }

  /** LPOP key count (count >= 0): the first `count` elements, or all of them when fewer. */
  function LPopCount<V>(l: seq<V>, count: nat): (r: (seq<V>, seq<V>))
    ensures r.0 + r.1 == l
    ensures |r.0| == if count < |l| then count else |l|
  {
    var n := if count < |l| then count else |l|;
    (l[..n], l[n..])
  }

  /** A range that starts at the head and ends at or beyond the tail is the whole list. */
  lemma LRangeWhole<V>(l: seq<V>, stop: int)
    requires stop >= |l| - 1
    ensures LRange(l, 0, stop) == l
  {
  }

  /** For a positive count, LRANGE 0 (count-1) yields the first `count` elements (or all). */
  lemma LRangeHead<V>(l: seq<V>, count: int)
    requires count >= 1
    ensures LRange(l, 0, count - 1) == l[..if count < |l| then count else |l|]
  {
  }
}

=== FILE: redis_names.dfy ===
/**
 * Construction of the Redis keys (and hash fields) under which the stores keep their data.
 * The fixed prefixes keep the different kinds of data apart.
 */
module RedisNames {
  import opened Contracts

  const RequestsPrefix: string := "black-watch:requests:"
  const DailyQuotesPrefix: string := "black-watch:quotes:daily:"
  const HourlyQuotesPrefix: string := "black-watch:quotes:hourly:"
  const TallyPrefix: string := "black-watch:tally-"

  /** LIST of RequestInfo: the request queue of one API tag; the tag can be read back after the prefix. */
  function Requests(apiTag: string): (key: string)
    ensures RequestsPrefix <= key && key[|RequestsPrefix|..] == apiTag
  {
    RequestsPrefix + apiTag
  }

  /** HASH from tally-source key to TallySource. */
  const TallySources: string := "black-watch:tally-sources"

  /**
   * Field of the TallySources hash holding one user's tally source: `user-`, the user id, a
   * colon and the tally-source id, each readable back at its place.
   */
  function TallySourceKey(userId: string, tallySourceId: string): (field: string)
    ensures |field| == 6 + |userId| + |tallySourceId|
    ensures field[..5] == "user-" && field[5..5 + |userId|] == userId
    ensures field[5 + |userId|] == ':' && field[6 + |userId|..] == tallySourceId
  {
    "user-" + userId + ":" + tallySourceId
  }

  /** A daily-quote hash field: the date (without time of day), held as its day number. */
  datatype DateField = DateField(day: int)

  /**
   * Field of a daily-quote hash: the `yyyy-MM-dd` date of a date-time with UTC offset `offset`
   * (in milliseconds), that is, the day on which the instant `date` falls at that offset.
   */
  function DateKey(date: Instant, offset: int): (d: DateField)
    ensures MidnightOf(d.day) <= date + offset < MidnightOf(d.day + 1)
  {
    DateField(DayOf(date + offset))
  }

  /** Half past midnight at +02:00 on 2 January 2024 is still 1 January in UTC, so the two fields differ. */
  lemma OffsetDecidesDay()
    ensures DateKey(MidnightOf(19724) - 5_400_000, 7_200_000) == DateField(19724)
    ensures DateKey(MidnightOf(19724) - 5_400_000, 0) == DateField(19723)
  {
  }

  /** HASH from DateKey to Quote; the symbol can be read back after the prefix. */
  function DailyQuotes(symbol: string): (key: string)
    ensures DailyQuotesPrefix <= key && key[|DailyQuotesPrefix|..] == symbol
  {
    DailyQuotesPrefix + symbol
  }

  /** LIST of Quote, newest first; the symbol can be read back after the prefix. */
  function HourlyQuotes(symbol: string): (key: string)
    ensures HourlyQuotesPrefix <= key && key[|HourlyQuotesPrefix|..] == symbol
  {
    HourlyQuotesPrefix + symbol
  }

  /** LIST of Tally, newest first; the tally-source id can be read back after the prefix. */
  function Tally(tallySourceId: string): (key: string)
    ensures TallyPrefix <= key && key[|TallyPrefix|..] == tallySourceId
  {
    TallyPrefix + tallySourceId
  }

  /** INTEGER counter. */
  const NextId: string := "black-watch:next-id"

  lemma {:induction false} PrefixCancel(p: string, a: string, b: string)
    requires p + a == p + b
    ensures a == b
  {
    assert a == (p + a)[|p|..];
    assert b == (p + b)[|p|..];
  }

  /** Distinct tags get distinct queue keys. */
  lemma RequestsInjective(a: string, b: string)
    ensures Requests(a) == Requests(b) <==> a == b
  {
    if Requests(a) == Requests(b) {
      PrefixCancel(RequestsPrefix, a, b);
    }
  }

  /** A request-queue key never equals a tally, quote, tally-source or next-id key. */
  lemma RequestKeysApart(tag: string, id: string, symbol: string)
    ensures Requests(tag) != Tally(id)
    ensures Requests(tag) != TallySources
    ensures Requests(tag) != DailyQuotes(symbol)
    ensures Requests(tag) != HourlyQuotes(symbol)
    ensures Requests(tag) != NextId
  {
    assert Requests(tag)[12] == 'r';
    assert Tally(id)[12] == 't';
    assert TallySources[12] == 't';
    assert DailyQuotes(symbol)[12] == 'q';
    assert HourlyQuotes(symbol)[12] == 'q';
    assert NextId[12] == 'n';
  }

  /** Daily and hourly quote keys never coincide, whatever the two symbols. */
  lemma QuoteKeysApart(s: string, t: string)
    ensures DailyQuotes(s) != HourlyQuotes(t)
    ensures DailyQuotes(s) == DailyQuotes(t) <==> s == t
    ensures HourlyQuotes(s) == HourlyQuotes(t) <==> s == t
  {
    assert DailyQuotes(s)[19] == 'd';
    assert HourlyQuotes(t)[19] == 'h';
    if DailyQuotes(s) == DailyQuotes(t) {
      PrefixCancel(DailyQuotesPrefix, s, t);
    }
    if HourlyQuotes(s) == HourlyQuotes(t) {
      PrefixCancel(HourlyQuotesPrefix, s, t);
    }
  }

  /** Tally keys are injective, and clash with the tally-sources hash exactly for the id "sources". */
  lemma TallyKeys(a: string, b: string)
    ensures Tally(a) == Tally(b) <==> a == b
    ensures Tally(a) == TallySources <==> a == "sources"
  {
    if Tally(a) == Tally(b) {
      PrefixCancel(TallyPrefix, a, b);
    }
    assert TallySources == TallyPrefix + "sources";
    if Tally(a) == TallySources {
      PrefixCancel(TallyPrefix, a, "sources");
    }
  }

  /** For user ids without a colon, the tally-source field determines both the user and the id. */
  lemma TallySourceKeyInjective(u1: string, id1: string, u2: string, id2: string)
    requires ':' !in u1 && ':' !in u2
    requires TallySourceKey(u1, id1) == TallySourceKey(u2, id2)
    ensures u1 == u2 && id1 == id2
  {
    var k1, k2 := TallySourceKey(u1, id1), TallySourceKey(u2, id2);
    assert k1[5 + |u1|] == ':';
    assert k2[5 + |u2|] == ':';
    assert |u1| == |u2|;
    assert u1 == k1[5..5 + |u1|];
    assert u2 == k2[5..5 + |u2|];
    assert id1 == k1[6 + |u1|..];
    assert id2 == k2[6 + |u2|..];
  }
}

=== FILE: redis_quote_store.dfy ===
/**
 * The quote store: one hash per symbol for daily quotes, keyed by day, and one list per symbol
 * for hourly quotes, newest first.
 */
module QuoteStores {
  import opened Wrappers
  import opened Text
  import opened Contracts
  import opened Redis
  import RedisNames

  /**
   * The unanchored search for `<prefix>(\w+)` in `key`, from index `i` on: the leftmost position
   * where the prefix is followed by at least one word character; the symbol is the whole word run.
   */
  function FindSymbol(key: string, prefix: string, i: nat): (r: Option<string>)
    requires i <= |key|
    ensures r.Some? ==> |r.value| >= 1 && IsWordString(r.value)
    decreases |key| - i
  {
    var start := i + |prefix|;
    if start <= |key| && key[i..start] == prefix && WordRun(key, start) > 0 then
      Some(key[start..start + WordRun(key, start)])
    else if i < |key| then FindSymbol(key, prefix, i + 1)
    else None
  }

  /** The key of a symbol made of word characters gives the symbol back. */
  lemma {:induction false} FindSymbolOfKey(prefix: string, symbol: string)
    requires |symbol| >= 1 && IsWordString(symbol)
    ensures FindSymbol(prefix + symbol, prefix, 0) == Some(symbol)
  {
    var key := prefix + symbol;
    assert key[0..|prefix|] == prefix;
    WordRunFrom(key, |prefix|, |key|);
    assert key[|prefix|..|key|] == symbol;
  }

  /** The search may find the prefix again inside a symbol that does not start with a word character. */
  lemma FindSymbolSkipsAhead()
    ensures FindSymbol("p:-p:X", "p:", 0) == Some("X")
  {
    var key := "p:-p:X";
    assert WordRun(key, 6) == 0;
    assert WordRun(key, 5) == 1;
    assert key[3..5] == "p:" && key[5..6] == "X";
    assert FindSymbol(key, "p:", 3) == Some("X");
    assert key[2] == '-' && key[1] == ':';
    assert key[2..4][0] != 'p' && key[1..3][0] != 'p';
    assert WordRun(key, 2) == 0;
  }

  /** The keys a scan for `<prefix>*` returns that also match the regular expression. */
  ghost function Matching(keys: set<string>, prefix: string): set<string> {
    set k | k in keys && IsPrefix(prefix, k) && FindSymbol(k, prefix, 0).Some?
  }

  /** `trackers` holds one tracker per matching key of `ks`, for that key's symbol. */
  ghost predicate CollectedFrom(trackers: seq<Tracker>, ks: set<string>, prefix: string) {
    && |trackers| == |Matching(ks, prefix)|
    && forall t :: t in trackers <==> exists k :: k in Matching(ks, prefix) && FindSymbol(k, prefix, 0) == Some(t.symbol)
  }

  /** Scanning one more key adds its tracker exactly when the key matches. */
  lemma CollectOne(trackers: seq<Tracker>, done: set<string>, key: string, prefix: string)
    requires key !in done && CollectedFrom(trackers, done, prefix)
    ensures IsPrefix(prefix, key) && FindSymbol(key, prefix, 0).Some? ==>
      CollectedFrom(trackers + [Tracker(FindSymbol(key, prefix, 0).value)], done + {key}, prefix)
    ensures !(IsPrefix(prefix, key) && FindSymbol(key, prefix, 0).Some?) ==> CollectedFrom(trackers, done + {key}, prefix)
  {
    if IsPrefix(prefix, key) && FindSymbol(key, prefix, 0).Some? {
      assert Matching(done + {key}, prefix) == Matching(done, prefix) + {key};
      var t' := Tracker(FindSymbol(key, prefix, 0).value);
      forall t | t in trackers + [t'] ensures exists k :: k in Matching(done + {key}, prefix) && FindSymbol(k, prefix, 0) == Some(t.symbol) {
        if t == t' {
          assert key in Matching(done + {key}, prefix);
        }
      }
    } else {
      assert Matching(done + {key}, prefix) == Matching(done, prefix);
    }
  }

  /**
   * One tracker per scanned key that matches the pattern, keys that do not match skipped; scan
   * order is not specified, so only the collected trackers and their number are.
   */
  method GetTrackers(keys: set<string>, prefix: string) returns (trackers: seq<Tracker>)
    ensures |trackers| == |Matching(keys, prefix)|
    ensures forall t :: t in trackers <==> exists k :: k in Matching(keys, prefix) && FindSymbol(k, prefix, 0) == Some(t.symbol)
  {
    trackers := [];
    var remaining := keys;
    while remaining != {}
      invariant remaining <= keys
      invariant CollectedFrom(trackers, keys - remaining, prefix)
      decreases |remaining|
    {
      var key :| key in remaining;
      CollectOne(trackers, keys - remaining, key, prefix);
      assert keys - (remaining - {key}) == (keys - remaining) + {key};
      remaining := remaining - {key};
      if IsPrefix(prefix, key) && FindSymbol(key, prefix, 0).Some? {
        trackers := trackers + [Tracker(FindSymbol(key, prefix, 0).value)];
      }
    }
    assert keys - remaining == keys;
  }

  /** The scan of a daily hash: the fields whose day begins before `threshold`. */
  method StaleFields(hash: map<RedisNames.DateField, Quote>, threshold: Instant) returns (stale: set<RedisNames.DateField>)
    ensures stale == set d | d in hash && MidnightOf(d.day) < threshold
  {
    var fields := hash.Keys;
    stale := {};
    while fields != {}
      invariant fields <= hash.Keys
      invariant stale == set d | d in hash.Keys - fields && MidnightOf(d.day) < threshold
      decreases |fields|
    {
      var day :| day in fields;
      if MidnightOf(day.day) < threshold {
        stale := stale + {day};
      }
      fields := fields - {day};
    }
  }

  /** The daily hashes after HSET of `quote` under its symbol's key and its day's field. */
  function PutDailyMap(daily: map<string, map<RedisNames.DateField, Quote>>, quote: Quote): (r: map<string, map<RedisNames.DateField, Quote>>)
    ensures var key := RedisNames.DailyQuotes(quote.symbol);
      && RedisNames.DateKey(quote.date, 0) in GetHash(r, key)
      && GetHash(r, key)[RedisNames.DateKey(quote.date, 0)] == quote
      && (forall d :: d != RedisNames.DateKey(quote.date, 0) ==>
            (d in GetHash(r, key) <==> d in GetHash(daily, key)) &&
            (d in GetHash(daily, key) ==> GetHash(r, key)[d] == GetHash(daily, key)[d]))
      && (forall k :: k != key ==> GetHash(r, k) == GetHash(daily, k))
  {
    var key := RedisNames.DailyQuotes(quote.symbol);
    var hash := GetHash(daily, key)[RedisNames.DateKey(quote.date, 0) := quote];
    assert RedisNames.DateKey(quote.date, 0) in hash;
    SetHash(daily, key, hash)
  }

  /** The hourly lists after LPUSH of `quote` onto its symbol's list. */
  function PushHourly(hourly: map<string, seq<Quote>>, quote: Quote): (r: map<string, seq<Quote>>)
    ensures var key := RedisNames.HourlyQuotes(quote.symbol);
      && GetList(r, key) == [quote] + GetList(hourly, key)
      && (forall k :: k != key ==> GetList(r, k) == GetList(hourly, k))
  {
    var key := RedisNames.HourlyQuotes(quote.symbol);
    SetList(hourly, key, [quote] + GetList(hourly, key))
  }

  /** Every hourly list holds only quotes filed under their own symbol. */
  ghost predicate HourlyFiled(hourly: map<string, seq<Quote>>) {
    forall k :: k in hourly ==> forall q :: q in hourly[k] ==> RedisNames.HourlyQuotes(q.symbol) == k
  }

  /** A push files the quote under its own symbol, so the lists stay filed. */
  lemma PushHourlyFiled(hourly: map<string, seq<Quote>>, quote: Quote)
    requires HourlyFiled(hourly)
    ensures HourlyFiled(PushHourly(hourly, quote))
  {
    var r := PushHourly(hourly, quote);
    forall k | k in r ensures forall q: Quote :: q in r[k] ==> RedisNames.HourlyQuotes(q.symbol) == k {
      assert r[k] == GetList(r, k);
      if k != RedisNames.HourlyQuotes(quote.symbol) {
        assert k in hourly && r[k] == hourly[k];
      }
    }
  }

  class RedisQuoteStore {
    /** Daily quote hashes by key; the field is the day number of the quote's date. */
    var daily: map<string, map<RedisNames.DateField, Quote>>
    /** Hourly quote lists by key, newest first. */
    var hourly: map<string, seq<Quote>>
    const maxHourlyQuotes: int

    /** Every stored quote is filed under its own symbol (and, in a daily hash, its own day). */
    ghost predicate Valid()
      reads this
    {
      && (forall k :: k in daily ==>
            forall d :: d in daily[k] ==> RedisNames.DailyQuotes(daily[k][d].symbol) == k && RedisNames.DateKey(daily[k][d].date, 0) == d)
      && HourlyFiled(hourly)
    }

    constructor (maxHourlyQuotes: int)
      ensures Valid() && daily == map[] && hourly == map[] && this.maxHourlyQuotes == maxHourlyQuotes
    {
      daily := map[];
      hourly := map[];
      this.maxHourlyQuotes := maxHourlyQuotes;
    }

    /**
     * The stored daily quote of `symbol` for the day on which `date` falls at UTC offset `offset`,
     * if any. Stored quotes are filed under their UTC day.
     */
    function GetDailyQuote(symbol: string, date: Instant, offset: int): (q: Option<Quote>)
      reads this
      requires Valid()
      ensures q.Some? ==>
        RedisNames.DailyQuotes(q.value.symbol) == RedisNames.DailyQuotes(symbol)
        && RedisNames.DateKey(q.value.date, 0) == RedisNames.DateKey(date, offset)
      ensures q.Some? <==> RedisNames.DateKey(date, offset) in GetHash(daily, RedisNames.DailyQuotes(symbol))
    {
      var h := GetHash(daily, RedisNames.DailyQuotes(symbol));
      if RedisNames.DateKey(date, offset) in h then Some(h[RedisNames.DateKey(date, offset)]) else None
    }

    /** Stores a quote under its symbol and the UTC day of its date, replacing what was there. */
    method PutDailyQuote(quote: Quote)
      requires Valid()
      modifies this
      ensures Valid() && hourly == old(hourly)
      ensures daily == PutDailyMap(old(daily), quote)
      ensures GetDailyQuote(quote.symbol, quote.date, 0) == Some(quote)
      ensures forall symbol, date, offset ::
        RedisNames.DailyQuotes(symbol) != RedisNames.DailyQuotes(quote.symbol)
        || RedisNames.DateKey(date, offset) != RedisNames.DateKey(quote.date, 0) ==>
        GetDailyQuote(symbol, date, offset) == old(GetDailyQuote(symbol, date, offset))
    {
      daily := PutDailyMap(daily, quote);
    }

    /**
     * Deletes the daily quotes of `symbol` whose day begins before `threshold`; the others stay.
     * The fields are scanned one by one and then deleted together.
     */
    method RemoveDailyQuotes(symbol: string, threshold: Instant)
      requires Valid()
      modifies this
      ensures Valid() && hourly == old(hourly)
      ensures var key := RedisNames.DailyQuotes(symbol);
        daily == SetHash(old(daily), key, map d | d in GetHash(old(daily), key) && MidnightOf(d.day) >= threshold :: GetHash(old(daily), key)[d])
      ensures forall date, offset ::
        GetDailyQuote(symbol, date, offset)
          == if MidnightOf(RedisNames.DateKey(date, offset).day) < threshold then None else old(GetDailyQuote(symbol, date, offset))
    {
      var key := RedisNames.DailyQuotes(symbol);
      var hash := GetHash(daily, key);
      var stale := StaleFields(hash, threshold);
      daily := SetHash(daily, key, hash - stale);
      assert hash - stale == map d | d in hash && MidnightOf(d.day) >= threshold :: hash[d];
    }

    /** The hourly quote `-hourOffset` hours back (0 is the newest); a positive offset is rejected. */
    function GetHourlyQuote(symbol: string, hourOffset: int): (r: Result<Option<Quote>>)
      reads this
      requires Valid()
      ensures r.Failure? <==> hourOffset > 0
      ensures r.Failure? ==> r.error == ArgumentOutOfRangeException
      ensures var l := GetList(hourly, RedisNames.HourlyQuotes(symbol));
        r.Success? ==> (r.value.Some? <==> -hourOffset < |l|) && (r.value.Some? ==> r.value.value == l[-hourOffset])
    {
      if hourOffset > 0 then Failure(ArgumentOutOfRangeException)
      else Success(LIndex(GetList(hourly, RedisNames.HourlyQuotes(symbol)), -hourOffset))
    }

    /**
     * Prepends an hourly quote; past the maximum it trims to indices 0 .. count-1 of the new list,
     * which is the whole list: nothing is ever dropped.
     */
    method PutHourlyQuote(quote: Quote)
      requires Valid()
      modifies this
      ensures Valid() && daily == old(daily)
      ensures hourly == PushHourly(old(hourly), quote)
      ensures GetHourlyQuote(quote.symbol, 0) == Success(Some(quote))
      ensures forall offset :: offset <= 0 ==> GetHourlyQuote(quote.symbol, offset - 1) == old(GetHourlyQuote(quote.symbol, offset))
    {
      var key := RedisNames.HourlyQuotes(quote.symbol);
      var list := [quote] + GetList(hourly, key);
      hourly := SetList(hourly, key, list);
      var count := |list|;
      if count > maxHourlyQuotes {
        LRangeWhole(list, count - 1);
        SetListAgain(hourly, key, list);
        hourly := SetList(hourly, key, LTrim(list, 0, count - 1));
      }
      assert hourly == PushHourly(old(hourly), quote);
      PushHourlyFiled(old(hourly), quote);
    }

    /** The symbols that have daily quotes. */
    method GetDailyTrackers() returns (trackers: seq<Tracker>)
      ensures |trackers| == |Matching(daily.Keys, RedisNames.DailyQuotesPrefix)|
      ensures forall t :: t in trackers <==>
        exists k :: k in Matching(daily.Keys, RedisNames.DailyQuotesPrefix) && FindSymbol(k, RedisNames.DailyQuotesPrefix, 0) == Some(t.symbol)
    {
      trackers := GetTrackers(daily.Keys, RedisNames.DailyQuotesPrefix);
    }

    /** The symbols that have hourly quotes. */
    method GetHourlyTrackers() returns (trackers: seq<Tracker>)
      ensures |trackers| == |Matching(hourly.Keys, RedisNames.HourlyQuotesPrefix)|
      ensures forall t :: t in trackers <==>
        exists k :: k in Matching(hourly.Keys, RedisNames.HourlyQuotesPrefix) && FindSymbol(k, RedisNames.HourlyQuotesPrefix, 0) == Some(t.symbol)
    {
      trackers := GetTrackers(hourly.Keys, RedisNames.HourlyQuotesPrefix);
    }
  }

  /** As written, the trim after a prepend keeps the whole list, so the list grows by one on every put. */
  lemma HourlyTrimKeepsAll(quote: Quote, l: seq<Quote>)
    ensures var pushed := [quote] + l; LTrim(pushed, 0, |pushed| - 1) == pushed
  {
    LRangeWhole([quote] + l, |l|);
  }

  /** The intended put: prepend, then keep at most `maxHourlyQuotes` of the newest quotes. */
  function PutHourlyCapped(l: seq<Quote>, quote: Quote, maxHourlyQuotes: int): (r: seq<Quote>)
    requires maxHourlyQuotes >= 1
    ensures |r| == if |l| + 1 <= maxHourlyQuotes then |l| + 1 else maxHourlyQuotes
    ensures r == ([quote] + l)[..|r|]
  {
    var pushed := [quote] + l;
    var count := |pushed|;
    if count > maxHourlyQuotes then
      LRangeHead(pushed, maxHourlyQuotes);
      LTrim(pushed, 0, maxHourlyQuotes - 1)
    else pushed
  }

  /** With the intended trim, a list that starts within the bound stays within it forever. */
  lemma {:induction false} CappedStaysBounded(l: seq<Quote>, quotes: seq<Quote>, maxHourlyQuotes: int)
    requires maxHourlyQuotes >= 1 && |l| <= maxHourlyQuotes
    ensures |PutAllCapped(l, quotes, maxHourlyQuotes)| <= maxHourlyQuotes
    decreases |quotes|
  {
    if quotes != [] {
      CappedStaysBounded(PutHourlyCapped(l, quotes[0], maxHourlyQuotes), quotes[1..], maxHourlyQuotes);
    }
  }

  function PutAllCapped(l: seq<Quote>, quotes: seq<Quote>, maxHourlyQuotes: int): seq<Quote>
    requires maxHourlyQuotes >= 1
    decreases |quotes|
  {
    if quotes == [] then l else PutAllCapped(PutHourlyCapped(l, quotes[0], maxHourlyQuotes), quotes[1..], maxHourlyQuotes)
  }

  /** As written, two puts with a maximum of one leave two quotes. */
  lemma HourlyOverflowExample(a: Quote, b: Quote)
    ensures |LTrim([b] + [a], 0, 1)| == 2
    ensures |PutHourlyCapped(PutHourlyCapped([], a, 1), b, 1)| == 1
  {
    HourlyTrimKeepsAll(b, [a]);
  }
}

=== FILE: redis_request_queue.dfy ===
/**
 * The durable, per-tag FIFO request queue: one Redis list per API tag, right push to enqueue,
 * left pop to dequeue.
 */
module RequestQueues {
  import opened Wrappers
  import opened RequestInfos
  import opened Redis
  import RedisNames

  /** The distinct tags of `rs`, in the order of their first occurrence (the order of GroupBy). */
  function DistinctTags(rs: seq<RequestInfo>): (d: seq<Option<string>>)
    ensures forall t :: t in d <==> exists r :: r in rs && r.apiTag == t
    ensures forall i, j :: 0 <= i < j < |d| ==> d[i] != d[j]
  {
    if rs == [] then []
    else
      var d := DistinctTags(rs[..|rs| - 1]);
      assert rs == rs[..|rs| - 1] + [rs[|rs| - 1]];
      if rs[|rs| - 1].apiTag in d then d else d + [rs[|rs| - 1].apiTag]
  }

  /** The requests of `rs` that carry tag `t`, in input order. */
  function WithTag(rs: seq<RequestInfo>, t: Option<string>): (g: seq<RequestInfo>)
    ensures forall r :: r in g ==> r in rs && r.apiTag == t
    ensures |g| <= |rs|
  {
    if rs == [] then []
    else if rs[0].apiTag == t then [rs[0]] + WithTag(rs[1..], t)
    else WithTag(rs[1..], t)
  }

  /** The groups processed before the first group without a tag, where the loop throws. */
  function TakeUntilNull(tags: seq<Option<string>>): (r: seq<Option<string>>)
    ensures |r| <= |tags| && r == tags[..|r|]
    ensures None !in r
    ensures |r| < |tags| ==> tags[|r|] == None
  {
    if tags == [] || tags[0].None? then [] else [tags[0]] + TakeUntilNull(tags[1..])
  }

  /** The queues after right-pushing, per tag of `tags` in turn, the requests carrying that tag. */
  function AppendGroups(m: map<string, seq<RequestInfo>>, tags: seq<Option<string>>, rs: seq<RequestInfo>): map<string, seq<RequestInfo>>
    requires None !in tags
  {
    if tags == [] then m
    else
      var t := tags[|tags| - 1];
      var prev := AppendGroups(m, tags[..|tags| - 1], rs);
      var key := RedisNames.Requests(t.value);
      SetList(prev, key, GetList(prev, key) + WithTag(rs, t))
  }

  /** Every list is non-empty and holds only requests whose own tag names that list. */
  ghost predicate WellTagged(m: map<string, seq<RequestInfo>>) {
    forall k :: k in m ==>
      m[k] != [] && forall r :: r in m[k] ==> r.apiTag.Some? && RedisNames.Requests(r.apiTag.value) == k
  }

  /** The last group's push, seen from one tag's queue. */
  lemma AppendGroupsLast(m: map<string, seq<RequestInfo>>, tags: seq<Option<string>>, rs: seq<RequestInfo>, t: string)
    requires None !in tags && tags != []
    ensures None !in tags[..|tags| - 1]
    ensures GetList(AppendGroups(m, tags, rs), RedisNames.Requests(t))
         == GetList(AppendGroups(m, tags[..|tags| - 1], rs), RedisNames.Requests(t))
            + (if tags[|tags| - 1] == Some(t) then WithTag(rs, Some(t)) else [])
  {
    var last := tags[|tags| - 1];
    assert tags == tags[..|tags| - 1] + [last];
    RedisNames.RequestsInjective(last.value, t);
  }

  /** Dropping the last of distinct tags leaves distinct tags, none of which is the last one. */
  lemma DistinctInit(tags: seq<Option<string>>, t: Option<string>)
    requires tags != []
    requires forall i, j :: 0 <= i < j < |tags| ==> tags[i] != tags[j]
    ensures var init := tags[..|tags| - 1];
      && (forall i, j :: 0 <= i < j < |init| ==> init[i] != init[j])
      && (t in tags <==> t in init || t == tags[|tags| - 1])
      && (t == tags[|tags| - 1] ==> t !in init)
  {
    var init := tags[..|tags| - 1];
    assert tags == init + [tags[|tags| - 1]];
  }

  /** A queue that gains its group at most once, in the step that carries its tag. */
  lemma AppendOnce<T>(whole: seq<T>, before: seq<T>, base: seq<T>, group: seq<T>, inAll: bool, inInit: bool, isLast: bool)
    requires whole == before + (if isLast then group else [])
    requires before == base + (if inInit then group else [])
    requires (inAll <==> inInit || isLast) && (isLast ==> !inInit)
    ensures whole == base + (if inAll then group else [])
  {
    if !isLast {
      assert whole == before + [];
    }
  }

  /** The effect of an enqueue on one tag's queue: its own requests appended, in input order. */
  lemma {:induction false} AppendGroupsAt(m: map<string, seq<RequestInfo>>, tags: seq<Option<string>>, rs: seq<RequestInfo>, t: string)
    requires None !in tags
    requires forall i, j :: 0 <= i < j < |tags| ==> tags[i] != tags[j]
    ensures GetList(AppendGroups(m, tags, rs), RedisNames.Requests(t))
         == GetList(m, RedisNames.Requests(t)) + (if Some(t) in tags then WithTag(rs, Some(t)) else [])
  {
    if tags != [] {
      var init := tags[..|tags| - 1];
      var key := RedisNames.Requests(t);
      AppendGroupsLast(m, tags, rs, t);
      DistinctInit(tags, Some(t));
      AppendGroupsAt(m, init, rs, t);
      AppendOnce(GetList(AppendGroups(m, tags, rs), key), GetList(AppendGroups(m, init, rs), key), GetList(m, key),
                 WithTag(rs, Some(t)), Some(t) in tags, Some(t) in init, tags[|tags| - 1] == Some(t));
    }
  }

  /** Keys that are not the queue of an enqueued tag keep their value. */
  lemma {:induction false} AppendGroupsElsewhere(m: map<string, seq<RequestInfo>>, tags: seq<Option<string>>, rs: seq<RequestInfo>, k: string)
    requires None !in tags
    requires forall t :: Some(t) in tags ==> RedisNames.Requests(t) != k
    ensures GetList(AppendGroups(m, tags, rs), k) == GetList(m, k)
  {
    if tags != [] {
      AppendGroupsElsewhere(m, tags[..|tags| - 1], rs, k);
    }
  }

  lemma {:induction false} AppendGroupsWellTagged(m: map<string, seq<RequestInfo>>, tags: seq<Option<string>>, rs: seq<RequestInfo>)
    requires None !in tags
    requires WellTagged(m)
    ensures WellTagged(AppendGroups(m, tags, rs))
  {
    if tags != [] {
      AppendGroupsWellTagged(m, tags[..|tags| - 1], rs);
    }
  }

  /** WithTag is empty exactly for the tags that do not occur. */
  lemma {:induction false} WithTagEmpty(rs: seq<RequestInfo>, t: Option<string>)
    ensures WithTag(rs, t) == [] <==> t !in DistinctTags(rs)
  {
    if rs != [] {
      WithTagEmpty(rs[1..], t);
      assert rs == [rs[0]] + rs[1..];
    }
  }

  /**
   * When every request is tagged, an enqueue appends to each tag's queue exactly the requests
   * with that tag, in input order; no queue loses anything.
   */
  lemma EnqueueAllTagged(m: map<string, seq<RequestInfo>>, rs: seq<RequestInfo>, t: string)
    requires forall r :: r in rs ==> r.apiTag.Some?
    ensures None !in DistinctTags(rs) && TakeUntilNull(DistinctTags(rs)) == DistinctTags(rs)
    ensures GetList(AppendGroups(m, DistinctTags(rs), rs), RedisNames.Requests(t))
         == GetList(m, RedisNames.Requests(t)) + WithTag(rs, Some(t))
  {
    var d := DistinctTags(rs);
    assert d[..|d|] == d;
    TakeUntilNullAt(d, |d|);
    AppendGroupsAt(m, d, rs, t);
    WithTagEmpty(rs, Some(t));
  }

  /**
   * When every request carries the same tag `t`, an enqueue appends them all, in order, to
   * `t`'s queue and leaves every other key alone.
   */
  lemma EnqueueOneTag(m: map<string, seq<RequestInfo>>, rs: seq<RequestInfo>, t: string)
    requires forall r :: r in rs ==> r.apiTag == Some(t)
    ensures None !in DistinctTags(rs) && TakeUntilNull(DistinctTags(rs)) == DistinctTags(rs)
    ensures GetList(AppendGroups(m, DistinctTags(rs), rs), RedisNames.Requests(t)) == GetList(m, RedisNames.Requests(t)) + rs
    ensures forall k :: k != RedisNames.Requests(t) ==> GetList(AppendGroups(m, DistinctTags(rs), rs), k) == GetList(m, k)
  {
    EnqueueAllTagged(m, rs, t);
    WithTagAll(rs, Some(t));
    forall k | k != RedisNames.Requests(t)
      ensures GetList(AppendGroups(m, DistinctTags(rs), rs), k) == GetList(m, k)
    {
      AppendGroupsElsewhere(m, DistinctTags(rs), rs, k);
    }
  }

  /** A batch whose requests all carry tag `t` is its own group. */
  lemma {:induction false} WithTagAll(rs: seq<RequestInfo>, t: Option<string>)
    requires forall r :: r in rs ==> r.apiTag == t
    ensures WithTag(rs, t) == rs
  {
    if rs != [] {
      assert forall r :: r in rs[1..] ==> r in rs;
      WithTagAll(rs[1..], t);
      assert rs == [rs[0]] + rs[1..];
    }
  }

  /** The source's enqueue is not atomic across tags: an earlier group is written before a later untagged request throws. */
  lemma PartialEnqueueExample(a: RequestInfo, b: RequestInfo)
    requires a.apiTag == Some("polygon") && b.apiTag == None
    ensures TakeUntilNull(DistinctTags([a, b])) == [Some("polygon")]
    ensures GetList(AppendGroups(map[], TakeUntilNull(DistinctTags([a, b])), [a, b]), RedisNames.Requests("polygon")) == [a]
  {
    assert [a, b][..1] == [a];
    assert DistinctTags([a]) == [Some("polygon")];
    assert DistinctTags([a, b]) == [Some("polygon"), None];
    assert WithTag([a, b], Some("polygon")) == [a];
  }

  class RedisRequestQueue {
    /** The Redis lists of the request queues, by key. */
    var lists: map<string, seq<RequestInfo>>

    ghost predicate Valid()
      reads this
    {
      WellTagged(lists)
    }

    /** The queue of `apiTag`, head first. */
    function Queue(apiTag: string): seq<RequestInfo>
      reads this
    {
      GetList(lists, RedisNames.Requests(apiTag))
    }

    constructor ()
      ensures Valid() && lists == map[]
    {
      lists := map[];
    }

    /**
     * Groups the requests by tag and right-pushes each group onto its tag's list. A group
     * without a tag throws ArgumentException; the groups before it stay written.
     */
    method EnqueueRequests(requests: seq<RequestInfo>) returns (error: Option<Exception>)
      requires Valid()
      modifies this
      ensures Valid()
      ensures error.None? <==> forall r :: r in requests ==> r.apiTag.Some?
      ensures error.Some? ==> error.value == ArgumentException
      ensures lists == AppendGroups(old(lists), TakeUntilNull(DistinctTags(requests)), requests)
    {
      var groups := DistinctTags(requests);
      var i := 0;
      while i < |groups|
        invariant 0 <= i <= |groups|
        invariant None !in groups[..i]
        invariant lists == AppendGroups(old(lists), groups[..i], requests)
        invariant Valid()
      {
        var tag := groups[i];
        if tag.None? {
          assert TakeUntilNull(groups) == groups[..i] by { TakeUntilNullAt(groups, i); }
          assert tag in groups;
          return Some(ArgumentException);
        }
        var key := RedisNames.Requests(tag.value);
        lists := SetList(lists, key, GetList(lists, key) + WithTag(requests, tag));
        assert groups[..i + 1][..i] == groups[..i];
        i := i + 1;
        AppendGroupsWellTagged(old(lists), groups[..i], requests);
      }
      assert groups[..i] == groups;
      TakeUntilNullAt(groups, i);
      return None;
    }

    /** Enqueues one request: the same as enqueueing the one-element batch. */
    method EnqueueRequest(request: RequestInfo) returns (error: Option<Exception>)
      requires Valid()
      modifies this
      ensures Valid()
      ensures error.None? <==> request.apiTag.Some?
      ensures request.apiTag.Some? ==>
        lists == SetList(old(lists), RedisNames.Requests(request.apiTag.value),
                         old(GetList(lists, RedisNames.Requests(request.apiTag.value))) + [request])
      ensures request.apiTag.None? ==> lists == old(lists)
    {
      error := EnqueueRequests([request]);
      assert [request][..0] == [];
      assert DistinctTags([request]) == [request.apiTag];
      assert WithTag([request], request.apiTag) == [request];
    }

    /** Removes and returns the first `count` requests (or all, when fewer) of `apiTag`'s queue. */
    method DequeueRequests(count: nat, apiTag: string) returns (items: seq<RequestInfo>)
      requires Valid()
      modifies this
      ensures Valid()
      ensures var q := old(Queue(apiTag));
        var n := if count < |q| then count else |q|;
        items == q[..n] && Queue(apiTag) == q[n..]
      ensures lists == SetList(old(lists), RedisNames.Requests(apiTag), Queue(apiTag))
      ensures forall r :: r in items ==> r.apiTag == Some(apiTag)
    {
      var key := RedisNames.Requests(apiTag);
      var popped := LPopCount(GetList(lists, key), count);
      items := popped.0;
      lists := SetList(lists, key, popped.1);
      forall r | r in items ensures r.apiTag == Some(apiTag) {
        assert r in old(lists)[key];
        RedisNames.RequestsInjective(r.apiTag.value, apiTag);
      }
    }

    /** The length of `apiTag`'s queue; nothing changes. */
    method GetRequestQueueLength(apiTag: string) returns (length: nat)
      ensures length == |Queue(apiTag)|
    {
      length := |GetList(lists, RedisNames.Requests(apiTag))|;
    }
  }

  lemma {:induction false} TakeUntilNullAt(tags: seq<Option<string>>, i: nat)
    requires i <= |tags|
    requires None !in tags[..i]
    requires i == |tags| || tags[i] == None
    ensures TakeUntilNull(tags) == tags[..i]
  {
    if i > 0 {
      assert tags[0] in tags[..i];
      assert tags[1..][..i - 1] == tags[1..i];
      assert forall x :: x in tags[1..i] ==> x in tags[..i];
      TakeUntilNullAt(tags[1..], i - 1);
    }
  }
}

=== FILE: redis_user_data_store.dfy ===
/**
 * The user data store: tally sources in one hash, keyed by user and source id, and one bounded
 * list of tallies per source, newest first.
 */
module UserDataStores {
  import opened Wrappers
  import opened Text
  import opened Contracts
  import opened Redis
  import opened TallySources
  import RedisNames

  /**
   * Whether a hash field matches the HSCAN pattern `user-<userId>:*`, or `user-*:*` when no user
   * is given (user ids are taken to hold no glob characters).
   */
  predicate MatchesUser(userId: Option<string>, field: string) {
    match userId
    case Some(u) => IsPrefix("user-" + u + ":", field)
    case None => IsPrefix("user-", field) && exists i :: 5 <= i < |field| && field[i] == ':'
  }

  /** The fields of `hash` an HSCAN for `userId` visits. */
  ghost function SourceFields(hash: map<string, TallySource>, userId: Option<string>): set<string> {
    set f | f in hash && MatchesUser(userId, f)
  }

  /** A user's own source key matches the scan for that user and the scan for all users. */
  lemma SourceKeyMatches(userId: string, id: string)
    ensures MatchesUser(Some(userId), RedisNames.TallySourceKey(userId, id))
    ensures MatchesUser(None, RedisNames.TallySourceKey(userId, id))
  {
    var f := RedisNames.TallySourceKey(userId, id);
    assert f == "user-" + userId + ":" + id;
    assert f[..|"user-" + userId + ":"|] == "user-" + userId + ":";
    assert f[..5] == "user-";
    assert f[5 + |userId|] == ':';
  }

  /** The trimmed tally list GetTallies returns, as written: LRANGE 0 (count - 1). */
  function TalliesRange(l: seq<Tally>, count: int): (r: seq<Tally>)
    ensures count >= 1 ==> r == l[..if count < |l| then count else |l|]
    ensures count == 0 ==> r == l
    ensures count < 0 ==> r == l[..if |l| + count > 0 then |l| + count else 0]
  {
    if count >= 1 then
      LRangeHead(l, count);
      LRange(l, 0, count - 1)
    else LRange(l, 0, count - 1)
  }

  /**
   * A count of zero is meant to return no tallies, yet it returns the whole history; a negative
   * count returns all but the oldest tallies.
   */
  lemma ZeroCountReturnsAll(t: Tally, u: Tally)
    ensures TalliesRange([t], 0) == [t]
    ensures TalliesLatest([t], 0) == []
    ensures TalliesRange([t, u], -1) == [t]
    ensures TalliesLatest([t, u], -1) == []
  {
  }

  /** The intended query: the `count` most recent tallies, none for a count below one. */
  function TalliesLatest(l: seq<Tally>, count: int): (r: seq<Tally>)
    ensures |r| == if count <= 0 then 0 else if count < |l| then count else |l|
    ensures r == l[..|r|]
    ensures forall c :: 0 <= c <= count ==> TalliesLatest(l, c) == r[..if c < |r| then c else |r|]
  {
    if count <= 0 then [] else TalliesRange(l, count)
  }

  /** The tally list after a committed put, as written: LPUSH, then RPOP when the old length reached the bound. */
  function PushTally(l: seq<Tally>, tally: Tally, maxLength: int): (r: seq<Tally>)
    ensures |l| < maxLength ==> r == [tally] + l
    ensures |l| >= maxLength ==> |r| == |l| && r == ([tally] + l)[..|l|]
    ensures |l| <= maxLength ==> |r| <= maxLength
  {
    var pushed := [tally] + l;
    if |l| >= maxLength then pushed[..|pushed| - 1] else pushed
  }

  /** A history that starts within the bound stays within it, however many tallies are put. */
  lemma {:induction false} PushTallyBounded(l: seq<Tally>, tallies: seq<Tally>, maxLength: int)
    requires |l| <= maxLength
    ensures |PushAllTallies(l, tallies, maxLength)| <= maxLength
    decreases |tallies|
  {
    if tallies != [] {
      PushTallyBounded(PushTally(l, tallies[0], maxLength), tallies[1..], maxLength);
    }
  }

  function PushAllTallies(l: seq<Tally>, tallies: seq<Tally>, maxLength: int): seq<Tally>
    decreases |tallies|
  {
    if tallies == [] then l else PushAllTallies(PushTally(l, tallies[0], maxLength), tallies[1..], maxLength)
  }

  /** The newest tally put is always first, and the one before it second while the bound allows two. */
  lemma NewestFirst(l: seq<Tally>, a: Tally, b: Tally, maxLength: int)
    requires maxLength >= 1
    ensures var r := PushTally(PushTally(l, a, maxLength), b, maxLength);
      r[0] == b && (maxLength >= 2 ==> r[1] == a)
  {
  }

  class RedisUserDataStore {
    /** The tally-source hash: field `user-<userId>:<id>` holds that user's source `id`. */
    var tallySources: map<string, TallySource>
    /** The tally lists by key, newest first. */
    var tallyLists: map<string, seq<Tally>>
    const maxTallyHistoryLength: int

    /** Every tally is filed under its own source's key, and no history is longer than the bound. */
    ghost predicate Valid()
      reads this
    {
      && maxTallyHistoryLength >= 1
      && forall k :: k in tallyLists ==>
           |tallyLists[k]| <= maxTallyHistoryLength && forall t :: t in tallyLists[k] ==> RedisNames.Tally(t.tallySourceId) == k
    }

    constructor (maxTallyHistoryLength: int)
      requires maxTallyHistoryLength >= 1
      ensures Valid() && tallySources == map[] && tallyLists == map[]
      ensures this.maxTallyHistoryLength == maxTallyHistoryLength
    {
      tallySources := map[];
      tallyLists := map[];
      this.maxTallyHistoryLength := maxTallyHistoryLength;
    }

    /** The source `id` of `userId`, or nothing when the field is absent. */
    function GetTallySource(userId: string, id: string): (r: Option<TallySource>)
      reads this
      ensures r.Some? <==> RedisNames.TallySourceKey(userId, id) in tallySources
      ensures r.Some? ==> r.value == tallySources[RedisNames.TallySourceKey(userId, id)]
    {
      var key := RedisNames.TallySourceKey(userId, id);
      if key in tallySources then Some(tallySources[key]) else None
    }

    /** Stores `source` under `userId` and its id, replacing what was there. */
    method PutTallySource(userId: string, source: TallySource)
      requires Valid()
      modifies this
      ensures Valid() && tallyLists == old(tallyLists)
      ensures tallySources == old(tallySources)[RedisNames.TallySourceKey(userId, source.id) := source]
      ensures GetTallySource(userId, source.id) == Some(source)
      ensures forall u, id :: RedisNames.TallySourceKey(u, id) != RedisNames.TallySourceKey(userId, source.id) ==>
        GetTallySource(u, id) == old(GetTallySource(u, id))
    {
      tallySources := tallySources[RedisNames.TallySourceKey(userId, source.id) := source];
    }

    /**
     * Deletes the source and its tally list in one transaction; `committed` is whether the
     * transaction went through. Returns whether a source was removed: the tally list goes even
     * when there was no source.
     */
    method DeleteTallySource(userId: string, id: string, committed: bool) returns (deleted: bool)
      requires Valid()
      modifies this
      ensures Valid()
      ensures deleted <==> committed && old(GetTallySource(userId, id)).Some?
      ensures committed ==>
        && tallySources == old(tallySources) - {RedisNames.TallySourceKey(userId, id)}
        && tallyLists == SetList(old(tallyLists), RedisNames.Tally(id), [])
      ensures !committed ==> tallySources == old(tallySources) && tallyLists == old(tallyLists)
      ensures committed ==> GetTallySource(userId, id).None? && GetList(tallyLists, RedisNames.Tally(id)) == []
    {
      var sourceKey := RedisNames.TallySourceKey(userId, id);
      var tallyKey := RedisNames.Tally(id);
      if !committed {
        return false;
      }
      var existed := sourceKey in tallySources;
      tallySources := tallySources - {sourceKey};
      tallyLists := SetList(tallyLists, tallyKey, []);
      if !existed {
        return false;
      }
      return true;
    }

    /**
     * Puts a tally at the head of its source's history and, when the history had already reached
     * the bound, drops the oldest one, in one transaction; `committed` is whether it went through.
     */
    method PutTally(tally: Tally, committed: bool)
      requires Valid()
      modifies this
      ensures Valid() && tallySources == old(tallySources)
      ensures var key := RedisNames.Tally(tally.tallySourceId);
        tallyLists == if committed then SetList(old(tallyLists), key, PushTally(GetList(old(tallyLists), key), tally, maxTallyHistoryLength))
                      else old(tallyLists)
      ensures var l := old(GetList(tallyLists, RedisNames.Tally(tally.tallySourceId)));
        committed ==> |GetList(tallyLists, RedisNames.Tally(tally.tallySourceId))| == if |l| < maxTallyHistoryLength then |l| + 1 else |l|
    {
      var key := RedisNames.Tally(tally.tallySourceId);
      var length := |GetList(tallyLists, key)|;
      if committed {
        var pushed := [tally] + GetList(tallyLists, key);
        if length >= maxTallyHistoryLength {
          pushed := pushed[..|pushed| - 1];
        }
        tallyLists := SetList(tallyLists, key, pushed);
      }
    }

    /** The `count` most recent tallies of source `id`, newest first (as written: see TalliesRange). */
    function GetTallies(id: string, count: int): (r: seq<Tally>)
      reads this
      requires Valid()
      ensures |r| <= maxTallyHistoryLength
      ensures forall t :: t in r ==> t.tallySourceId == id
      ensures r == TalliesRange(GetList(tallyLists, RedisNames.Tally(id)), count)
    {
      var l := GetList(tallyLists, RedisNames.Tally(id));
      var r := TalliesRange(l, count);
      assert forall t :: t in r ==> t in l;
      forall t | t in r ensures t.tallySourceId == id {
        RedisNames.TallyKeys(t.tallySourceId, id);
      }
      r
    }

    /** Deletes the whole tally history of source `id`. */
    method PurgeTallies(id: string)
      requires Valid()
      modifies this
      ensures Valid() && tallySources == old(tallySources)
      ensures tallyLists == SetList(old(tallyLists), RedisNames.Tally(id), [])
      ensures GetTallies(id, 1) == []
    {
      tallyLists := SetList(tallyLists, RedisNames.Tally(id), []);
    }

    /**
     * The sources of `userId`, or of all users: one per matching hash field, in scan order, which
     * is not specified.
     */
    method GetTallySources(userId: Option<string>) returns (sources: seq<TallySource>)
      ensures |sources| == |SourceFields(tallySources, userId)|
      ensures forall s :: s in sources <==> exists f :: f in SourceFields(tallySources, userId) && tallySources[f] == s
    {
      sources := [];
      var remaining := tallySources.Keys;
      while remaining != {}
        invariant remaining <= tallySources.Keys
        invariant |sources| == |SourceFields(tallySources, userId) - remaining|
        invariant forall s :: s in sources <==>
          exists f :: f in SourceFields(tallySources, userId) - remaining && tallySources[f] == s
        decreases |remaining|
      {
        var field :| field in remaining;
        var before := SourceFields(tallySources, userId) - remaining;
        remaining := remaining - {field};
        if MatchesUser(userId, field) {
          assert SourceFields(tallySources, userId) - remaining == before + {field};
          sources := sources + [tallySources[field]];
        } else {
          assert SourceFields(tallySources, userId) - remaining == before;
        }
      }
    }
  }
}

=== FILE: render_extensions.dfy ===
/** How the web client shows an evaluation interval. */
module RenderExtensions {
  import opened TallySources

  /** The label of an interval; only a disabled source shows the placeholder `--`. */
  function Render(interval: EvaluationInterval): (r: string)
    ensures r == "--" <==> interval == Disabled
    ensures |r| >= 2
  {
    match interval
    case Disabled => "--"
    case OneHour => "1 hour"
    case SixHours => "6 hours"
    case OneDay => "1 day"
  }

  /** Distinct intervals get distinct labels, so a label identifies its interval. */
  lemma RenderInjective(a: EvaluationInterval, b: EvaluationInterval)
    ensures Render(a) == Render(b) <==> a == b
  {
  }

  /** The labels the pages show. */
  lemma RenderLabels()
    ensures Render(Disabled) == "--" && Render(OneHour) == "1 hour"
    ensures Render(SixHours) == "6 hours" && Render(OneDay) == "1 day"
  {
  }
}

=== FILE: request_engine.dfy ===
/**
 * What a request is to the runner: a named unit of work whose execution ends in one of four
 * outcomes, each telling the runner what to do with the work item next.
 */
module RequestEngine {
  import opened RequestInfos

  /** The four execution outcomes. */
  datatype RequestResult = Ok | Retry | WaitAndRetry | Fatal

  /** Whether the runner puts the work item back at the tail of its queue. */
  predicate Requeues(r: RequestResult) {
    r == Retry || r == WaitAndRetry
  }

  /** Whether the runner suspends execution for one interval after the item. */
  predicate Pauses(r: RequestResult) {
    r == WaitAndRetry
  }

  /** How an execution ended: with an outcome, or with an exception that escapes to the runner. */
  datatype Execution = Returned(result: RequestResult) | Threw

  datatype LogLevel = Trace | Debug | Information | Warning | Error | Critical

  /** The level an outcome is logged at: warnings exactly for the outcomes that requeue. */
  function GetLogLevel(result: RequestResult): (level: LogLevel)
    ensures level == Information <==> result == Ok
    ensures level == Warning <==> Requeues(result)
    ensures level == Error <==> result == Fatal
  {
    match result
    case Ok => Information
    case Retry => Warning
    case WaitAndRetry => Warning
    case Fatal => Error
  }

  /** The requests the factory can build. `NopRequest` is a single value, like the source's shared instance. */
  datatype Request =
    | QuoteHistoryRequest(history: QuoteHistoryRequestInfo)
    | TrackerRequest(trackers: TrackerRequestInfo)
    | QuoteSnapshotRequest(snapshot: QuoteSnapshotRequestInfo)
    | NopRequest

  /**
   * The name a request is logged under. It tells the kinds of request apart, and a history
   * request's name ends with its symbol.
   */
  function Moniker(request: Request): (name: string)
    ensures request.NopRequest? <==> name == "nop"
    ensures request.TrackerRequest? <==> name == "download crypto trackers"
    ensures request.QuoteSnapshotRequest? <==> name == "download quote snapshots"
    ensures request.QuoteHistoryRequest? <==> |name| >= 24 && name[..24] == "download aggregates for "
    ensures request.QuoteHistoryRequest? ==> name[24..] == request.history.symbol
  {
    match request
    case QuoteHistoryRequest(info) =>
      var name := "download aggregates for " + info.symbol;
      assert name[9] == 'a' && "download crypto trackers"[9] == 'c' && "download quote snapshots"[9] == 'q';
      assert name[..24] == "download aggregates for ";
      name
    case TrackerRequest(_) =>
      assert "download crypto trackers"[..24][9] != 'a';
      "download crypto trackers"
    case QuoteSnapshotRequest(_) =>
      assert "download quote snapshots"[..24][9] != 'a';
      "download quote snapshots"
    case NopRequest => "nop"
  }

  /** `Job[<moniker>]`. */
  function ToString(request: Request): (s: string)
    ensures |s| == |Moniker(request)| + 5
    ensures s[..4] == "Job[" && s[|s| - 1] == ']' && s[4..|s| - 1] == Moniker(request)
  {
    "Job[" + Moniker(request) + "]"
  }

  /** The moniker can be read back from the text form, so distinct monikers print differently. */
  lemma ToStringInjective(a: Request, b: Request)
    ensures ToString(a) == ToString(b) <==> Moniker(a) == Moniker(b)
  {
    var sa, sb := ToString(a), ToString(b);
    if sa == sb {
      assert Moniker(a) == sa[4..|sa| - 1] == sb[4..|sb| - 1] == Moniker(b);
    }
  }

  /** The nop request's text form. */
  lemma NopToString()
    ensures ToString(NopRequest) == "Job[nop]"
  {
  }

  /** Executing the nop request only logs a warning: its outcome drops the item and takes no pause. */
  function ExecuteNop(): (result: RequestResult)
    ensures !Requeues(result) && !Pauses(result) && GetLogLevel(result) == Information
  {
    Ok
  }
}

=== FILE: request_factory.dfy ===
/** Turns a stored work item into the request that carries it out. */
module RequestFactory {
  import opened Wrappers
  import opened RequestInfos
  import opened RequestEngine

  /**
   * The property-pattern switch: the first non-null payload, in the order quote history,
   * trackers, snapshots, picks the request; a value equal to Nop builds the nop request; a value
   * with no payload but a tag is rejected.
   */
  function BuildRequest(info: RequestInfo): (r: Result<Request>)
    ensures r.Failure? <==> PayloadCount(info) == 0 && info.apiTag.Some?
    ensures r.Failure? ==> r.error == ArgumentException
    ensures r == Success(NopRequest) <==> info == Nop
    ensures info.quoteHistoryDownload.Some? ==> r == Success(QuoteHistoryRequest(info.quoteHistoryDownload.value))
    ensures r.Success? && r.value.TrackerRequest? <==> info.quoteHistoryDownload.None? && info.trackerDownload.Some?
    ensures r.Success? && r.value.QuoteSnapshotRequest? <==>
      info.quoteHistoryDownload.None? && info.trackerDownload.None? && info.quoteSnapshotDownload.Some?
  {
    if info.quoteHistoryDownload.Some? then Success(QuoteHistoryRequest(info.quoteHistoryDownload.value))
    else if info.trackerDownload.Some? then Success(TrackerRequest(info.trackerDownload.value))
    else if info.quoteSnapshotDownload.Some? then Success(QuoteSnapshotRequest(info.quoteSnapshotDownload.value))
    else if info == Nop then Success(NopRequest)
    else Failure(ArgumentException)
  }

  /** Each factory's value builds the matching request, carrying the same payload. */
  lemma BuildFromFactories(t: TrackerRequestInfo, h: QuoteHistoryRequestInfo, tag: string)
    ensures BuildRequest(DownloadTrackers(t, tag)) == Success(TrackerRequest(t))
    ensures BuildRequest(DownloadQuoteHistory(h, tag)) == Success(QuoteHistoryRequest(h))
    ensures BuildRequest(DownloadQuoteSnapshots(tag)) == Success(QuoteSnapshotRequest(QuoteSnapshotRequestInfo))
    ensures BuildRequest(Nop) == Success(NopRequest)
  {
  }

  /**
   * The request depends only on the payloads: the tag never changes the kind, except that it
   * turns a payload-less value into an error.
   */
  lemma BuildIgnoresTag(info: RequestInfo, tag: string)
    requires PayloadCount(info) > 0
    ensures BuildRequest(info.(apiTag := Some(tag))) == BuildRequest(info) == BuildRequest(info.(apiTag := None))
  {
  }
}

=== FILE: request_info.dfy ===
/**
 * The serialisable description of one unit of pending work: a record of three optional payloads
 * and an optional API tag, built by three factory functions.
 */
module RequestInfos {
  import opened Wrappers
  import opened Contracts

  /** Download all trackers with their market data at `date`, then queue history requests. */
  datatype TrackerRequestInfo = TrackerRequestInfo(date: Instant, quoteHistoryDays: int)

  /** Download the daily quotes of `symbol` from `fromDate` up to and including `toDate`. */
  datatype QuoteHistoryRequestInfo = QuoteHistoryRequestInfo(symbol: string, fromDate: Instant, toDate: Instant)

  /** Download a snapshot of all available trackers; carries no data. */
  datatype QuoteSnapshotRequestInfo = QuoteSnapshotRequestInfo

  /** Equality on this datatype is the record's value equality: all four fields are compared. */
  datatype RequestInfo = RequestInfo(
    trackerDownload: Option<TrackerRequestInfo>,
    quoteHistoryDownload: Option<QuoteHistoryRequestInfo>,
    quoteSnapshotDownload: Option<QuoteSnapshotRequestInfo>,
    apiTag: Option<string>)

  const Nop: RequestInfo := RequestInfo(None, None, None, None)

  function PayloadCount(r: RequestInfo): nat {
    (if r.trackerDownload.Some? then 1 else 0)
    + (if r.quoteHistoryDownload.Some? then 1 else 0)
    + (if r.quoteSnapshotDownload.Some? then 1 else 0)
  }

  function DownloadTrackers(info: TrackerRequestInfo, apiTag: string): (r: RequestInfo)
    ensures r.trackerDownload == Some(info) && r.apiTag == Some(apiTag)
    ensures PayloadCount(r) == 1
  {
    Nop.(trackerDownload := Some(info), apiTag := Some(apiTag))
  }

  function DownloadQuoteHistory(info: QuoteHistoryRequestInfo, apiTag: string): (r: RequestInfo)
    ensures r.quoteHistoryDownload == Some(info) && r.apiTag == Some(apiTag)
    ensures PayloadCount(r) == 1
  {
    Nop.(quoteHistoryDownload := Some(info), apiTag := Some(apiTag))
  }

  function DownloadQuoteSnapshots(apiTag: string): (r: RequestInfo)
    ensures r.quoteSnapshotDownload == Some(QuoteSnapshotRequestInfo) && r.apiTag == Some(apiTag)
    ensures PayloadCount(r) == 1
  {
    Nop.(quoteSnapshotDownload := Some(QuoteSnapshotRequestInfo), apiTag := Some(apiTag))
  }

  /** `Nop` carries nothing, not even a tag, and is the only such value. */
  lemma NopIsEmpty(r: RequestInfo)
    ensures PayloadCount(Nop) == 0 && Nop.apiTag.None?
    ensures r == Nop <==> PayloadCount(r) == 0 && r.apiTag.None?
  {
  }

  /** The factories are injective and never produce `Nop` nor each other's values. */
  lemma FactoriesDistinct(t: TrackerRequestInfo, h: QuoteHistoryRequestInfo, tag1: string, tag2: string, tag3: string)
    ensures DownloadTrackers(t, tag1) != DownloadQuoteHistory(h, tag2)
    ensures DownloadTrackers(t, tag1) != DownloadQuoteSnapshots(tag3)
    ensures DownloadQuoteHistory(h, tag2) != DownloadQuoteSnapshots(tag3)
    ensures DownloadTrackers(t, tag1) != Nop && DownloadQuoteHistory(h, tag2) != Nop && DownloadQuoteSnapshots(tag3) != Nop
  {
  }
}

=== FILE: request_runner.dfy ===
/**
 * The per-tag request runner: each iteration takes a batch from the head of its tag's queue,
 * executes the batch in order, puts retried items back at the tail, pauses one interval after
 * every WaitAndRetry and once more at the end of the iteration.
 */
module RequestRunners {
  import opened Wrappers
  import opened RequestInfos
  import opened RequestEngine
  import opened RequestFactory
  import opened RequestQueues
  import opened Redis
  import RedisNames

  /** The runner's record of the first items of a batch. */
  datatype Batch = Batch(requeued: seq<RequestInfo>, pauses: seq<nat>, executed: nat, aborted: bool)

  /**
   * Item i of a batch: building its request fails for an item with a tag but no payload, and the
   * request's own execution is an input (`outcomes(i)`).
   */
  function ExecutionOf(info: RequestInfo, i: nat, outcomes: nat -> Execution): Execution {
    if BuildRequest(info).Failure? then Threw else outcomes(i)
  }

  /** The runner's record after one more item, which ended with `e`. */
  function Advance(b: Batch, info: RequestInfo, e: Execution, interval: nat): Batch {
    if b.aborted then b
    else match e
      case Threw => b.(aborted := true)
      case Returned(r) =>
        Batch(b.requeued + (if Requeues(r) then [info] else []),
              b.pauses + (if Pauses(r) then [interval] else []),
              b.executed + 1, false)
  }

  /** The runner's record after the first `n` items of `batch`. */
  function BatchTrace(batch: seq<RequestInfo>, outcomes: nat -> Execution, interval: nat, n: nat): (b: Batch)
    requires n <= |batch|
    ensures b.executed <= n
    ensures !b.aborted ==> b.executed == n
  {
    if n == 0 then Batch([], [], 0, false)
    else Advance(BatchTrace(batch, outcomes, interval, n - 1), batch[n - 1], ExecutionOf(batch[n - 1], n - 1, outcomes), interval)
  }

  /** The record after item `i`, from a record of `i` items run without an exception. */
  lemma BatchTraceNext(batch: seq<RequestInfo>, outcomes: nat -> Execution, interval: nat, i: nat, requeued: seq<RequestInfo>, pauses: seq<nat>, e: Execution)
    requires i < |batch| && BatchTrace(batch, outcomes, interval, i) == Batch(requeued, pauses, i, false)
    requires e == (if BuildRequest(batch[i]).Failure? then Threw else outcomes(i))
    ensures BatchTrace(batch, outcomes, interval, i + 1) == Advance(Batch(requeued, pauses, i, false), batch[i], e, interval)
  {
  }

  /** Once an item has thrown, the rest of the batch changes nothing. */
  lemma {:induction false} AbortSticks(batch: seq<RequestInfo>, outcomes: nat -> Execution, interval: nat, j: nat, m: nat)
    requires j <= m <= |batch| && BatchTrace(batch, outcomes, interval, j).aborted
    ensures BatchTrace(batch, outcomes, interval, m) == BatchTrace(batch, outcomes, interval, j)
    decreases m
  {
    if m > j {
      AbortSticks(batch, outcomes, interval, j, m - 1);
    }
  }

  /** The number of WaitAndRetry outcomes among the first `n` items (an exception counts as none). */
  function WaitCount(batch: seq<RequestInfo>, outcomes: nat -> Execution, n: nat): nat
    requires n <= |batch|
  {
    if n == 0 then 0
    else WaitCount(batch, outcomes, n - 1) + (if ExecutionOf(batch[n - 1], n - 1, outcomes) == Returned(WaitAndRetry) then 1 else 0)
  }

  /** The items among the first `n` whose execution returned an outcome that requeues, in batch order. */
  function Kept(batch: seq<RequestInfo>, outcomes: nat -> Execution, n: nat): (k: seq<RequestInfo>)
    requires n <= |batch|
  {
    if n == 0 then []
    else
      var e := ExecutionOf(batch[n - 1], n - 1, outcomes);
      Kept(batch, outcomes, n - 1) + (if e.Returned? && Requeues(e.result) then [batch[n - 1]] else [])
  }

  /** The items of a batch run in order; an exception stops the batch at the first item that throws. */
  lemma {:induction false} BatchStopsAtFirstThrow(batch: seq<RequestInfo>, outcomes: nat -> Execution, interval: nat, n: nat)
    requires n <= |batch|
    ensures var b := BatchTrace(batch, outcomes, interval, n);
      && (forall i :: 0 <= i < b.executed ==> ExecutionOf(batch[i], i, outcomes).Returned?)
      && (b.aborted ==> b.executed < n && ExecutionOf(batch[b.executed], b.executed, outcomes) == Threw)
  {
    if n > 0 {
      BatchStopsAtFirstThrow(batch, outcomes, interval, n - 1);
    }
  }

  /** The kept items are drawn from the first `n` items of the batch. */
  lemma {:induction false} KeptFromPrefix(batch: seq<RequestInfo>, outcomes: nat -> Execution, n: nat)
    requires n <= |batch|
    ensures multiset(Kept(batch, outcomes, n)) <= multiset(batch[..n])
  {
    if n > 0 {
      KeptFromPrefix(batch, outcomes, n - 1);
      assert batch[..n] == batch[..n - 1] + [batch[n - 1]];
    }
  }

  /** One step of the requeue law: `Advance` appends to the requeued items exactly what `Kept` appends. */
  lemma AdvanceKeeps(b: Batch, info: RequestInfo, e: Execution, interval: nat, before: seq<RequestInfo>, n: nat)
    requires !b.aborted ==> b.executed == n
    requires b.requeued == before
    ensures var b' := Advance(b, info, e, interval);
      if !b.aborted && e.Returned? then
        b'.executed == n + 1 && b'.requeued == before + (if Requeues(e.result) then [info] else [])
      else b'.executed == b.executed && b'.requeued == before
  {
  }

  /** The requeued items of the first `n` items are those `Kept` lists, by induction on `n`. */
  lemma {:induction false} BatchKeeps(batch: seq<RequestInfo>, outcomes: nat -> Execution, interval: nat, n: nat)
    requires n <= |batch|
    ensures var b := BatchTrace(batch, outcomes, interval, n);
      b.requeued == Kept(batch, outcomes, b.executed)
  {
    if n > 0 {
      BatchKeeps(batch, outcomes, interval, n - 1);
      var b := BatchTrace(batch, outcomes, interval, n - 1);
      var e := ExecutionOf(batch[n - 1], n - 1, outcomes);
      AdvanceKeeps(b, batch[n - 1], e, interval, b.requeued, n - 1);
      var b' := BatchTrace(batch, outcomes, interval, n);
      assert b' == Advance(b, batch[n - 1], e, interval);
      if !b.aborted && e.Returned? {
        assert b'.executed == n;
        assert Kept(batch, outcomes, n) == Kept(batch, outcomes, n - 1) + (if Requeues(e.result) then [batch[n - 1]] else []);
      } else {
        assert b'.executed == b.executed && b'.requeued == b.requeued;
      }
    }
  }

  /**
   * The requeue law: the items put back are, in execution order, exactly those of the executed
   * prefix whose outcome requeues, so nothing is put back that was not taken.
   */
  lemma BatchRequeues(batch: seq<RequestInfo>, outcomes: nat -> Execution, interval: nat, n: nat)
    requires n <= |batch|
    ensures var b := BatchTrace(batch, outcomes, interval, n);
      b.requeued == Kept(batch, outcomes, b.executed) && multiset(b.requeued) <= multiset(batch[..b.executed])
  {
    BatchKeeps(batch, outcomes, interval, n);
    KeptFromPrefix(batch, outcomes, BatchTrace(batch, outcomes, interval, n).executed);
  }

  /** One pause per WaitAndRetry among the executed items, each one interval long. */
  lemma {:induction false} BatchPauses(batch: seq<RequestInfo>, outcomes: nat -> Execution, interval: nat, n: nat)
    requires n <= |batch|
    ensures var b := BatchTrace(batch, outcomes, interval, n);
      |b.pauses| == WaitCount(batch, outcomes, b.executed) && forall i :: 0 <= i < |b.pauses| ==> b.pauses[i] == interval
  {
    if n > 0 {
      BatchPauses(batch, outcomes, interval, n - 1);
    }
  }

  /** A batch whose items all succeed leaves nothing behind and takes no extra pause. */
  lemma {:induction false} AllOkDrains(batch: seq<RequestInfo>, outcomes: nat -> Execution, interval: nat, n: nat)
    requires n <= |batch|
    requires forall i :: 0 <= i < n ==> ExecutionOf(batch[i], i, outcomes) == Returned(Ok)
    ensures BatchTrace(batch, outcomes, interval, n) == Batch([], [], n, false)
  {
    if n > 0 {
      AllOkDrains(batch, outcomes, interval, n - 1);
    }
  }

  /** A batch whose items all ask for a retry is put back whole, in order, without pauses. */
  lemma {:induction false} AllRetryRequeues(batch: seq<RequestInfo>, outcomes: nat -> Execution, interval: nat, n: nat)
    requires n <= |batch|
    requires forall i :: 0 <= i < n ==> ExecutionOf(batch[i], i, outcomes) == Returned(Retry)
    ensures BatchTrace(batch, outcomes, interval, n) == Batch(batch[..n], [], n, false)
  {
    if n > 0 {
      AllRetryRequeues(batch, outcomes, interval, n - 1);
      assert batch[..n] == batch[..n - 1] + [batch[n - 1]];
    }
  }

  function Sum(s: seq<nat>): nat {
    if s == [] then 0 else Sum(s[..|s| - 1]) + s[|s| - 1]
  }

  lemma {:induction false} SumConstant(s: seq<nat>, interval: nat)
    requires forall i :: 0 <= i < |s| ==> s[i] == interval
    ensures Sum(s) == |s| * interval
  {
    if s != [] {
      SumConstant(s[..|s| - 1], interval);
    }
  }

  /** The pauses of an iteration that completes: one interval per WaitAndRetry plus the final one. */
  function IterationPauses(b: Batch, interval: nat): seq<nat> {
    if b.aborted then b.pauses else b.pauses + [interval]
  }

  /** Total pause of a completed iteration: interval × (1 + number of WaitAndRetry outcomes). */
  lemma TotalPause(batch: seq<RequestInfo>, outcomes: nat -> Execution, interval: nat)
    ensures var b := BatchTrace(batch, outcomes, interval, |batch|);
      !b.aborted ==> Sum(IterationPauses(b, interval)) == (1 + WaitCount(batch, outcomes, |batch|)) * interval
  {
    var b := BatchTrace(batch, outcomes, interval, |batch|);
    BatchPauses(batch, outcomes, interval, |batch|);
    if !b.aborted {
      var ps := b.pauses + [interval];
      assert IterationPauses(b, interval) == ps;
      assert |ps| == 1 + WaitCount(batch, outcomes, |batch|);
      SumConstant(ps, interval);
    }
  }

  /**
   * A single item that gets WaitAndRetry is back in the queue and the iteration waits two
   * intervals before the next dequeue can happen.
   */
  lemma WaitAndRetryOne(info: RequestInfo, outcomes: nat -> Execution, interval: nat)
    requires BuildRequest(info).Success? && outcomes(0) == Returned(WaitAndRetry)
    ensures var b := BatchTrace([info], outcomes, interval, 1);
      b.requeued == [info] && IterationPauses(b, interval) == [interval, interval]
  {
    assert BatchTrace([info], outcomes, interval, 0) == Batch([], [], 0, false);
  }

  /** The queue an iteration leaves and whether the iteration ran to its end. */
  datatype Iteration = Iteration(queue: seq<RequestInfo>, completed: bool)

  /** How the runner's loop ended: the queue it left, the iterations begun, whether an exception stopped it. */
  datatype LoopEnd = LoopEnd(queue: seq<RequestInfo>, iterations: nat, stopped: bool)

  /**
   * What each outcome makes the runner do with an item: Ok and Fatal drop it, Retry puts it back,
   * WaitAndRetry puts it back and pauses one interval; none of them stops the batch.
   */
  lemma OutcomeEffect(info: RequestInfo, outcomes: nat -> Execution, interval: nat, r: RequestResult)
    requires BuildRequest(info).Success? && outcomes(0) == Returned(r)
    ensures var b := BatchTrace([info], outcomes, interval, 1);
      && !b.aborted && b.executed == 1
      && (r == Ok || r == Fatal ==> b.requeued == [] && b.pauses == [])
      && (r == Retry ==> b.requeued == [info] && b.pauses == [])
      && (r == WaitAndRetry ==> b.requeued == [info] && b.pauses == [interval])
  {
    assert BatchTrace([info], outcomes, interval, 0) == Batch([], [], 0, false);
  }

  /** The number of items an iteration takes from a queue of `q`: the budget, or all when fewer. */
  function BatchSize(q: seq<RequestInfo>, max: nat): nat {
    if max < |q| then max else |q|
  }

  /**
   * One iteration on a queue `q`: the queue afterwards (the untaken rest, then the requeued items)
   * and whether the iteration ran to its end.
   */
  function Round(q: seq<RequestInfo>, outcomes: nat -> Execution, max: nat, interval: nat): Iteration {
    var batch := q[..BatchSize(q, max)];
    var b := BatchTrace(batch, outcomes, interval, |batch|);
    Iteration(q[|batch|..] + b.requeued, !b.aborted)
  }

  /** An iteration runs to its end exactly when none of the items it takes throws. */
  lemma RoundCompletes(q: seq<RequestInfo>, outcomes: nat -> Execution, max: nat, interval: nat)
    ensures var batch := q[..BatchSize(q, max)];
      Round(q, outcomes, max, interval).completed <==> forall i :: 0 <= i < |batch| ==> ExecutionOf(batch[i], i, outcomes).Returned?
  {
    var batch := q[..BatchSize(q, max)];
    BatchStopsAtFirstThrow(batch, outcomes, interval, |batch|);
  }

  /** An iteration only moves items: the queue afterwards holds nothing the queue before did not. */
  lemma RoundKeepsItems(q: seq<RequestInfo>, outcomes: nat -> Execution, max: nat, interval: nat)
    ensures multiset(Round(q, outcomes, max, interval).queue) <= multiset(q)
  {
    var n := BatchSize(q, max);
    var batch := q[..n];
    var b := BatchTrace(batch, outcomes, interval, |batch|);
    BatchRequeues(batch, outcomes, interval, |batch|);
    SplitMultiset(batch, b.executed);
    SplitMultiset(q, n);
    assert Round(q, outcomes, max, interval).queue == q[n..] + b.requeued;
  }

  /** A sequence holds the items of its prefix and of the rest. */
  lemma SplitMultiset<T>(s: seq<T>, k: nat)
    requires k <= |s|
    ensures multiset(s) == multiset(s[..k]) + multiset(s[k..])
  {
    assert s == s[..k] + s[k..];
  }

  lemma SubmultisetTransitive(a: multiset<RequestInfo>, b: multiset<RequestInfo>, c: multiset<RequestInfo>)
    requires a <= b && b <= c
    ensures a <= c
  {
  }

  /** Every item of `q` builds a request. */
  predicate AllBuild(q: seq<RequestInfo>) {
    forall x :: x in q ==> BuildRequest(x).Success?
  }

  /**
   * An iteration over items that all build a request, none of whose executions throws, runs to
   * its end and leaves only such items in the queue.
   */
  lemma RoundWithoutThrow(q: seq<RequestInfo>, outcomes: nat -> Execution, max: nat, interval: nat)
    requires AllBuild(q)
    requires forall i: nat :: outcomes(i).Returned?
    ensures Round(q, outcomes, max, interval).completed
    ensures AllBuild(Round(q, outcomes, max, interval).queue)
  {
    var batch := q[..BatchSize(q, max)];
    forall i | 0 <= i < |batch| ensures ExecutionOf(batch[i], i, outcomes).Returned? {
      assert batch[i] in q;
    }
    RoundCompletes(q, outcomes, max, interval);
    var next := Round(q, outcomes, max, interval).queue;
    RoundKeepsItems(q, outcomes, max, interval);
    forall x | x in next ensures BuildRequest(x).Success? {
      assert x in multiset(next);
    }
  }

  /**
   * The runner's loop from iteration `j` on a queue `q`, with `left` iterations before
   * cancellation, where `step(p, k)` is iteration k on a queue `p`: the final queue, the number of
   * iterations begun and whether an exception ended the loop.
   */
  function Loop(q: seq<RequestInfo>, step: (seq<RequestInfo>, nat) -> Iteration, left: nat, j: nat): LoopEnd
    decreases left
  {
    if left == 0 then LoopEnd(q, j, false)
    else
      var r := step(q, j);
      if !r.completed then LoopEnd(r.queue, j + 1, true)
      else Loop(r.queue, step, left - 1, j + 1)
  }

  /** The runner's iterations: iteration k executes by `outcomes(k)`. */
  function Iterations(outcomes: nat -> nat -> Execution, max: nat, interval: nat): (seq<RequestInfo>, nat) -> Iteration {
    (p: seq<RequestInfo>, k: nat) => Round(p, outcomes(k), max, interval)
  }

  /** The loop begins at most `left` iterations, all of them unless an exception ends it. */
  lemma {:induction false} LoopBounds(q: seq<RequestInfo>, step: (seq<RequestInfo>, nat) -> Iteration, left: nat, j: nat)
    ensures j <= Loop(q, step, left, j).iterations <= j + left
    ensures !Loop(q, step, left, j).stopped ==> Loop(q, step, left, j).iterations == j + left
    ensures Loop(q, step, left, j).stopped ==> Loop(q, step, left, j).iterations > j
    decreases left
  {
    if left > 0 && step(q, j).completed {
      LoopBounds(step(q, j).queue, step, left - 1, j + 1);
    }
  }

  /** When no iteration adds items, the loop leaves nothing in the queue that it did not hold. */
  lemma {:induction false} LoopKeepsItems(q: seq<RequestInfo>, step: (seq<RequestInfo>, nat) -> Iteration, left: nat, j: nat)
    requires forall p, k :: multiset(step(p, k).queue) <= multiset(p)
    ensures multiset(Loop(q, step, left, j).queue) <= multiset(q)
    decreases left
  {
    if left > 0 {
      var r := step(q, j);
      if r.completed {
        LoopKeepsItems(r.queue, step, left - 1, j + 1);
        SubmultisetTransitive(multiset(Loop(r.queue, step, left - 1, j + 1).queue), multiset(r.queue), multiset(q));
      }
    }
  }

  /** When every iteration from a queue of buildable items completes and keeps them buildable, the loop is never stopped. */
  lemma {:induction false} LoopNeverStops(q: seq<RequestInfo>, step: (seq<RequestInfo>, nat) -> Iteration, left: nat, j: nat)
    requires AllBuild(q)
    requires forall p, k :: AllBuild(p) ==> step(p, k).completed && AllBuild(step(p, k).queue)
    ensures !Loop(q, step, left, j).stopped && Loop(q, step, left, j).iterations == j + left
    decreases left
  {
    if left > 0 {
      LoopNeverStops(step(q, j).queue, step, left - 1, j + 1);
    }
  }

  /** The runner's loop never puts in its queue an item the queue did not hold. */
  lemma RunKeepsItems(q: seq<RequestInfo>, outcomes: nat -> nat -> Execution, max: nat, interval: nat, rounds: nat)
    ensures multiset(Loop(q, Iterations(outcomes, max, interval), rounds, 0).queue) <= multiset(q)
  {
    var step := Iterations(outcomes, max, interval);
    forall p, k ensures multiset(step(p, k).queue) <= multiset(p) {
      RoundKeepsItems(p, outcomes(k), max, interval);
    }
    LoopKeepsItems(q, step, rounds, 0);
  }

  /**
   * Without exceptions the runner's loop runs until cancellation: when every item of the queue
   * builds a request and no execution throws, it runs all the rounds.
   */
  lemma NoThrowNeverStops(q: seq<RequestInfo>, outcomes: nat -> nat -> Execution, max: nat, interval: nat, rounds: nat)
    requires AllBuild(q)
    requires forall k: nat, i: nat :: outcomes(k)(i).Returned?
    ensures !Loop(q, Iterations(outcomes, max, interval), rounds, 0).stopped
    ensures Loop(q, Iterations(outcomes, max, interval), rounds, 0).iterations == rounds
  {
    var step := Iterations(outcomes, max, interval);
    forall p, k | AllBuild(p) ensures step(p, k).completed && AllBuild(step(p, k).queue) {
      RoundWithoutThrow(p, outcomes(k), max, interval);
    }
    LoopNeverStops(q, step, rounds, 0);
  }

  class RequestRunner {
    const interval: nat
    const apiTag: string
    const maxRequestsPerMinute: nat
    const store: RedisRequestQueue

    ghost predicate Valid()
      reads this, store
    {
      store.Valid()
    }

    constructor (interval: nat, apiTag: string, maxRequestsPerMinute: nat, store: RedisRequestQueue)
      ensures this.interval == interval && this.apiTag == apiTag
      ensures this.maxRequestsPerMinute == maxRequestsPerMinute && this.store == store
    {
      this.interval := interval;
      this.apiTag := apiTag;
      this.maxRequestsPerMinute := maxRequestsPerMinute;
      this.store := store;
    }

    /** Puts an item of this runner's tag back at the tail of its queue. */
    method Requeue(info: RequestInfo)
      requires Valid() && info.apiTag == Some(apiTag)
      modifies store
      ensures Valid()
      ensures store.Queue(apiTag) == old(store.Queue(apiTag)) + [info]
      ensures forall k :: k != RedisNames.Requests(apiTag) ==> GetList(store.lists, k) == GetList(old(store.lists), k)
    {
      var _ := store.EnqueueRequest(info);
    }

    /**
     * Executes a dequeued batch in order, requeueing and pausing as each outcome says. Returns the
     * pauses taken and whether the whole batch ran (an exception leaves the rest of the batch).
     */
    method ExecuteBatch(batch: seq<RequestInfo>, outcomes: nat -> Execution) returns (pauses: seq<nat>, completed: bool)
      requires Valid() && forall r :: r in batch ==> r.apiTag == Some(apiTag)
      modifies store
      ensures Valid()
      ensures var b := BatchTrace(batch, outcomes, interval, |batch|);
        && completed == !b.aborted && pauses == b.pauses
        && store.Queue(apiTag) == old(store.Queue(apiTag)) + b.requeued
      ensures forall k :: k != RedisNames.Requests(apiTag) ==> GetList(store.lists, k) == GetList(old(store.lists), k)
    {
      pauses := [];
      var requeued: seq<RequestInfo> := [];
      var i := 0;
      while i < |batch|
        invariant 0 <= i <= |batch|
        invariant Valid()
        invariant BatchTrace(batch, outcomes, interval, i) == Batch(requeued, pauses, i, false)
        invariant store.Queue(apiTag) == old(store.Queue(apiTag)) + requeued
        invariant forall k :: k != RedisNames.Requests(apiTag) ==> GetList(store.lists, k) == GetList(old(store.lists), k)
      {
        var info := batch[i];
        var request := BuildRequest(info);
        var execution := if request.Failure? then Threw else outcomes(i);
        BatchTraceNext(batch, outcomes, interval, i, requeued, pauses, execution);
        if execution.Threw? {
          AbortSticks(batch, outcomes, interval, i + 1, |batch|);
          return pauses, false;
        }
        var result := execution.result;
        if Requeues(result) {
          Requeue(info);
          AppendAssoc(old(store.Queue(apiTag)), requeued, [info]);
          requeued := requeued + [info];
        }
        if Pauses(result) {
          pauses := pauses + [interval];
        }
        assert BatchTrace(batch, outcomes, interval, i + 1) == Batch(requeued, pauses, i + 1, false);
        i := i + 1;
      }
      completed := true;
    }

    /**
     * One iteration of the runner's loop: dequeue up to the per-minute budget from this runner's
     * tag, execute the batch, pause once more. Returns the batch taken, the pauses taken in order
     * and whether the iteration ran to its end.
     */
    method RunIteration(outcomes: nat -> Execution) returns (batch: seq<RequestInfo>, pauses: seq<nat>, completed: bool)
      requires Valid()
      modifies store
      ensures Valid()
      ensures var q := old(store.Queue(apiTag));
        batch == q[..BatchSize(q, maxRequestsPerMinute)]
      ensures var b := BatchTrace(batch, outcomes, interval, |batch|);
        && completed == !b.aborted
        && pauses == IterationPauses(b, interval)
        && store.Queue(apiTag) == old(store.Queue(apiTag))[|batch|..] + b.requeued
      ensures Iteration(store.Queue(apiTag), completed) == Round(old(store.Queue(apiTag)), outcomes, maxRequestsPerMinute, interval)
      ensures forall k :: k != RedisNames.Requests(apiTag) ==> GetList(store.lists, k) == GetList(old(store.lists), k)
    {
      batch := store.DequeueRequests(maxRequestsPerMinute, apiTag);
      pauses, completed := ExecuteBatch(batch, outcomes);
      if completed {
        pauses := pauses + [interval];
      }
    }

    /**
     * The runner's loop, run for at most `rounds` iterations (cancellation); it stops early when an
     * exception leaves an iteration. `outcomes(j)` are the executions of iteration j.
     */
    method Run(rounds: nat, outcomes: nat -> nat -> Execution) returns (iterations: nat, stopped: bool)
      requires Valid()
      modifies store
      ensures Valid()
      ensures iterations <= rounds && (!stopped ==> iterations == rounds)
      ensures LoopEnd(store.Queue(apiTag), iterations, stopped) == Loop(old(store.Queue(apiTag)), Iterations(outcomes, maxRequestsPerMinute, interval), rounds, 0)
      ensures forall k :: k != RedisNames.Requests(apiTag) ==> GetList(store.lists, k) == GetList(old(store.lists), k)
    {
      ghost var step := Iterations(outcomes, maxRequestsPerMinute, interval);
      ghost var whole := Loop(store.Queue(apiTag), step, rounds, 0);
      iterations, stopped := 0, false;
      while iterations < rounds
        invariant iterations <= rounds && Valid()
        invariant whole == Loop(store.Queue(apiTag), step, rounds - iterations, iterations)
        invariant forall k :: k != RedisNames.Requests(apiTag) ==> GetList(store.lists, k) == GetList(old(store.lists), k)
      {
        ghost var before := store.Queue(apiTag);
        var _, _, completed := RunIteration(outcomes(iterations));
        assert Iteration(store.Queue(apiTag), completed) == step(before, iterations);
        iterations := iterations + 1;
        if !completed {
          return iterations, true;
        }
      }
    }
  }
}

=== FILE: tally_service.dfy ===
/**
 * Tally evaluation: run each tally source's script and classify the value it returns into a
 * tally state and an optional result text.
 */
module TallyService {
  import opened Wrappers
  import opened Text
  import opened Contracts
  import opened TallySources

  /**
   * The JavaScript values the classification tells apart: booleans, objects (with their own
   * properties and their text form) and every other value (with its text form).
   */
  datatype JsValue =
    | JsBool(b: bool)
    | JsObject(properties: map<string, JsValue>, text: string)
    | JsOther(text: string)

  /** How running a script ended: with a value, or with an exception and its message. */
  datatype Evaluation = Completed(value: JsValue) | Raised(message: string)

  /** The text form of a value. */
  function ToText(v: JsValue): string {
    match v
    case JsBool(b) => if b then "true" else "false"
    case JsObject(_, text) => text
    case JsOther(text) => text
  }

  /**
   * The state and result an object return value stands for: its boolean `signal` property decides
   * the state and its `result` property, when present, gives the result text; without a boolean
   * signal the state is indeterminate and the result is the object's own text.
   */
  function DecodeReturnedObject(properties: map<string, JsValue>, text: string): (r: (TallyState, Option<string>))
    ensures r.0 != Error
    ensures ("signal" !in properties || !properties["signal"].JsBool?) <==> r.0 == Indeterminate
    ensures r.0 == Indeterminate ==> r.1 == Some(text)
    ensures r.0 == Signalled <==> "signal" in properties && properties["signal"] == JsBool(true)
    ensures r.0 == NonSignalled <==> "signal" in properties && properties["signal"] == JsBool(false)
    ensures r.0 != Indeterminate ==> r.1 == if "result" in properties then Some(ToText(properties["result"])) else None
  {
    if "signal" !in properties then (Indeterminate, Some(text))
    else match properties["signal"]
      case JsBool(b) =>
        (if b then Signalled else NonSignalled,
         if "result" in properties then Some(ToText(properties["result"])) else None)
      case _ => (Indeterminate, Some(text))
  }

  /**
   * The state and result of an evaluation: an exception is an error with its message; `true` and
   * `false` signal or not, without result; objects are decoded; anything else is indeterminate
   * with the value's text.
   */
  function Classify(e: Evaluation): (r: (TallyState, Option<string>))
    ensures r.0 == Error <==> e.Raised?
    ensures e.Raised? ==> r.1 == Some(e.message)
    ensures e == Completed(JsBool(true)) ==> r == (Signalled, None)
    ensures e == Completed(JsBool(false)) ==> r == (NonSignalled, None)
    ensures e.Completed? && e.value.JsOther? ==> r == (Indeterminate, Some(e.value.text))
    ensures e.Completed? && e.value.JsObject? ==> r == DecodeReturnedObject(e.value.properties, e.value.text)
  {
    match e
    case Raised(message) => (Error, Some(message))
    case Completed(JsBool(b)) => (if b then Signalled else NonSignalled, None)
    case Completed(JsObject(properties, text)) => DecodeReturnedObject(properties, text)
    case Completed(JsOther(text)) => (Indeterminate, Some(text))
  }

  /** The tally of one evaluation, made at clock reading `now`. */
  function EvaluateSource(source: TallySource, e: Evaluation, now: Instant): (t: Tally)
    ensures t.tallySourceId == source.id && t.tallySourceVersion == source.version
    ensures t.dateCreated == now
    ensures (t.state, t.result) == Classify(e)
  {
    var c := Classify(e);
    Tally(source.id, source.version, now, c.0, c.1)
  }

  /** A signal object with a result, as scripts return it. */
  lemma SignalObjectExample(text: string)
    ensures Classify(Completed(JsObject(map["signal" := JsBool(true), "result" := JsOther("BTC")], text))) == (Signalled, Some("BTC"))
    ensures Classify(Completed(JsObject(map["signal" := JsOther("1")], text))) == (Indeterminate, Some(text))
    ensures Classify(Completed(JsOther("123"))) == (Indeterminate, Some("123"))
  {
    var withResult := map["signal" := JsBool(true), "result" := JsOther("BTC")];
    assert "signal" in withResult && withResult["signal"] == JsBool(true);
    assert "result" in withResult && withResult["result"] == JsOther("BTC");
    var nonBoolean := map["signal" := JsOther("1")];
    assert "signal" in nonBoolean && !nonBoolean["signal"].JsBool?;
  }

  /** The sources evaluated for `interval`, in source order. */
  function Selected(interval: EvaluationInterval, sources: seq<TallySource>): (r: seq<TallySource>)
    ensures |r| <= |sources|
    ensures forall s :: s in r <==> s in sources && s.interval == interval
    decreases |sources|
  {
    if sources == [] then []
    else
      var init := sources[..|sources| - 1];
      var last := sources[|sources| - 1];
      assert forall s :: s in sources <==> s == last || s in init by {
        assert sources == init + [last];
      }
      Selected(interval, init) + (if last.interval == interval then [last] else [])
  }

  /** The tallies of `selected`, evaluated in order, the j-th at clock reading `clock(j)`. */
  function Evaluations(selected: seq<TallySource>, engine: TallySource -> Evaluation, clock: nat -> Instant): (r: seq<Tally>)
    ensures |r| == |selected|
    decreases |selected|
  {
    if selected == [] then []
    else
      var last := selected[|selected| - 1];
      Evaluations(selected[..|selected| - 1], engine, clock) + [EvaluateSource(last, engine(last), clock(|selected| - 1))]
  }

  /** The j-th tally belongs to the j-th selected source, carries its id and version, and is dated `clock(j)`. */
  lemma {:induction false} EvaluationsAt(selected: seq<TallySource>, engine: TallySource -> Evaluation, clock: nat -> Instant, j: nat)
    requires j < |selected|
    ensures Evaluations(selected, engine, clock)[j] == EvaluateSource(selected[j], engine(selected[j]), clock(j))
    decreases |selected|
  {
    if j < |selected| - 1 {
      var init := selected[..|selected| - 1];
      EvaluationsAt(init, engine, clock, j);
      assert init[j] == selected[j];
    }
  }

  /**
   * Every tally of a run belongs to a source of the run's interval: the j-th tally is the j-th
   * selected source's, and that source is one of the given sources with that interval.
   */
  lemma EvaluatesOnlyInterval(interval: EvaluationInterval, sources: seq<TallySource>, engine: TallySource -> Evaluation, clock: nat -> Instant, j: nat)
    requires j < |Selected(interval, sources)|
    ensures var s := Selected(interval, sources)[j];
      && s in sources && s.interval == interval
      && Evaluations(Selected(interval, sources), engine, clock)[j].tallySourceId == s.id
      && Evaluations(Selected(interval, sources), engine, clock)[j].tallySourceVersion == s.version
  {
    var selected := Selected(interval, sources);
    assert selected[j] in selected;
    EvaluationsAt(selected, engine, clock, j);
  }

  /** Selecting from one more source appends it when its interval matches. */
  lemma SelectedSnoc(interval: EvaluationInterval, sources: seq<TallySource>, i: nat)
    requires i < |sources|
    ensures Selected(interval, sources[..i + 1])
      == Selected(interval, sources[..i]) + (if sources[i].interval == interval then [sources[i]] else [])
  {
    assert sources[..i + 1][..i] == sources[..i];
  }

  /** Evaluating one more selected source appends its tally, dated by the next clock reading. */
  lemma EvaluationsSnoc(selected: seq<TallySource>, source: TallySource, engine: TallySource -> Evaluation, clock: nat -> Instant)
    ensures Evaluations(selected + [source], engine, clock)
      == Evaluations(selected, engine, clock) + [EvaluateSource(source, engine(source), clock(|selected|))]
  {
    var whole := selected + [source];
    assert whole[|whole| - 1] == source;
    assert whole[..|whole| - 1] == selected;
  }

  /** One more source either adds its tally at the end or leaves the tallies as they were. */
  lemma EvaluationsStep(interval: EvaluationInterval, sources: seq<TallySource>, i: nat, engine: TallySource -> Evaluation, clock: nat -> Instant, tallies: seq<Tally>)
    requires i < |sources|
    requires tallies == Evaluations(Selected(interval, sources[..i]), engine, clock)
    ensures Evaluations(Selected(interval, sources[..i + 1]), engine, clock)
      == if sources[i].interval == interval then tallies + [EvaluateSource(sources[i], engine(sources[i]), clock(|tallies|))] else tallies
  {
    var before := Selected(interval, sources[..i]);
    SelectedSnoc(interval, sources, i);
    if sources[i].interval == interval {
      EvaluationsSnoc(before, sources[i], engine, clock);
    } else {
      assert before + [] == before;
    }
  }

  /**
   * Builds the script context from the trackers' `symbols`, then evaluates the sources of
   * `interval`, in order, one tally per selected source; a context that cannot be built fails the
   * whole run before any tally is made. `engine` is what running a source's script gives (the
   * quotes it reads are fixed during a run) and `clock(j)` the clock reading when the j-th tally
   * is made.
   */
  method EvaluateAll(interval: EvaluationInterval, symbols: seq<string>, sources: seq<TallySource>,
                     engine: TallySource -> Evaluation, clock: nat -> Instant)
    returns (r: Result<seq<Tally>>)
    ensures r.Failure? <==> ContextNames(symbols).Failure?
    ensures r.Failure? ==> r.error == ArgumentException
    ensures r.Success? ==> r.value == Evaluations(Selected(interval, sources), engine, clock)
  {
    var context := ContextNames(symbols);
    if context.Failure? {
      return Failure(ArgumentException);
    }
    var tallies := [];
    var i := 0;
    while i < |sources|
      invariant 0 <= i <= |sources|
      invariant tallies == Evaluations(Selected(interval, sources[..i]), engine, clock)
    {
      EvaluationsStep(interval, sources, i, engine, clock, tallies);
      var source := sources[i];
      if source.interval == interval {
        tallies := tallies + [EvaluateSource(source, engine(source), clock(|tallies|))];
      }
      i := i + 1;
    }
    assert sources[..i] == sources;
    return Success(tallies);
  }

  /** At index `j` a word character is followed by a colon and another word character. */
  predicate NameMarkerAt(symbol: string, j: int) {
    0 <= j && j + 2 < |symbol| && IsWordChar(symbol[j]) && symbol[j + 1] == ':' && IsWordChar(symbol[j + 2])
  }

  /**
   * Where the search for `[\w]:(\w+)` from index `i` on succeeds: the leftmost index holding a
   * word character followed by a colon and a word character, or the length of the symbol when
   * there is none.
   */
  function FirstMarker(symbol: string, i: nat): (j: nat)
    requires i <= |symbol|
    ensures i <= j <= |symbol|
    ensures j < |symbol| ==> NameMarkerAt(symbol, j)
    ensures forall k :: i <= k < j ==> !NameMarkerAt(symbol, k)
    decreases |symbol| - i
  {
    if i == |symbol| || NameMarkerAt(symbol, i) then i else FirstMarker(symbol, i + 1)
  }

  /**
   * The name a tracker's quote function is known by in scripts: the whole word run after the
   * colon of the first match; a symbol without a match is rejected.
   */
  function GetFunctionName(symbol: string): (r: Result<string>)
    ensures r.Failure? <==> !exists j :: NameMarkerAt(symbol, j)
    ensures r.Failure? ==> r.error == ArgumentException
    ensures r.Success? ==>
      exists j :: NameMarkerAt(symbol, j) && (forall k :: 0 <= k < j ==> !NameMarkerAt(symbol, k))
               && r.value == symbol[j + 2..j + 2 + WordRun(symbol, j + 2)]
    ensures r.Success? ==> |r.value| >= 1 && IsWordString(r.value)
  {
    var j := FirstMarker(symbol, 0);
    if j == |symbol| then
      assert forall k :: !NameMarkerAt(symbol, k) by {
        forall k ensures !NameMarkerAt(symbol, k) {
          if 0 <= k < |symbol| {
            assert 0 <= k < j;
          }
        }
      }
      Failure(ArgumentException)
    else
      var name := symbol[j + 2..j + 2 + WordRun(symbol, j + 2)];
      assert NameMarkerAt(symbol, j) && (forall k :: 0 <= k < j ==> !NameMarkerAt(symbol, k));
      assert WordRun(symbol, j + 2) > 0;
      Success(name)
  }

  /** A Polygon ticker `<market>:<pair>` with a one-letter market names its function by the pair. */
  lemma {:induction false} FunctionNameOfTicker(market: char, pair: string)
    requires IsWordChar(market) && |pair| >= 1 && IsWordString(pair)
    ensures GetFunctionName([market, ':'] + pair) == Success(pair)
  {
    var s := [market, ':'] + pair;
    WordRunFrom(s, 2, |s|);
    assert s[2..|s|] == pair;
  }

  /** Every tracker symbol names a quote function. */
  predicate AllNamed(symbols: seq<string>) {
    forall i :: 0 <= i < |symbols| ==> GetFunctionName(symbols[i]).Success?
  }

  /** No two tracker symbols name the same quote function. */
  predicate NamesDistinct(symbols: seq<string>)
    requires AllNamed(symbols)
  {
    forall i, j :: 0 <= i < j < |symbols| ==> GetFunctionName(symbols[i]).value != GetFunctionName(symbols[j]).value
  }

  /**
   * The keys `ToDictionary` gives `items` under the key selector `key`, in item order: the first
   * selector failure is thrown on, and a key already taken is an ArgumentException.
   */
  function DictionaryKeys<T>(items: seq<T>, key: T -> Result<string>): (r: Result<seq<string>>)
    ensures r.Success? ==> |r.value| == |items|
    ensures r.Success? ==> forall i :: 0 <= i < |items| ==> key(items[i]) == Success(r.value[i])
    ensures r.Success? ==> forall i, j :: 0 <= i < j < |r.value| ==> r.value[i] != r.value[j]
    decreases |items|
  {
    if items == [] then Success([])
    else
      var init := items[..|items| - 1];
      var keys := DictionaryKeys(init, key);
      var k := key(items[|items| - 1]);
      if keys.Failure? then keys
      else if k.Failure? then Failure(k.error)
      else if k.value in keys.value then Failure(ArgumentException)
      else
        assert forall i :: 0 <= i < |init| ==> init[i] == items[i];
        Success(keys.value + [k.value])
  }

  /** Keys are found exactly when every item has one and no two items share one. */
  lemma {:induction false} DictionaryKeysSucceed<T>(items: seq<T>, key: T -> Result<string>)
    ensures DictionaryKeys(items, key).Success? <==>
      && (forall i :: 0 <= i < |items| ==> key(items[i]).Success?)
      && (forall i, j :: 0 <= i < j < |items| && key(items[i]).Success? && key(items[j]).Success? ==> key(items[i]).value != key(items[j]).value)
    decreases |items|
  {
    var r := DictionaryKeys(items, key);
    if !r.Success? && items != [] {
      var init := items[..|items| - 1];
      assert forall i :: 0 <= i < |init| ==> init[i] == items[i];
      DictionaryKeysSucceed(init, key);
    }
  }

  /** Every failure of the keying is an ArgumentException when every failure of the selector is. */
  lemma {:induction false} DictionaryKeysFailure<T>(items: seq<T>, key: T -> Result<string>)
    requires forall x :: key(x).Failure? ==> key(x).error == ArgumentException
    ensures DictionaryKeys(items, key).Failure? ==> DictionaryKeys(items, key).error == ArgumentException
    decreases |items|
  {
    if items != [] {
      DictionaryKeysFailure(items[..|items| - 1], key);
    }
  }

  /**
   * The names a script's context binds the trackers' quote functions to, in tracker order, keyed
   * by `GetFunctionName`: a symbol without a name, or a name already taken, makes building the
   * context fail with ArgumentException.
   */
  function ContextNames(symbols: seq<string>): (r: Result<seq<string>>)
    ensures r.Failure? ==> r.error == ArgumentException
    ensures r.Success? ==> |r.value| == |symbols|
    ensures r.Success? ==> forall i :: 0 <= i < |symbols| ==> GetFunctionName(symbols[i]) == Success(r.value[i])
  {
    DictionaryKeysFailure(symbols, GetFunctionName);
    DictionaryKeys(symbols, GetFunctionName)
  }

  /** The context is built exactly when every symbol names a function and no name is taken twice. */
  lemma ContextNamesSucceed(symbols: seq<string>)
    ensures ContextNames(symbols).Success? <==> AllNamed(symbols) && NamesDistinct(symbols)
  {
    DictionaryKeysSucceed(symbols, GetFunctionName);
  }

  /** A single ticker's context binds its pair. */
  lemma ContextOfTicker(market: char, pair: string)
    requires IsWordChar(market) && |pair| >= 1 && IsWordString(pair)
    ensures ContextNames([[market, ':'] + pair]) == Success([pair])
  {
    var symbols := [[market, ':'] + pair];
    FunctionNameOfTicker(market, pair);
    assert symbols[..|symbols| - 1] == [];
    assert symbols[|symbols| - 1] == [market, ':'] + pair;
    var none: seq<string> := [];
    assert DictionaryKeys(symbols, GetFunctionName) == Success(none + [pair]);
    assert none + [pair] == [pair];
  }

  /** Two tickers of different markets with the same pair clash; different pairs do not. */
  lemma ContextOfTwoTickers(m1: char, m2: char, p1: string, p2: string)
    requires IsWordChar(m1) && |p1| >= 1 && IsWordString(p1)
    requires IsWordChar(m2) && |p2| >= 1 && IsWordString(p2)
    ensures ContextNames([[m1, ':'] + p1, [m2, ':'] + p2]) == if p1 == p2 then Failure(ArgumentException) else Success([p1, p2])
  {
    var symbols := [[m1, ':'] + p1, [m2, ':'] + p2];
    ContextOfTicker(m1, p1);
    FunctionNameOfTicker(m2, p2);
    assert symbols[..|symbols| - 1] == [[m1, ':'] + p1];
    assert symbols[|symbols| - 1] == [m2, ':'] + p2;
    if p1 == p2 {
      assert p2 in [p1];
    } else {
      assert p2 !in [p1];
      assert DictionaryKeys(symbols, GetFunctionName) == Success([p1] + [p2]);
      assert [p1] + [p2] == [p1, p2];
    }
  }
}

=== FILE: tally_source.dfy ===
/** Tally sources: versioned scripts, each evaluated at one of four intervals. */
module TallySources {
  import opened Contracts

  /** How often a source is evaluated; exactly four values. */
  datatype EvaluationInterval = Disabled | OneHour | SixHours | OneDay

  datatype TallySource = TallySource(
    id: string,
    name: string,
    message: string,
    code: string,
    interval: EvaluationInterval,
    version: int,
    dateModified: Instant)

  /**
   * A new version of `source` with the given name, message, code and interval, stamped with the
   * clock reading `now`. The source value itself is not changed (values are immutable).
   */
  function Update(source: TallySource, name: string, message: string, code: string, interval: EvaluationInterval, now: Instant): (r: TallySource)
    ensures r.id == source.id
    ensures r.version == source.version + 1
    ensures r.name == name && r.message == message && r.code == code && r.interval == interval
    ensures r.dateModified == now
  {
    source.(name := name, message := message, code := code, interval := interval,
            version := source.version + 1, dateModified := now)
  }

  /**
   * Updates compose: the latest update's contents win, the identity is kept, and every update
   * counts once in the version.
   */
  lemma UpdateTwice(source: TallySource, n1: string, m1: string, c1: string, i1: EvaluationInterval, t1: Instant,
                    n2: string, m2: string, c2: string, i2: EvaluationInterval, t2: Instant)
    ensures Update(Update(source, n1, m1, c1, i1, t1), n2, m2, c2, i2, t2)
         == Update(source, n2, m2, c2, i2, t2).(version := source.version + 2)
  {
  }

  /** An update never yields the version it started from, so versions tell revisions apart. */
  lemma UpdateChangesVersion(source: TallySource, name: string, message: string, code: string, interval: EvaluationInterval, now: Instant)
    ensures Update(source, name, message, code, interval, now) != source
  {
  }
}

=== FILE: text.dfy ===
/** Character classes and string helpers shared by the regular-expression based parsers. */
module Text {

  /** `\w` restricted to ASCII: letters, digits and the underscore. */
  predicate IsWordChar(c: char) {
    ('a' <= c <= 'z') || ('A' <= c <= 'Z') || ('0' <= c <= '9') || c == '_'
  }

  predicate IsWordString(s: string) {
    forall i :: 0 <= i < |s| ==> IsWordChar(s[i])
  }

  /** ASCII white space as recognised by `char.IsWhiteSpace`. */
  predicate IsWhiteSpace(c: char) {
    c == ' ' || c == '\t' || c == '\n' || c == '\r' || c == '\U{B}' || c == '\U{C}'
  }

  predicate IsPrefix(p: string, s: string) {
    |p| <= |s| && s[..|p|] == p
  }

  /** Length of the longest run of word characters in `s` starting at index `i`. */
  function WordRun(s: string, i: nat): (n: nat)
    requires i <= |s|
    ensures i + n <= |s|
    ensures forall k :: i <= k < i + n ==> IsWordChar(s[k])
    ensures i + n == |s| || !IsWordChar(s[i + n])
    decreases |s| - i
  {
    if i < |s| && IsWordChar(s[i]) then 1 + WordRun(s, i + 1) else 0
  }

  /** A run of word characters stops at the first non-word character and not before. */
  lemma {:induction false} WordRunOfWordThenStop(w: string, rest: string)
    requires IsWordString(w)
    requires rest == [] || !IsWordChar(rest[0])
    ensures WordRun(w + rest, 0) == |w|
  {
    WordRunFrom(w + rest, 0, |w|);
  }

  lemma {:induction false} WordRunFrom(s: string, i: nat, j: nat)
    requires i <= j <= |s|
    requires forall k :: i <= k < j ==> IsWordChar(s[k])
    requires j == |s| || !IsWordChar(s[j])
    ensures WordRun(s, i) == j - i
    decreases j - i
  {
    if i < j {
      WordRunFrom(s, i + 1, j);
    }
  }
}

=== FILE: throttling_queue.dfy ===
/**
 * A FIFO queue whose consumer side yields at most a fixed number of items per time frame,
 * delaying the consumer when the frame's budget is spent. Times are milliseconds on an
 * abstract clock.
 */
module Throttling {
  import opened Wrappers

  /** The throttle's memory: when the current frame began and how many items it yielded. */
  datatype Window = Window(last: Option<int>, count: int)

  /** What the environment contributes to one dequeue: the consumer's time between receiving an
    * item and asking for the next one, and how late a delay may wake up. */
  datatype Step = Step(idle: nat, lateness: nat)

  /** Why a dequeue run stopped. */
  datatype Stop = Drained | Starved | Cancelled

  const Fresh: Window := Window(None, 0)

  /** The window is either unused, or has yielded between one and `max` items. */
  predicate WindowOk(w: Window, max: int) {
    (w.last.None? && w.count == 0) || (w.last.Some? && 1 <= w.count <= max)
  }

  /**
   * One throttle decision at time `now`, as the source writes it: the new window and the time the
   * item is handed out. A spent window whose frame has already elapsed is left as it is.
   */
  function ThrottleStep(w: Window, timeFrame: nat, max: int, now: int, lateness: nat): (r: (Window, int))
    ensures r.1 >= now
    ensures WindowOk(w, max) && max >= 1 ==> WindowOk(r.0, max)
    // the first item opens a window; one within the frame's budget passes at once and is counted
    ensures w.last.None? ==> r == (Window(Some(now), 1), now)
    ensures w.last.Some? && w.count < max ==> r == (Window(w.last, w.count + 1), now)
    // a spent window delays the item to the end of its frame and opens a new window there
    ensures w.last.Some? && w.count >= max && now - w.last.value < timeFrame ==>
      r.0 == Window(Some(r.1), 1) && w.last.value + timeFrame <= r.1 <= w.last.value + timeFrame + lateness
    // a spent window whose frame has elapsed lets the item pass and stays as it is
    ensures w.last.Some? && w.count >= max && now - w.last.value >= timeFrame ==> r == (w, now)
    ensures r.1 > now ==> w.last.Some? && w.count >= max && r.1 >= w.last.value + timeFrame
  {
    if w.last.None? then (Window(Some(now), 1), now)
    else if w.count < max then (Window(w.last, w.count + 1), now)
    else
      var elapsed := now - w.last.value;
      if elapsed < timeFrame then
        var t := now + (timeFrame - elapsed) + lateness;
        (Window(Some(t), 1), t)
      else (w, now)
  }

  /** The corrected decision: a spent window whose frame has elapsed starts a new frame now. */
  function ThrottleStepFixed(w: Window, timeFrame: nat, max: int, now: int, lateness: nat): (r: (Window, int))
    ensures r.1 >= now
    ensures WindowOk(w, max) && max >= 1 ==> WindowOk(r.0, max)
    // a spent window whose frame has elapsed opens a new window now
    ensures w.last.Some? && w.count >= max && now - w.last.value >= timeFrame ==> r == (Window(Some(now), 1), now)
  {
    if w.last.None? then (Window(Some(now), 1), now)
    else if w.count < max then (Window(w.last, w.count + 1), now)
    else
      var elapsed := now - w.last.value;
      if elapsed < timeFrame then
        var t := now + (timeFrame - elapsed) + lateness;
        (Window(Some(t), 1), t)
      else (Window(Some(now), 1), now)
  }

  /** The final window and the yield times of a run that dequeues one item per step, starting at `now`. */
  function Trace(w: Window, timeFrame: nat, max: int, now: int, steps: seq<Step>): (r: (Window, seq<int>))
    decreases |steps|
    ensures |r.1| == |steps|
    ensures WindowOk(w, max) && max >= 1 ==> WindowOk(r.0, max)
    ensures forall i :: 0 <= i < |r.1| ==> r.1[i] >= now
  {
    if steps == [] then (w, [])
    else
      var s := ThrottleStep(w, timeFrame, max, now, steps[0].lateness);
      var rest := Trace(s.0, timeFrame, max, s.1 + steps[0].idle, steps[1..]);
      (rest.0, [s.1] + rest.1)
  }

  /** Items are handed out in order: the yield times of a run never decrease. */
  lemma {:induction false} TraceNondecreasing(w: Window, timeFrame: nat, max: int, now: int, steps: seq<Step>)
    decreases |steps|
    ensures var times := Trace(w, timeFrame, max, now, steps).1;
      forall i :: 0 <= i < |times| - 1 ==> times[i] <= times[i + 1]
  {
    if steps != [] {
      var s := ThrottleStep(w, timeFrame, max, now, steps[0].lateness);
      var rest := Trace(s.0, timeFrame, max, s.1 + steps[0].idle, steps[1..]).1;
      TraceNondecreasing(s.0, timeFrame, max, s.1 + steps[0].idle, steps[1..]);
      assert var t := Trace(s.0, timeFrame, max, s.1 + steps[0].idle, steps[1..]).1;
        forall i :: 0 <= i < |t| - 1 ==> t[i] <= t[i + 1];
      assert forall j :: 0 <= j < |rest| - 1 ==> rest[j] <= rest[j + 1];
      var times := Trace(w, timeFrame, max, now, steps).1;
      assert times == [s.1] + rest;
      forall i | 0 <= i < |times| - 1 ensures times[i] <= times[i + 1] {
        assert times[i + 1] == rest[i];
        if i > 0 {
          assert times[i] == rest[i - 1];
          assert rest[i - 1] <= rest[i - 1 + 1];
        } else {
          assert rest[0] >= s.1 + steps[0].idle;
        }
      }
    }
  }

  /** From window `w` at time `now`, the remaining steps complete a run whose result is `final`. */
  ghost predicate RunsTo(w: Window, timeFrame: nat, max: int, now: int, rest: seq<Step>, times: seq<int>, final: (Window, seq<int>)) {
    Trace(w, timeFrame, max, now, rest).0 == final.0 && times + Trace(w, timeFrame, max, now, rest).1 == final.1
  }

  /** Taking the first decision of a run off its remainder keeps the run's final window and times. */
  lemma TraceAdvance(w: Window, timeFrame: nat, max: int, now: int, step: Step, rest: seq<Step>, times: seq<int>, final: (Window, seq<int>), w': Window, t: int)
    requires rest != [] && rest[0] == step && RunsTo(w, timeFrame, max, now, rest, times, final)
    requires (w', t) == ThrottleStep(w, timeFrame, max, now, step.lateness)
    ensures RunsTo(w', timeFrame, max, t + step.idle, rest[1..], times + [t], final)
  {
    var tail := Trace(w', timeFrame, max, t + step.idle, rest[1..]);
    assert times + ([t] + tail.1) == (times + [t]) + tail.1;
  }

  /** Moving the head of the buffer to the end of the items read keeps their concatenation. */
  lemma TakeFirst<T>(items: seq<T>, buffer: seq<T>, whole: seq<T>)
    requires buffer != [] && items + buffer == whole
    ensures (items + [buffer[0]]) + buffer[1..] == whole
  {
    assert buffer == [buffer[0]] + buffer[1..];
  }

  /** The steps still ahead start with step `i`. */
  lemma StepsAhead(steps: seq<Step>, i: nat, k: nat, rest: seq<Step>)
    requires i < k <= |steps| && rest == steps[i..k]
    ensures rest != [] && rest[0] == steps[i] && rest[1..] == steps[i + 1..k]
  {
  }

  /** Trace with the corrected decision. */
  function TraceFixed(w: Window, timeFrame: nat, max: int, now: int, steps: seq<Step>): (r: (Window, seq<int>))
    decreases |steps|
    ensures |r.1| == |steps|
    ensures forall i :: 0 <= i < |r.1| ==> r.1[i] >= now
  {
    if steps == [] then (w, [])
    else
      var s := ThrottleStepFixed(w, timeFrame, max, now, steps[0].lateness);
      var rest := TraceFixed(s.0, timeFrame, max, s.1 + steps[0].idle, steps[1..]);
      (rest.0, [s.1] + rest.1)
  }

  /** The times at which the items are asked for when nothing ever delays them. */
  function Arrivals(now: int, steps: seq<Step>): (r: seq<int>)
    decreases |steps|
    ensures |r| == |steps|
  {
    if steps == [] then [] else [now] + Arrivals(now + steps[0].idle, steps[1..])
  }

  /**
   * As written: once a spent window's frame has elapsed, the throttle never delays again; every
   * later item is handed out the moment it is asked for and the window never changes.
   */
  lemma {:induction false} NeverThrottledAgain(w: Window, timeFrame: nat, max: int, now: int, steps: seq<Step>)
    requires w.last.Some? && w.count >= max && now - w.last.value >= timeFrame
    decreases |steps|
    ensures Trace(w, timeFrame, max, now, steps) == (w, Arrivals(now, steps))
  {
    if steps != [] {
      NeverThrottledAgain(w, timeFrame, max, now + steps[0].idle, steps[1..]);
    }
  }

  /**
   * As written, with one item per frame and a consumer that always asks again within a frame,
   * consecutive items are handed out at least one frame apart.
   */
  lemma {:induction false} OnePerFrameWhenConsumerKeepsUp(w: Window, timeFrame: nat, now: int, steps: seq<Step>)
    requires w == Fresh || (w.last.Some? && w.count == 1 && now - w.last.value < timeFrame)
    requires forall i :: 0 <= i < |steps| ==> steps[i].idle < timeFrame
    decreases |steps|
    ensures var times := Trace(w, timeFrame, 1, now, steps).1;
      forall i :: 0 <= i < |times| - 1 ==> times[i + 1] >= times[i] + timeFrame
    ensures w.last.Some? && steps != [] ==> Trace(w, timeFrame, 1, now, steps).1[0] >= w.last.value + timeFrame
  {
    if steps != [] {
      var s := ThrottleStep(w, timeFrame, 1, now, steps[0].lateness);
      var next := s.1 + steps[0].idle;
      assert s.0 == Window(Some(s.1), 1);
      OnePerFrameWhenConsumerKeepsUp(s.0, timeFrame, next, steps[1..]);
    }
  }

  /** The number of whole frames of `max` items that `n` items fill: n / max, counted out. */
  function Frames(n: nat, max: int): (f: nat)
    requires max >= 1
    decreases n
    ensures f * max <= n < (f + 1) * max
  {
    if n < max then 0 else 1 + Frames(n - max, max)
  }

  /** Item i of `times` comes no earlier than the whole frames filled by c + i items, counted from `l`. */
  predicate PacedFrom(times: seq<int>, l: int, c: nat, timeFrame: nat, max: int)
    requires max >= 1
  {
    forall i :: 0 <= i < |times| ==> times[i] >= l + Frames(c + i, max) * timeFrame
  }

  /** An item handed out within the current frame, before a run paced from the next count. */
  lemma PacedWithinFrame(times: seq<int>, rest: seq<int>, l: int, c: nat, timeFrame: nat, max: int)
    requires max >= 1 && 1 <= c < max
    requires times != [] && times[1..] == rest && times[0] >= l
    requires PacedFrom(rest, l, c + 1, timeFrame, max)
    ensures PacedFrom(times, l, c, timeFrame, max)
  {
    forall i | 0 <= i < |times| ensures times[i] >= l + Frames(c + i, max) * timeFrame {
      if i == 0 {
        assert Frames(c, max) == 0;
      } else {
        assert times[i] == rest[i - 1];
        assert c + 1 + (i - 1) == c + i;
      }
    }
  }

  /** An item that opens a new frame at `t`, at least a frame after `l`, before a run paced from `t`. */
  lemma PacedNewFrame(times: seq<int>, rest: seq<int>, l: int, t: int, timeFrame: nat, max: int)
    requires max >= 1
    requires times != [] && times[1..] == rest && times[0] == t && t >= l + timeFrame
    requires PacedFrom(rest, t, 1, timeFrame, max)
    ensures PacedFrom(times, l, max, timeFrame, max)
  {
    forall i | 0 <= i < |times| ensures times[i] >= l + Frames(max + i, max) * timeFrame {
      var f := Frames(i, max);
      assert Frames(max + i, max) == 1 + f;
      assert (1 + f) * timeFrame == timeFrame + f * timeFrame;
      if i > 0 {
        assert times[i] == rest[i - 1];
        assert 1 + (i - 1) == i;
        assert rest[i - 1] >= t + Frames(i, max) * timeFrame;
      }
    }
  }

  /**
   * Corrected throttle, general form: from a frame that began at `l` and has yielded `c` items,
   * the i-th item of the run is handed out no earlier than (c + i) / max whole frames after `l`.
   */
  lemma {:induction false} FixedRateFrom(l: int, c: int, timeFrame: nat, max: int, now: int, steps: seq<Step>)
    requires max >= 1 && 1 <= c <= max && now >= l
    decreases |steps|
    ensures PacedFrom(TraceFixed(Window(Some(l), c), timeFrame, max, now, steps).1, l, c, timeFrame, max)
  {
    if steps != [] {
      var w := Window(Some(l), c);
      var s := ThrottleStepFixed(w, timeFrame, max, now, steps[0].lateness);
      var next := s.1 + steps[0].idle;
      var times := TraceFixed(w, timeFrame, max, now, steps).1;
      var rest := TraceFixed(s.0, timeFrame, max, next, steps[1..]).1;
      assert times == [s.1] + rest;
      assert times[1..] == rest;
      if c < max {
        assert s.0 == Window(Some(l), c + 1);
        FixedRateFrom(l, c + 1, timeFrame, max, next, steps[1..]);
        PacedWithinFrame(times, rest, l, c, timeFrame, max);
      } else {
        assert s.0 == Window(Some(s.1), 1) && s.1 >= l + timeFrame;
        FixedRateFrom(s.1, 1, timeFrame, max, next, steps[1..]);
        PacedNewFrame(times, rest, l, s.1, timeFrame, max);
      }
    }
  }

  /**
   * Corrected throttle: in a run from a fresh queue, the i-th item is handed out no earlier than
   * i / max whole frames after the first one: at most `max` items per frame, however slow the consumer.
   */
  lemma FixedRateBound(timeFrame: nat, max: int, now: int, steps: seq<Step>)
    requires max >= 1
    ensures var times := TraceFixed(Fresh, timeFrame, max, now, steps).1;
      forall i :: 0 <= i < |times| ==> times[i] >= times[0] + Frames(i, max) * timeFrame
  {
    if steps != [] {
      var times := TraceFixed(Fresh, timeFrame, max, now, steps).1;
      var next := now + steps[0].idle;
      var rest := TraceFixed(Window(Some(now), 1), timeFrame, max, next, steps[1..]).1;
      assert times == [now] + rest;
      FixedRateFrom(now, 1, timeFrame, max, next, steps[1..]);
      assert PacedFrom(rest, now, 1, timeFrame, max);
      PacedAfterFirst(times, rest, now, timeFrame, max);
    }
  }

  /** A first item at `now`, followed by a run paced from a frame that began at `now` with one item. */
  lemma PacedAfterFirst(times: seq<int>, rest: seq<int>, now: int, timeFrame: nat, max: int)
    requires max >= 1
    requires times == [now] + rest && PacedFrom(rest, now, 1, timeFrame, max)
    ensures forall i :: 0 <= i < |times| ==> times[i] >= times[0] + Frames(i, max) * timeFrame
  {
    forall i | 0 < i < |times| ensures times[i] >= times[0] + Frames(i, max) * timeFrame {
      assert times[i] == rest[i - 1];
      assert 1 + (i - 1) == i;
    }
  }

  /**
   * As written, the limit of one item per frame is broken: with a 10 ms frame, a consumer that
   * pauses 15 ms after the first item receives the second and third items at the same instant.
   * The corrected throttle hands the third one out a full frame later.
   */
  lemma WindowNotResetExample()
    ensures Trace(Fresh, 10, 1, 0, [Step(15, 0), Step(0, 0), Step(0, 0)]).1 == [0, 15, 15]
    ensures TraceFixed(Fresh, 10, 1, 0, [Step(15, 0), Step(0, 0), Step(0, 0)]).1 == [0, 15, 25]
  {
  }

  /** A queue whose reader is throttled; `buffer` holds the written, not yet read items. */
  class ThrottlingQueue<T> {
    const timeFrame: nat
    const maxItemsPerTimeFrame: int
    var buffer: seq<T>
    var completed: bool
    var lastYieldTime: Option<int>
    var yieldCount: int

    function CurrentWindow(): Window
      reads this
    {
      Window(lastYieldTime, yieldCount)
    }

    ghost predicate Valid()
      reads this
    {
      timeFrame > 0 && maxItemsPerTimeFrame >= 1 && WindowOk(CurrentWindow(), maxItemsPerTimeFrame)
    }

    constructor (timeFrame: nat, maxItemsPerTimeFrame: int)
      requires timeFrame > 0 && maxItemsPerTimeFrame >= 1
      ensures Valid()
      ensures this.timeFrame == timeFrame && this.maxItemsPerTimeFrame == maxItemsPerTimeFrame
      ensures buffer == [] && !completed && CurrentWindow() == Fresh
    {
      this.timeFrame := timeFrame;
      this.maxItemsPerTimeFrame := maxItemsPerTimeFrame;
      buffer := [];
      completed := false;
      lastYieldTime := None;
      yieldCount := 0;
    }

    /** Writes an item unless the queue was completed; reports whether it was written. */
    method Enqueue(item: T) returns (written: bool)
      requires Valid()
      modifies this
      ensures Valid()
      ensures written == !old(completed)
      ensures buffer == old(buffer) + (if written then [item] else [])
      ensures completed == old(completed) && CurrentWindow() == old(CurrentWindow())
    {
      written := !completed;
      if written {
        buffer := buffer + [item];
      }
    }

    /** Closes the writer side; the items already written can still be read. Completing twice is harmless. */
    method Complete()
      requires Valid()
      modifies this
      ensures Valid()
      ensures completed && buffer == old(buffer) && CurrentWindow() == old(CurrentWindow())
    {
      completed := true;
    }

    /**
     * One throttle decision at time `now`, which the delay overruns by `lateness`: the window
     * moves as `ThrottleStep` says, and the item is handed out at the time it gives.
     */
    method Throttle(now: int, lateness: nat) returns (yieldTime: int)
      requires Valid()
      modifies this
      ensures Valid()
      ensures (CurrentWindow(), yieldTime) == ThrottleStep(old(CurrentWindow()), timeFrame, maxItemsPerTimeFrame, now, lateness)
      ensures buffer == old(buffer) && completed == old(completed)
    {
      if lastYieldTime.None? {
        lastYieldTime, yieldCount := Some(now), 1;
        return now;
      }
      if yieldCount < maxItemsPerTimeFrame {
        yieldCount := yieldCount + 1;
        return now;
      }
      var elapsed := now - lastYieldTime.value;
      yieldTime := now;
      if elapsed < timeFrame {
        yieldTime := now + (timeFrame - elapsed) + lateness;
        lastYieldTime, yieldCount := Some(yieldTime), 1;
      }
    }

    /**
     * Reads and throttles items, one per step, starting at time `start`. The run ends when the
     * queue is completed and empty (Drained), when it is empty but still open so that the reader
     * would wait for a writer (Starved), or when the steps run out (Cancelled).
     */
    method DequeueAll(start: int, steps: seq<Step>) returns (items: seq<T>, times: seq<int>, stop: Stop)
      requires Valid()
      modifies this
      ensures Valid()
      ensures var k := if |old(buffer)| < |steps| then |old(buffer)| else |steps|;
        items == old(buffer)[..k] && buffer == old(buffer)[k..] &&
        times == Trace(old(CurrentWindow()), timeFrame, maxItemsPerTimeFrame, start, steps[..k]).1 &&
        CurrentWindow() == Trace(old(CurrentWindow()), timeFrame, maxItemsPerTimeFrame, start, steps[..k]).0
      ensures completed == old(completed)
      ensures stop == Drained <==> buffer == [] && completed
      ensures stop == Starved <==> buffer == [] && !completed && |old(buffer)| < |steps|
    {
      ghost var k := if |buffer| < |steps| then |buffer| else |steps|;
      ghost var rest := steps[..k];
      ghost var final := Trace(CurrentWindow(), timeFrame, maxItemsPerTimeFrame, start, rest);
      items, times := [], [];
      var now := start;
      var i := 0;
      while i < |steps| && buffer != []
        invariant 0 <= i <= k && rest == steps[i..k]
        invariant Valid() && completed == old(completed)
        invariant items + buffer == old(buffer) && |items| == i
        invariant RunsTo(CurrentWindow(), timeFrame, maxItemsPerTimeFrame, now, rest, times, final)
      {
        StepsAhead(steps, i, k, rest);
        TakeFirst(items, buffer, old(buffer));
        var item := buffer[0];
        items, buffer := items + [item], buffer[1..];
        ghost var w := CurrentWindow();
        var yieldTime := Throttle(now, steps[i].lateness);
        TraceAdvance(w, timeFrame, maxItemsPerTimeFrame, now, steps[i], rest, times, final, CurrentWindow(), yieldTime);
        times := times + [yieldTime];
        now := yieldTime + steps[i].idle;
        rest := rest[1..];
        i := i + 1;
      }
      assert i == k && rest == [];
      assert items == old(buffer)[..k] && buffer == old(buffer)[k..];
      assert buffer == [] && i < |steps| <==> |old(buffer)| < |steps|;
      // An empty queue that is still open would make the reader wait for a writer.
      stop := if buffer == [] && completed then Drained else if buffer == [] && i < |steps| then Starved else Cancelled;
    }
  }

  /** Creates a queue, or fails as the source does for an empty frame or a budget below one. */
  method Create<T>(timeFrame: int, maxItemsPerTimeFrame: int) returns (r: Result<ThrottlingQueue<T>>)
    ensures r.Failure? <==> timeFrame <= 0 || maxItemsPerTimeFrame < 1
    ensures r.Failure? ==> r.error == ArgumentException
    ensures r.Success? ==> fresh(r.value) && r.value.Valid() && r.value.buffer == [] && !r.value.completed
  {
    if timeFrame <= 0 || maxItemsPerTimeFrame < 1 {
      return Failure(ArgumentException);
    }
    var q := new ThrottlingQueue<T>(timeFrame, maxItemsPerTimeFrame);
    return Success(q);
  }
}

=== FILE: tracker_request.dfy ===
/**
 * The Polygon tracker request: download the grouped daily prices of all crypto pairs and queue
 * one quote-history request per pair quoted in US dollars.
 */
module TrackerRequests {
  import opened Wrappers
  import opened Contracts
  import opened RequestInfos
  import opened RequestEngine
  import opened ApiCalls
  import opened PolygonNaming
  import opened DateRange
  import opened Redis
  import opened RequestQueues
  import RedisNames

  /** One entry of the grouped daily response; only its Polygon symbol is used. */
  datatype TrackerPrice = TrackerPrice(symbol: string)

  /** The decoded response: the status flag and the result list, which may be absent. */
  datatype GroupedResponse = GroupedResponse(statusOk: bool, results: Option<seq<TrackerPrice>>)

  /** The history request queued for one pair. */
  function HistoryRequest(symbol: string, from: Instant, to: Instant): (r: RequestInfo)
    ensures r.quoteHistoryDownload == Some(QuoteHistoryRequestInfo(symbol, from, to))
    ensures r.apiTag == Some(Polygon) && PayloadCount(r) == 1
  {
    DownloadQuoteHistory(QuoteHistoryRequestInfo(symbol, from, to), Polygon)
  }

  /** The history requests for the US-dollar pairs of `prices`, in response order. */
  function HistoryRequests(prices: seq<TrackerPrice>, from: Instant, to: Instant): (r: seq<RequestInfo>)
    ensures |r| <= |prices|
    ensures forall x :: x in r <==> exists p :: p in prices && ExtractCurrency(p.symbol) == "USD" && x == HistoryRequest(p.symbol, from, to)
    ensures forall x :: x in r ==> x.apiTag == Some(Polygon) && PayloadCount(x) == 1
  {
    if prices == [] then []
    else
      var rest := HistoryRequests(prices[1..], from, to);
      assert forall p :: p in prices <==> p == prices[0] || p in prices[1..];
      if ExtractCurrency(prices[0].symbol) == "USD" then [HistoryRequest(prices[0].symbol, from, to)] + rest
      else rest
  }

  /** The selection keeps response order: it distributes over concatenation. */
  lemma {:induction false} HistoryRequestsAppend(a: seq<TrackerPrice>, b: seq<TrackerPrice>, from: Instant, to: Instant)
    ensures HistoryRequests(a + b, from, to) == HistoryRequests(a, from, to) + HistoryRequests(b, from, to)
  {
    if a != [] {
      assert (a + b)[1..] == a[1..] + b;
      HistoryRequestsAppend(a[1..], b, from, to);
    } else {
      assert a + b == b;
    }
  }

  /**
   * How the request ends for a given API call: a rate-limit fault pauses and retries, other
   * faults give up, a missing result list is retried, and any result list, even one without a
   * single US-dollar pair, succeeds.
   */
  function TrackerOutcome(call: Call<GroupedResponse>): (r: RequestResult)
    ensures call.Faulted? ==> r == FaultOutcome(call.fault)
    ensures r == Retry <==> call.Answered? && call.response.results.None?
    ensures r == Ok <==> call.Answered? && call.response.results.Some?
  {
    match call
    case Faulted(fault) => FaultOutcome(fault)
    case Answered(response) => if response.results.None? then Retry else Ok
  }

  /**
   * Executes the request against the request queue, given how the API call went and the clock
   * reading `now`: on success the history requests for the last `quoteHistoryDays` days up to
   * yesterday are appended to the Polygon queue, and no other queue changes.
   */
  method ExecuteTracker(info: TrackerRequestInfo, call: Call<GroupedResponse>, now: Instant, queue: RedisRequestQueue) returns (result: RequestResult)
    requires queue.Valid()
    modifies queue
    ensures queue.Valid()
    ensures result == TrackerOutcome(call)
    ensures result == Ok ==>
      var range := DaysUntilYesterday(now, info.quoteHistoryDays);
      queue.Queue(Polygon) == old(queue.Queue(Polygon)) + HistoryRequests(call.response.results.value, range.0, range.1)
    ensures forall k :: k != RedisNames.Requests(Polygon) ==> GetList(queue.lists, k) == GetList(old(queue.lists), k)
    ensures result != Ok ==> queue.lists == old(queue.lists)
  {
    if call.Faulted? {
      return FaultOutcome(call.fault);
    }
    var response := call.response;
    if response.results.None? {
      return Retry;
    }
    var range := DaysUntilYesterday(now, info.quoteHistoryDays);
    var requests := HistoryRequests(response.results.value, range.0, range.1);
    EnqueueOneTag(queue.lists, requests, Polygon);
    var _ := queue.EnqueueRequests(requests);
    return Ok;
  }
}

=== FILE: wrappers.dfy ===
/** Option and Result values, and the exceptions of the modelled code that callers see. */
module Wrappers {

  datatype Option<+T> = None | Some(value: T)

  /** The .NET exception types thrown by the modelled operations. */
  datatype Exception =
    | ArgumentException
    | ArgumentNullException
    | ArgumentOutOfRangeException
    | InvalidOperationException

  /** The outcome of an operation that either returns a value or throws. */
  datatype Result<+T> = Success(value: T) | Failure(error: Exception)
}
